=== FILE: README.md ===
# project-monitor in Dafny

This project models the logic inside project-monitor, a Linux system monitor with a Qt
window. Under its I/O the program has several small pure cores, and this model covers
them:

- **Bounded metrics history** (`AppController`). The history keeps the last
  `HISTORY_DURATION // UPDATE_INTERVAL` = 1800 readings. Each cycle projects the reading
  onto five fields. A guarded monitoring flag controls start and stop.
- **Configuration** (`Config`). The built-in defaults are deep-merged with the user's
  `config.json`.
- **System metrics** (`SystemData`):
  - the RAM fragmentation index from `/proc/buddyinfo`;
  - the disk fragmentation score from `e4defrag`, with its per-mount cache;
  - storage totals over the partitions that could be read;
  - network speeds with the zero-elapsed guard.
- **Process table** (`ProcessManager`):
  - field defaults;
  - a stable sort by a whitelisted key, then Python-slice truncation;
  - case-insensitive name search;
  - the result record of `kill_process`;
  - the status counts.
- **Control surfaces**:
  - `MsiEc`: the msi-ec nodes, mode validation, cooler-boost normalisation and battery thresholds;
  - `Power`: the cpufreq governor and maximum frequency, and the pkexec helper command line;
  - `Sensors`: temperatures, fans, the hwmon `fanN`→`pwmN` derivation and the PWM range check;
  - `AppProfiles`: applying a named profile;
  - `Control`: what these share, namely the helper call and the folding of step results.
- **Window decisions** (`MainWindow`):
  - alert levels and the alert line;
  - the chart time window and the plotted points;
  - the treemap's split of items into rows;
  - the process-name filter.

`Base` and `Text` hold the shared result types. `Text` also holds Python's string
operations as the program uses them: `split()`, `strip()`, `in`, `lower()`, `int()` and
`str()`.

Everything the program learns from the outside is a parameter of the model:
- psutil results;
- file contents, including None for a read that raised;
- whether a node exists;
- how a write ended;
- what `subprocess.run` returned;
- the clock.

So every operation is a pure function of what it observed. Exceptions that the source
catches become explicit cases. Exceptions that escape the method become a `Raises`
result (`SystemData.Raising`) or an `AppProfiles.Applied.Raised` result, except those
listed under "## Left out", which the model does not represent.

## Model

| member | source | states |
|---|---|---|
| AppController.MaxHistoryEntries | src/controller/app_controller.py:35-37 | The history capacity is `HISTORY_DURATION // int(UPDATE_INTERVAL)`: twice it is the 3600 s of history, so it is 1800. |
| AppController.Init | src/controller/app_controller.py:39-67 | A new controller has capacity 1800, an empty history, no current reading, no callback and monitoring off. |
| AppController.BoundedAppend | src/controller/app_controller.py:54 | `deque(maxlen=cap).append` never exceeds cap. Below capacity it appends. At capacity it drops the oldest entry and puts the new one last. |
| AppController.HistoryIsLastAppended | src/controller/app_controller.py:100-106 | After any sequence of appends to an empty history, the history is exactly the last min(n, cap) appended items, oldest first, and never longer than cap. |
| AppController.UpdateMetrics | src/controller/app_controller.py:81-112 | A failed collection changes nothing and notifies nobody. A successful one makes the reading current, appends its timestamp, cpu total, ram percent, upload and download speed as the newest entry, and notifies. Capacity, the monitoring flag and the history bound are preserved. |
| AppController.Notify | src/controller/app_controller.py:114-130 | There is no notification without a current reading. A registered callback receives the reading and the console dump is skipped; otherwise the console dump happens. |
| AppController.SetViewCallback | src/controller/app_controller.py:69-79 | A callback is registered; capacity, history, current reading and the monitoring flag are untouched. CallbackTakesOver states what the registration changes for later cycles. |
| AppController.CallbackTakesOver | src/controller/app_controller.py:69-79 | After `set_view_callback`, every successful cycle calls the callback with the new reading and never prints to the console. |
| AppController.StartMonitoring | src/controller/app_controller.py:215-235 | Starting while monitoring is a no-op. Otherwise a start is attempted, and the flag becomes exactly whether the collection thread started. |
| AppController.StopMonitoring | src/controller/app_controller.py:237-248 | Stopping while not monitoring is a no-op. Otherwise a stop is requested and the flag drops; nothing else changes. |
| AppController.StartStopRoundTrip | src/controller/app_controller.py:215-248 | A successful start followed by a stop gives back the original controller. |
| AppController.RunHistory | src/controller/app_controller.py:259-266 | Over any interleaving of cycles, starts, stops and callback registrations, the capacity never changes. The history (what `get_metrics_history` returns) is the last `capacity` entries of the old history plus the projections of the successful cycles, in insertion order. |
| AppController.GetMetricsHistory | src/controller/app_controller.py:259-266 | The history handed out never holds more entries than the deque's capacity. |
| AppController.HistoryFromStart | src/controller/app_controller.py:259-266 | From a new controller, after any run of events, `get_metrics_history` returns the last 1800 entries appended by successful cycles, oldest first. |
| Config.DeepUpdate | src/config.py:61-67 | The merged keys are the union. A target-only key keeps its value. A key where both sides hold objects is merged recursively. Any other source value overwrites. |
| Config.DeepUpdateEmpty | src/config.py:63 | Merging an empty source changes nothing. |
| Config.DeepUpdateSelf | src/config.py:64-65 | Merging an object into itself gives it back. |
| Config.DeepUpdateIdempotent | src/config.py:61-67 | Merging the same source twice gives the same result as merging it once. |
| Config.LoadConfig | src/config.py:41-67 | A missing, unreadable or non-object config file leaves the defaults unchanged. An object file yields every default key plus every user key. A key only the defaults have keeps its default value. A key where both hold objects gets the recursive merge of the two. Every other user value replaces the default. |
| Config.LoadEmptyObject | src/config.py:47-58 | An empty JSON object in config.json yields exactly the defaults. |
| SystemData.ParseAll | src/model/system_data.py:226 | The list comprehension `int(x)` succeeds iff every token parses, and then gives each token's value in order. |
| SystemData.ParseBuddyinfo | src/model/system_data.py:223-226 | Every line contributes the counts from its fifth token on. If any line has a non-integer count, the whole parse fails. |
| SystemData.RowLargest | src/model/system_data.py:227-231 | The largest block of a line bounds 2^order for every order with a positive count. It is 0 or one of those block sizes. |
| SystemData.LargestBlock | src/model/system_data.py:223-231 | The largest block over all lines bounds 2^order for every positive count on any line. |
| SystemData.LargestBlockAttained | src/model/system_data.py:230-231 | The largest block is 0 or is attained by some order with a positive count. |
| SystemData.FragmentationIndex | src/model/system_data.py:233-237 | The index is None exactly when there are no free pages (Σ count·2^order = 0); otherwise it lies in [0, 1]. |
| SystemData.LargestWithinTotal | src/model/system_data.py:236-237 | With non-negative counts, largest ≤ total, so the index is exactly 1 − largest/total and the clamp never changes it. |
| SystemData.RamFragmentation | src/model/system_data.py:207-237 | An unreadable buddyinfo gives None. The method raises exactly when some count is not an integer. Any index returned lies in [0, 1]. |
| SystemData.ScoreFromLinesFirst | src/model/system_data.py:263-271 | The score is taken from the first "Fragmentation score" line whose text after ':' parses; earlier score lines failed to parse. None means no score line parses. |
| SystemData.MeasuredFragmentation | src/model/system_data.py:253-279 | A missing tool, a timeout or another SubprocessError gives None. An OSError executing e4defrag escapes, and nothing else does. A finished run has a value exactly when a score line parses. The value is max(0, min(score/100, 1)), which is exactly score/100 for a score in [0, 100]. |
| SystemData.DiskFragmentation | src/model/system_data.py:239-282 | An entry younger than 600 s answers before the fstype check. A non-ext fstype gives None and does not touch the cache. Otherwise the call raises exactly when e4defrag raised an escaping OSError, and then nothing is cached. Any other measurement, None included, is cached with the current time. Valid caches stay valid. |
| SystemData.Clamp01 | src/model/system_data.py:275 | `max(0.0, min(x, 1.0))`: the result lies in [0, 1]. It is x inside that range, 0 below it and 1 above it. |
| SystemData.Accessible | src/model/system_data.py:110-133 | A partition is kept iff it is one of the inputs and its `disk_usage` did not raise; never more than the input. Order and multiplicity are stated by AccessibleConcat and AccessibleOne. |
| SystemData.AccessibleConcat | src/model/system_data.py:110-133 | Filtering distributes over concatenation, so the kept partitions keep the order of `disk_partitions()`. |
| SystemData.AccessibleOne | src/model/system_data.py:110-133 | A single partition is kept, once, iff its usage was read. |
| SystemData.PartitionStep | src/model/system_data.py:111-133 | One loop turn yields at most the partition's own entry, describing it. Without an escaping e4defrag failure, the entry is present iff its usage was read. A valid cache stays valid. |
| SystemData.PartitionInfos | src/model/system_data.py:110-133 | Entries and kept partitions correspond one to one, with device, mount point, fstype and usage figures. Kept partitions come from the input and had their usage read. With no escaping e4defrag failure, the kept partitions are exactly the accessible ones. Valid caches stay valid. Which partitions are kept otherwise, and each entry's fragmentation, are stated by PartitionInfosOne and PartitionInfosConcat. |
| SystemData.PartitionInfosOne | src/model/system_data.py:111-133 | A partition whose usage raised, or whose fragmentation measurement raised, gives no entry and leaves the cache alone. Otherwise it gives one entry describing it, whose fragmentation is the value `_get_disk_fragmentation_linux` returned, and the cache that call left. |
| SystemData.PartitionInfosConcat | src/model/system_data.py:110-133 | The loop over two batches of partitions is the loop over the first batch, then the loop over the second starting from the cache the first left. |
| SystemData.GetStorageMetrics | src/model/system_data.py:95-143 | The entries, fragmentation included, and the new cache are those of the partition loop, which PartitionInfosOne and PartitionInfosConcat pin down partition by partition. Total and used are the sums over the partitions listed. Free is total − used. Percent is 0 when total ≤ 0, and in [0, 100] when 0 ≤ used ≤ total. With no escaping e4defrag failure, the list describes exactly the accessible partitions and the totals are their sums. |
| SystemData.DescribedSums | src/model/system_data.py:127-129 | The totals accumulated from the entries equal the usage sums over the partitions they describe. |
| SystemData.SumsOverAccessible | src/model/system_data.py:128-133 | Inaccessible partitions contribute nothing to the sums. |
| SystemData.SumsAdditive | src/model/system_data.py:135-142 | The totals over two batches of partitions are the sums of their totals. |
| SystemData.StoragePercentBounded | src/model/system_data.py:136-141 | When every partition's used lies within its size, the aggregate percent is in [0, 100] and free is non-negative, whichever partitions were dropped. |
| SystemData.Speed | src/model/system_data.py:172-173 | With no elapsed time the speed is 0; otherwise speed × elapsed equals the byte delta. |
| SystemData.GetNetworkMetrics | src/model/system_data.py:145-190 | The deltas are current minus previous counters, and the totals are the current counters. The speeds obey the zero-elapsed guard. The new sample and time replace the old ones. |
| ProcessManager.OrUnknown | src/model/process_manager.py:69-70 | `x or 'Unknown'`: None and "" become "Unknown"; the result is never empty. |
| ProcessManager.Record | src/model/process_manager.py:67-80 | Pid and create time are copied. Missing name, status and user become "Unknown". Missing percentages and thread count become 0. rss/vms/io are 0 when unavailable and copied otherwise. |
| ProcessManager.Collect | src/model/process_manager.py:52-86 | The list holds exactly the records of the processes that could be read. |
| ProcessManager.CollectConcat | src/model/process_manager.py:55-86 | Collecting a split enumeration collects each part and concatenates them, so records keep enumeration order. |
| ProcessManager.CollectOne | src/model/process_manager.py:58-86 | A readable process contributes its record; a vanished or denied one contributes nothing. |
| ProcessManager.SortRecords | src/model/process_manager.py:88-92 | Sorting is a permutation, and no record is placed after one that must precede it. |
| ProcessManager.FieldOf | src/model/process_manager.py:89-92 | Exactly the five keys cpu_percent, memory_percent, pid, num_threads and name select a sort field; any other `sort_by` leaves the order alone. |
| ProcessManager.SortKeepsTies | src/model/process_manager.py:90 | When every key ties, sorting keeps enumeration order, also with `reverse=True`. |
| ProcessManager.SortStable | src/model/process_manager.py:89-92 | Stability: for every key value, the records carrying it come out of the sort in enumeration order, also with `reverse=True`. |
| ProcessManager.InsertWithKey | src/model/process_manager.py:89-92 | Inserting into a sorted list places the new record after every record with the same key. |
| ProcessManager.LexLtTransitive | src/model/process_manager.py:92 | String order, which the name sort uses, is transitive. |
| ProcessManager.LexLtTotal | src/model/process_manager.py:92 | String order is total on distinct strings. |
| ProcessManager.Take | src/model/process_manager.py:95-96 | `processes[:limit]` is a prefix. Its length is min(limit, n) for limit ≥ 0; a negative limit counts from the end. |
| ProcessManager.GetProcessList | src/model/process_manager.py:29-98 | The result is a sub-multiset of the collected records. For a recognised key it is sorted. No record cut off by the limit must be placed before a kept one. Records sharing a key keep their enumeration order. For an unrecognised key it is a prefix of enumeration order. The length is n without a limit, min(limit, n) for limit ≥ 0, and n + limit (at least 0) for a negative limit. |
| ProcessManager.PrefixKeepsTop | src/model/process_manager.py:95-96 | A prefix of a sorted list outranks the rest: nothing cut off must precede a kept record. |
| ProcessManager.DefaultListing | src/model/process_manager.py:29-31 | With the default arguments, every collected process appears, busiest CPU first. |
| ProcessManager.SearchProcessByName | src/model/process_manager.py:226-253 | The hits are exactly the readable processes whose non-empty name contains the term, case-insensitively. |
| ProcessManager.SearchConcat | src/model/process_manager.py:239-251 | Searching two batches is searching each, with the results concatenated in enumeration order. |
| ProcessManager.KillProcess | src/model/process_manager.py:141-203 | The pid is always echoed. Success holds iff the signal was sent and either force was set or the wait did not time out. The timeout and success messages, and the messages for a vanished process, a denied access and any other error, are those of the source, each naming the pid. |
| ProcessManager.Tally | src/model/process_manager.py:212-221 | Each status seen maps to the number of readable processes reporting it. |
| ProcessManager.GetProcessCount | src/model/process_manager.py:205-224 | 'total' is the number of readable processes; every other key counts its status. |
| Control.PythonBin | src/model/power_manager.py:106 | `sys.executable or "/usr/bin/python3"` is never empty. |
| Control.RunHelper | src/model/msi_ec_manager.py:138-151 | A missing helper or missing pkexec fails with its fixed text. The command is pkexec, python, helper, then the flags. Success iff the helper exited 0. The message is stripped stdout or stderr, or the default, or the subprocess error. |
| Control.HelperMessageNonEmpty | src/model/msi_ec_manager.py:148-149 | With non-empty fixed texts, a helper call always has a non-empty message. |
| Control.Combine | src/model/app_profiles.py:35-57 | Success is the conjunction of the executed steps. The message is their non-empty messages joined with " \| " in order. |
| Control.CombineMessageEmpty | src/model/app_profiles.py:57 | The combined message is empty exactly when every step message is empty. |
| MsiEc.EcRunHelper | src/model/msi_ec_manager.py:138-151 | A missing helper fails with "Helper msi-ec no encontrado" and a missing pkexec with "pkexec no disponible", neither running anything. Otherwise the command ends with `--<target> <value>`. Success iff the helper exited 0. The message is the stripped stdout or "<target> aplicado" on success, the stripped stderr or "pkexec falló ajustando <target>" on failure, and never empty. |
| MsiEc.WriteValue | src/model/msi_ec_manager.py:126-136 | A direct write gives "<node> ajustado a <value>". Permission denied gives the fixed failure without pkexec, or the helper's result with it. Other errors name the node. Success iff the write or the helper succeeded, and the message is never empty. |
| MsiEc.SafeReadStr | src/model/msi_ec_manager.py:162-167 | The result is the stripped contents, or "" when the read raised. |
| MsiEc.ReadList | src/model/msi_ec_manager.py:154-159 | The result is the whitespace-separated words (non-empty, space-free), or [] when the read raised. |
| MsiEc.ReadListOfJoin | src/model/msi_ec_manager.py:154-159 | A node holding modes separated by single spaces reads back as exactly those modes. |
| MsiEc.GetInfo | src/model/msi_ec_manager.py:32-42 | A missing msi-ec base gives only "unavailable". Otherwise each field is the safe read of its node. |
| MsiEc.NormalizeBoost | src/model/msi_ec_manager.py:57-61 | "1", "on", "true" and "True" become "on"; "0", "off", "false" and "False" become "off"; anything else passes unchanged. |
| MsiEc.NormalizeBoostIdempotent | src/model/msi_ec_manager.py:57-61 | Normalising twice equals normalising once. |
| MsiEc.SetCoolerBoost | src/model/msi_ec_manager.py:50-62 | A missing node fails with no write. Otherwise the normalised value is written to cooler_boost. |
| MsiEc.OnOff | src/model/msi_ec_manager.py:97 | The result is "on" iff enabled and "off" iff disabled. |
| MsiEc.SetWebcam | src/model/msi_ec_manager.py:93-97 | A missing node fails with no write. Otherwise "on" or "off" is written according to `enable`. |
| MsiEc.SetWebcamBlock | src/model/msi_ec_manager.py:99-103 | A missing node fails with no write. Otherwise "on" or "off" is written according to `enable`. |
| MsiEc.SetKeyboardBacklight | src/model/msi_ec_manager.py:106-110 | A missing node fails with no write. Otherwise the decimal level is written to `brightness` with the write's outcome, and it parses back to the level. |
| MsiEc.WriteMode | src/model/msi_ec_manager.py:117-124 | A write happens iff the node exists and the available list is empty or contains the value. A rejected value lists the allowed ones. Success implies a write. |
| MsiEc.SetFanMode | src/model/msi_ec_manager.py:44-45 | A missing fan_mode node fails as unsupported. The mode is written iff the node exists and available_fan_modes is empty or lists it; a rejected mode fails with the listed ones. Success implies the node exists. |
| MsiEc.SetShiftMode | src/model/msi_ec_manager.py:47-48 | A missing shift_mode node fails as unsupported. The mode is written iff the node exists and available_shift_modes is empty or lists it; a rejected mode fails with the listed ones. Success implies the node exists. |
| MsiEc.ListedModeIsWritten | src/model/msi_ec_manager.py:121-124 | A mode the node lists as available is always written. |
| MsiEc.ThresholdSteps | src/model/msi_ec_manager.py:82-89 | One write per given threshold, start first and end last; a None threshold is skipped. All the steps succeed iff every requested write succeeds. |
| MsiEc.SetBatteryThresholds | src/model/msi_ec_manager.py:76-90 | A missing BAT1 fails. Otherwise success is the conjunction of the requested writes, and the message is their non-empty messages joined with " \| ", or "OK". |
| MsiEc.BatteryOkOnlyWhenNothingAsked | src/model/msi_ec_manager.py:90 | "OK" appears exactly when no threshold was given, and then the call succeeds. Otherwise the message is the joined write messages, never empty. |
| Power.SafeInt | src/model/power_manager.py:139-143 | None, and text `int()` rejects, give None. Decimal text gives its value. |
| Power.SafeIntOfDecimal | src/model/power_manager.py:139-143 | The decimal text of any integer parses back to it. |
| Power.AvailableList | src/model/power_manager.py:37-38 | The available governors are the whitespace-separated words of the node's first line; an empty or unreadable node gives none. |
| Power.AvailableListOfNode | src/model/power_manager.py:37-38 | A node listing governor names, each followed by a space and the line ended by a newline, reads back as exactly those names. |
| Power.GetGovernors | src/model/power_manager.py:29-46 | With no CPU there is no cpufreq information, which the source reports as current None and available []. Otherwise the first CPU's nodes are read; an unreadable frequency node gives None. |
| Power.FailedWrites | src/model/power_manager.py:64-68 | The count of refused CPU writes is at most the CPU count, and 0 iff every CPU was writable. FailedWritesConcat and FailedWritesOne pin it as the number of refusing CPUs. |
| Power.FailedWritesConcat | src/model/power_manager.py:64-68 | Refusals over two groups of CPUs add up. |
| Power.FailedWritesOne | src/model/power_manager.py:64-68 | One CPU counts once iff it refused the write. |
| Power.HelperArgs | src/model/power_manager.py:107-111 | `--governor g` is added iff g is truthy, then `--max-freq-khz k` iff k is truthy. |
| Power.HelperArgsRecover | src/model/power_manager.py:107-111 | With both settings given, the helper can read back the governor and the frequency from the flags. |
| Power.PowerRunHelper | src/model/power_manager.py:97-119 | A missing helper fails with "Helper de energía no encontrado" and a missing pkexec with "pkexec no disponible para elevar privilegios", neither running anything. Otherwise the command is pkexec, python, helper and the flags. Success iff the helper exited 0. The message is the stripped stdout or "Perfil aplicado con pkexec" on success, the stripped stderr or "pkexec falló en aplicar el perfil" on failure, and never empty. |
| Power.AfterWrites | src/model/power_manager.py:64-75 | With every CPU written, the result is the success message. Otherwise it is the helper's result when pkexec is enabled, or "No se pudo escribir en N CPU(s). Requiere permisos.". |
| Power.SetGovernor | src/model/power_manager.py:48-75 | An empty governor fails, and so does having no CPU. A governor missing from a non-empty available list fails and names the list. Writes happen iff every check passes. Success iff every CPU was written or the pkexec helper succeeded. The helper command carries `--governor g`. When writes were refused, the result is the helper's own outcome with pkexec, and otherwise "No se pudo escribir en N CPU(s). Requiere permisos." with N the number of refusing CPUs. |
| Power.GovernorWithList | src/model/power_manager.py:52-75 | Given the list read from the node: empty governor, no CPU and a governor missing from a non-empty list fail with their messages. Writes happen iff every check passes. Success iff every CPU was written or the pkexec helper succeeded. When writes were refused, the result is the helper's own outcome with pkexec, and otherwise "No se pudo escribir en N CPU(s). Requiere permisos." with N the number of refusing CPUs. |
| Power.SetMaxFreq | src/model/power_manager.py:77-95 | khz ≤ 0 fails before any write, and having no CPU fails. Writes happen iff both checks pass. Success iff every CPU was written or the helper succeeded. The helper command carries `--max-freq-khz k`. When writes were refused, the result is the helper's own outcome with pkexec, and otherwise "No se pudo escribir en N CPU(s). Requiere permisos." with N the number of refusing CPUs. |
| AppProfiles.Get | src/model/app_profiles.py:31 | `dict.get`: the stored value for a present key, None for an absent one. |
| AppProfiles.StepsOf | src/model/app_profiles.py:38-55 | The governor step runs iff the governor is truthy and the frequency step iff max_freq_khz is truthy, so 0 is skipped. The PWM step runs iff pwm is not None and pwm_path is truthy, so pwm 0 runs. Order: governor, frequency, PWM. |
| AppProfiles.Results | src/model/app_profiles.py:40-55 | Each executed step contributes the result of its own call. |
| AppProfiles.AvailableProfiles | src/model/app_profiles.py:27-28 | The list holds every configured profile name exactly once and nothing else. |
| AppProfiles.ApplyProfile | src/model/app_profiles.py:30-57 | A missing or empty profile fails with "Perfil '<name>' no encontrado" and runs nothing. A truthy non-object raises. Otherwise success is the conjunction of the executed steps, and the message is their non-empty messages joined with " \| ". |
| AppProfiles.ApplyNeedsAvailable | src/model/app_profiles.py:30-57 | A name that is not configured always fails as not found. A profile that asks for no step succeeds with an empty message. |
| AppProfiles.ApplyAllSucceed | src/model/app_profiles.py:35-57 | When every step succeeds, the profile succeeds. |
| Sensors.SetPwm | src/model/sensors.py:105-118 | A value outside 0..255 fails with no write. Otherwise its decimal text is written. Success iff the write succeeded, with "PWM ajustado a <value>". Permission and other errors have their own messages. |
| Sensors.SafeReadInt | src/model/sensors.py:156-161 | The result is the stripped first line as an integer, or None when reading or parsing raised. |
| Sensors.SafeReadIntOfLine | src/model/sensors.py:156-161 | A node holding a decimal number and a newline reads back as that number. |
| Sensors.LabelOr | src/model/sensors.py:37 | An empty label falls back to the group name. |
| Sensors.Reading | src/model/sensors.py:35-41 | The label or the group name, with the current, high and critical values copied. |
| Sensors.Readings | src/model/sensors.py:34-42 | There is one reading per psutil entry, in order. |
| Sensors.MsiEcTemperatures | src/model/sensors.py:120-131 | There is one cpu then one gpu reading, each present iff its node reads as an integer, labelled "msi-ec cpu"/"msi-ec gpu". |
| Sensors.GetTemperatures | src/model/sensors.py:22-48 | A psutil failure gives an empty map. Otherwise every psutil group is reported. The "msi-ec" group is added iff it has readings. |
| Sensors.TemperatureLabels | src/model/sensors.py:32-42 | A reading of a named group keeps its value and always has a non-empty label. |
| Sensors.Lookup | src/model/sensors.py:90 | `os.path.exists` in a directory listing: a file is found iff one of that name is listed. |
| Sensors.HwName | src/model/sensors.py:76-81 | The device name is the stripped first line of the `name` file; a missing or unreadable file gives the directory name. |
| Sensors.HwNameOfNode | src/model/sensors.py:76-81 | A `name` file holding a driver name and a newline names the device by the driver. |
| Sensors.HwmonFan | src/model/sensors.py:84-99 | The label is "<hwmon name>-fanN" and the path is the input file. The PWM path is reported iff that file exists. The PWM reading is then the integer read from it, and is absent without it. |
| Sensors.HwmonFans | src/model/sensors.py:84-85 | A hwmon directory reports exactly one fan per `fan*_input` entry. |
| Sensors.HwmonFansConcat | src/model/sensors.py:84-99 | A split listing gives the fans of each part, concatenated, so fans keep listing order. |
| Sensors.HwmonFansOne | src/model/sensors.py:85-99 | A single entry gives its fan iff it is a `fan*_input` file. |
| Sensors.AllHwmonFans | src/model/sensors.py:73-99 | No hwmon fan carries a source. |
| Sensors.AllHwmonFansConcat | src/model/sensors.py:74-99 | Directories are visited in order: a split directory list gives the fans of each part, concatenated. |
| Sensors.AllHwmonFansOne | src/model/sensors.py:74-99 | A single directory contributes the fans of its own listing. |
| Sensors.PsutilFans | src/model/sensors.py:60-69 | psutil fans have no path, no PWM and no source. |
| Sensors.GroupFans | src/model/sensors.py:61-69 | One fan per entry, in order. Its label is the entry's label or else the group name, its speed is `current`, and it has no paths. |
| Sensors.PsutilFansConcat | src/model/sensors.py:60-69 | Groups are visited in order: a split group list gives the fans of each part, concatenated. |
| Sensors.PsutilFansOne | src/model/sensors.py:60-69 | A single group contributes one fan per entry. |
| Sensors.MsiEcFan | src/model/sensors.py:139-152 | An msi-ec fan is present iff its speed reads as an integer. It is labelled "msi-ec-<which>", has source "msi-ec" and no PWM path. |
| Sensors.MsiEcFans | src/model/sensors.py:133-153 | The cpu fan comes before the gpu fan, each present iff its node reads as an integer. Each is labelled "msi-ec-cpu" or "msi-ec-gpu", carries that reading as its speed and its node as its path, has source "msi-ec" and no PWM path. |
| Sensors.GetFans | src/model/sensors.py:50-103 | The list is psutil fans (none if psutil raised), then the hwmon fans when the hwmon directory exists, then the msi-ec fans. No msi-ec fan has a PWM path. |
| Sensors.FanInputDerivation | src/model/sensors.py:85-88 | `fanN_input` is a fan input with prefix `fanN`, and its PWM file is `pwmN`. |
| Sensors.FanWithPwm | src/model/sensors.py:85-97 | A directory with `fanN_input` and `pwmN` reports that fan as "<hwmon name>-fanN" with the `pwmN` path. |
| MainWindow.LevelFor | src/view/main_window.py:1100-1107 | The level is crit iff value ≥ crit, warn iff warn ≤ value < crit, and ok otherwise. The thresholds default to 85 and 95. |
| MainWindow.Threshold | src/view/main_window.py:1101-1102 | A configured threshold is used as given; an absent one takes the default. |
| MainWindow.DefaultLevels | src/view/main_window.py:1101-1102 | With no alert settings, below 85 is ok, from 85 is warn and from 95 is crit. |
| MainWindow.LevelMonotone | src/view/main_window.py:1103-1107 | A higher reading never gets a lower level, whatever the thresholds. |
| MainWindow.AlertText | src/view/main_window.py:1086-1097 | "Sistema dentro de rangos normales" iff both are ok. Otherwise the CPU part ("alta"/"elevada") comes before the RAM part, joined with " \| ". |
| MainWindow.AlertMentionsCpuFirst | src/view/main_window.py:1086-1097 | Whenever the CPU is above its warning threshold, the alert line starts with the CPU verdict. |
| MainWindow.WindowSeconds | src/view/main_window.py:674-677 | Index 0 gives 300, 1 gives 900, 2 gives 3600, and any other index gives 300. |
| MainWindow.WindowWithinHistory | src/view/main_window.py:676 | Every window is positive and at most the hour of history the controller keeps. |
| MainWindow.Recent | src/view/main_window.py:640 | An entry is kept iff it is in the history with timestamp ≥ cutoff; there are no more entries than in the history. |
| MainWindow.RecentConcat | src/view/main_window.py:640 | Filtering a split history filters each part and concatenates them, so the kept entries stay in history order. |
| MainWindow.RecentOne | src/view/main_window.py:640 | A single entry is kept iff its timestamp is at or after the cutoff. |
| MainWindow.RecentIsSuffix | src/view/main_window.py:639-640 | With timestamps in append order, the kept entries are a suffix of the history. |
| MainWindow.ChartPoints | src/view/main_window.py:632-656 | An empty history, or nothing inside the window, leaves the charts untouched. Otherwise there is one point per kept entry in each series, x is the offset from the first kept timestamp, and y is the field. |
| MainWindow.LatestAlwaysKept | src/view/main_window.py:638-642 | With a non-negative window the newest entry is always kept, so a non-empty history always redraws. |
| MainWindow.Isqrt | src/view/main_window.py:1177 | `int(math.sqrt(n))` is the integer square root. |
| MainWindow.CeilDiv | src/view/main_window.py:1178 | This is `math.ceil(a / b)`. |
| MainWindow.ChunkCount | src/view/main_window.py:1184-1185 | Every chunk but the last is full, and there is at least one chunk for a non-empty input. |
| MainWindow.FlattenChunks | src/view/main_window.py:1184-1185 | The chunks, concatenated, are the items. |
| MainWindow.LayoutRows | src/view/main_window.py:1172-1196 | A total ≤ 0 gives no rows. Otherwise every item gets exactly one place, in input order. There are at most max(1, ⌊√n⌋) rows. Each row holds 1 to ceil(n / max(1, ⌊√n⌋)) items, and every row but the last is full. |
| MainWindow.ChunksFitGrid | src/view/main_window.py:1174-1196 | Cutting n items into chunks of the grid's width keeps every item in order and needs at most the grid's rows. |
| MainWindow.FilterByName | src/view/main_window.py:564-567 | An empty trimmed search keeps everything. Otherwise exactly the processes whose lower-cased name contains the trimmed, lower-cased term are kept. |
| MainWindow.FilterByNameConcat | src/view/main_window.py:564-567 | Filtering a split table filters each part and concatenates them, so the kept rows stay in the table's (CPU-sorted) order. |
| MainWindow.FilterByNameOne | src/view/main_window.py:564-567 | A single row is kept iff the trimmed, lower-cased search is empty or occurs in its lower-cased name. |
| MainWindow.KeepMatchingIdempotent | src/view/main_window.py:566-567 | Filtering twice with the same term equals filtering once. |
| MainWindow.KeepMatchingConcat | src/view/main_window.py:566-567 | Filtering a split list filters each part and concatenates them, so matches keep their order. |
| MainWindow.KeepMatchingOne | src/view/main_window.py:567 | A single process is kept iff its lower-cased name contains the term. |

## Left out

- src/controller/thread_manager.py: threads, `Event.wait` and `join` are not modelled. `start_monitoring` receives whether the thread started as a boolean.
- src/model/gpu_manager.py, src/model/rgb_manager.py, scripts/power_helper.py, scripts/msi_ec_helper.py, src/main.py and src/gui_main.py are not part of this model. They are subprocess, socket and argparse wrappers and entry points.
- src/model/fan_manager.py is not modelled: it only delegates to `set_pwm`, which `Sensors.SetPwm` covers.
- psutil, `/proc` and `/sys` reads and writes, `time.time()`, `datetime` and `subprocess.run` are parameters. `read_time` is an opaque string.
- Qt widgets, painting, stylesheets, colours, axis ranges and the treemap rectangle geometry are not modelled. `MainWindow.LayoutRows` keeps only the split of items into rows.
- Numeric text formatting is not modelled: `%.1f`, `_format_bytes` and `_format_speed`.
- ProcessManager.Record: `round(x, 2)` on the percentages is not modelled; values are copied as read.
- `get_process_info` and `get_battery_info` are not modelled. Neither are `get_keyboard_backlight`, `get_cpu_metrics`, `get_ram_metrics` or the network packet and error counters. They are direct psutil or file reads with no logic.
- Config.LoadConfig: the shallow copy of `DEFAULT_CONFIG` is not modelled, because of how the source merges. It mutates nested default objects in place, so later loads see earlier merges. The model merges into a fresh value. JSON objects are maps, so key order is not represented.
- SystemData.ScoreOfLine: `float()` on the score is the parameter `parseNum`. Python's float syntax is not modelled.
- Text.Lower: `str.lower()` is modelled for ASCII letters only. Unicode case mapping is not modelled.
- Text.ParseInt: `int()` is modelled for optional surrounding whitespace, an optional sign and ASCII digits. Underscore separators and non-ASCII digits are not modelled.
- AppProfiles.ApplyProfile:
  - the governor, maximum-frequency and PWM calls are represented by their results, passed as parameters;
  - `int()` conversion of the profile's values is not modelled;
  - neither is the exception `int()` raises on a non-numeric value.
- Sensors.PathJoin: `os.path.join` is modelled only for a directory without a trailing slash and a plain file name, which is how the source uses it.
- Sensors.PsutilFans: psutil fans carry no `pwm_path` key in the source; the model reports None.
- Sensors.HwmonFans: an `os.listdir` that raises inside a hwmon directory is not modelled.
- Control.RunHelper: an `OSError` from `subprocess.run` that is not a `SubprocessError` escapes the source method. It is not modelled.
- MsiEc.ReadList: models `f.read().strip().split()`, where the strip before the split does not change the words.
- SystemData.Speed: the division is exact in real arithmetic; floating-point rounding is not modelled.
- ProcessManager.GetProcessCount: a status psutil reports as None is counted by the source under the key None and in the total. The model's keys are strings, so such a process is not represented. A None input stands for a process that vanished or was denied, which both skip.
- AppProfiles.AvailableProfiles: the source lists the names in the dict's insertion order. The model's configuration is a map, which has no order, so only the set of names and their uniqueness are promised.
- Python's `sort` keys for numeric fields are compared as reals; NaN is not modelled.
- Sensors.GetTemperatures: the result is a map, so the dict order of the psutil groups followed by "msi-ec", which the view shows in that order, is not represented.
- SystemData.GetStorageMetrics: one `now` is used for every partition, whereas `_get_disk_fragmentation_linux` calls `time.time()` once per partition. Cache freshness within one call is therefore judged at a single instant.
- SystemData.GetStorageMetrics: with `text=True`, an output that does not decode makes `subprocess.run` raise UnicodeDecodeError, a ValueError. Neither the handler at system_data.py:277 nor the one at :131 catches it, so the source's call raises. The model has no such outcome: a run either finishes with decoded lines, is unavailable, or raises an OSError that drops the partition.

=== FILE: app_controller.dfy ===
/** src/controller/app_controller.py: the bounded metrics history, the monitoring flag
    and the notification of each new reading. The collection thread is represented only
    by whether starting it succeeded. */
module AppController {
  import opened Base
  import opened SystemData

  /** Seconds between collection cycles (`UPDATE_INTERVAL`). */
  const UpdateInterval: real := 2.0
  /** Seconds of history kept (`HISTORY_DURATION`). */
  const HistoryDuration: int := 3600

  /** `HISTORY_DURATION // int(UPDATE_INTERVAL)`: `int()` truncates the positive interval. */
  function MaxHistoryEntries(): (n: nat)
    ensures n * 2 == HistoryDuration
  {
    HistoryDuration / UpdateInterval.Floor
  }

  /** The five fields kept per cycle in the history deque. */
  datatype HistoryEntry = HistoryEntry(
    timestamp: real, cpuPercent: real, ramPercent: real,
    networkUpload: real, networkDownload: real)

  /** The latest reading with the `read_time` the controller stamps on it. */
  datatype Current = Current(metrics: AllMetrics, readTime: string)

  datatype Controller = Controller(
    capacity: nat,                 // the deque's maxlen
    history: seq<HistoryEntry>,
    current: Option<Current>,
    monitoring: bool,
    hasCallback: bool)

  /** What `_notify_view` does with the current reading. */
  datatype Notice = Silent | CallbackCalled(reading: Current) | ConsoleDump(reading: Current)

  predicate Valid(c: Controller) {
    |c.history| <= c.capacity
  }

  /** `AppController()`: empty history capped at `MAX_HISTORY_ENTRIES`, not monitoring. */
  function Init(): (c: Controller)
    ensures c.capacity == 1800
    ensures Valid(c) && c.history == [] && c.current.None?
    ensures !c.monitoring && !c.hasCallback
  {
    Controller(MaxHistoryEntries(), [], None, false, false)
  }

  /** The last `n` elements of `s` (all of them when there are fewer). */
  function Last<T>(s: seq<T>, n: nat): (r: seq<T>)
    ensures |r| == if |s| <= n then |s| else n
  {
    if |s| <= n then s else s[|s| - n..]
  }

  /** `deque.append` on a deque with `maxlen = cap`: at capacity the oldest entry goes. */
  function BoundedAppend<T>(h: seq<T>, x: T, cap: nat): (r: seq<T>)
    ensures |r| <= cap
    ensures |h| < cap ==> r == h + [x]
    ensures 0 < cap <= |h| + 1 ==> |r| == cap && r[|r| - 1] == x
    ensures |h| == cap > 0 ==> r == h[1..] + [x]
  {
    var h' := h + [x];
    if |h'| <= cap then h' else h'[|h'| - cap..]
  }

  /** Appends the items one after another. */
  function AppendAll<T>(h: seq<T>, xs: seq<T>, cap: nat): seq<T>
    decreases |xs|
  {
    if |xs| == 0 then h else AppendAll(BoundedAppend(h, xs[0], cap), xs[1..], cap)
  }

  lemma AppendToLast<T>(s: seq<T>, x: T, cap: nat)
    ensures BoundedAppend(Last(s, cap), x, cap) == Last(s + [x], cap)
  {
    var s' := s + [x];
    if |s| > cap {
      assert Last(s, cap) + [x] == s'[|s| - cap..];
    }
  }

  lemma AppendFirst<T>(s: seq<T>, xs: seq<T>)
    requires |xs| > 0
    ensures s + [xs[0]] + xs[1..] == s + xs
  {
    assert xs == [xs[0]] + xs[1..];
  }

  /** Appending to a window of the last `cap` items keeps exactly the last `cap` items. */
  lemma {:induction false} AppendAllLast<T>(s: seq<T>, xs: seq<T>, cap: nat)
    ensures AppendAll(Last(s, cap), xs, cap) == Last(s + xs, cap)
    decreases |xs|
  {
    if |xs| == 0 {
      assert s + xs == s;
    } else {
      var s' := s + [xs[0]];
      AppendToLast(s, xs[0], cap);
      assert AppendAll(Last(s, cap), xs, cap) == AppendAll(Last(s', cap), xs[1..], cap);
      AppendAllLast(s', xs[1..], cap);
      AppendFirst(s, xs);
    }
  }

  /** After any sequence of appends to an empty history, the history holds the last
      `min(n, cap)` items, oldest first, and never more than `cap`. */
  lemma HistoryIsLastAppended<T>(xs: seq<T>, cap: nat)
    ensures AppendAll([], xs, cap) == Last(xs, cap)
    ensures |AppendAll([], xs, cap)| <= cap
  {
    var empty: seq<T> := [];
    assert Last(empty, cap) == empty;
    AppendAllLast(empty, xs, cap);
    assert [] + xs == xs;
  }

  /** The entry a cycle appends, taken from the fresh reading. */
  function Project(m: AllMetrics): HistoryEntry {
    HistoryEntry(m.timestamp, m.cpu.totalPercent, m.ram.percent,
                 m.network.uploadSpeed, m.network.downloadSpeed)
  }

  /** `_notify_view`: the registered callback takes precedence over the console dump. */
  function Notify(c: Controller): (n: Notice)
    ensures c.current.None? <==> n.Silent?
    ensures n.CallbackCalled? <==> c.current.Some? && c.hasCallback
    ensures !n.Silent? ==> n.reading == c.current.value
  {
    match c.current
    case None => Silent
    case Some(cur) => if c.hasCallback then CallbackCalled(cur) else ConsoleDump(cur)
  }

  /** `update_metrics`: `collected` is None when gathering the metrics raised; the
      exception is swallowed and nothing changes. Otherwise the reading becomes current,
      its projection is appended and the view is notified. */
  function UpdateMetrics(c: Controller, collected: Option<AllMetrics>, readTime: string): (r: (Controller, Notice))
    ensures collected.None? ==> r == (c, Silent)
    ensures collected.Some? ==>
              var m := collected.value;
              && r.0 == c.(current := Some(Current(m, readTime)),
                           history := BoundedAppend(c.history, Project(m), c.capacity))
              && (c.capacity > 0 ==>
                    r.0.history[|r.0.history| - 1]
                    == HistoryEntry(m.timestamp, m.cpu.totalPercent, m.ram.percent,
                                    m.network.uploadSpeed, m.network.downloadSpeed))
              && r.1 == (if c.hasCallback then CallbackCalled(Current(m, readTime))
                         else ConsoleDump(Current(m, readTime)))
    ensures r.0.capacity == c.capacity && r.0.monitoring == c.monitoring
    ensures Valid(c) ==> Valid(r.0)
  {
    match collected
    case None => (c, Silent)
    case Some(m) =>
      var c' := c.(current := Some(Current(m, readTime)),
                   history := BoundedAppend(c.history, Project(m), c.capacity));
      (c', Notify(c'))
  }

  /** `start_monitoring`: a no-op while monitoring; otherwise the collection thread is
      started and the flag follows `threadStarted`. The second component says whether a
      start was attempted. */
  function StartMonitoring(c: Controller, threadStarted: bool): (r: (Controller, bool))
    ensures c.monitoring ==> r == (c, false)
    ensures !c.monitoring ==> r.1 && r.0 == c.(monitoring := threadStarted)
  {
    if c.monitoring then (c, false) else (c.(monitoring := threadStarted), true)
  }

  /** `stop_monitoring`: a no-op while not monitoring; otherwise the thread is asked to
      stop and the flag drops. The second component says whether a stop was requested. */
  function StopMonitoring(c: Controller): (r: (Controller, bool))
    ensures !c.monitoring ==> r == (c, false)
    ensures c.monitoring ==> r.1 && r.0 == c.(monitoring := false)
  {
    if c.monitoring then (c.(monitoring := false), true) else (c, false)
  }

  /** `set_view_callback`: a callback is registered and nothing else changes. */
  function SetViewCallback(c: Controller): (r: Controller)
    ensures r.hasCallback
    ensures r.capacity == c.capacity && r.history == c.history && r.current == c.current
    ensures r.monitoring == c.monitoring
    ensures Valid(c) ==> Valid(r)
  {
    c.(hasCallback := true)
  }

  /** Once a callback is registered, every successful cycle hands it the new reading and
      the console dump is skipped; a failed cycle notifies nobody. */
  lemma CallbackTakesOver(c: Controller, collected: Option<AllMetrics>, readTime: string)
    ensures var n := UpdateMetrics(SetViewCallback(c), collected, readTime).1;
            && (collected.Some? ==> n == CallbackCalled(Current(collected.value, readTime)))
            && (collected.None? ==> n == Silent)
            && !n.ConsoleDump?
  {
  }

  /** `get_metrics_history`: a fresh list of the entries, oldest first. */
  function GetMetricsHistory(c: Controller): (r: seq<HistoryEntry>)
    ensures Valid(c) ==> |r| <= c.capacity
  {
    c.history
  }

  /** Starting and then stopping restores the controller when the thread started. */
  lemma StartStopRoundTrip(c: Controller)
    requires !c.monitoring
    ensures StopMonitoring(StartMonitoring(c, true).0).0 == c
  {
  }

  // ---------------------------------------------------------------------------
  // Any interleaving of cycles and lifecycle calls

  datatype Event =
    | Cycle(collected: Option<AllMetrics>, readTime: string)
    | Start(threadStarted: bool)
    | Stop
    | Register

  function Step(c: Controller, e: Event): Controller {
    match e
    case Cycle(m, t) => UpdateMetrics(c, m, t).0
    case Start(ok) => StartMonitoring(c, ok).0
    case Stop => StopMonitoring(c).0
    case Register => SetViewCallback(c)
  }

  function Run(c: Controller, es: seq<Event>): Controller
    decreases |es|
  {
    if |es| == 0 then c else Run(Step(c, es[0]), es[1..])
  }

  /** The entries that the successful cycles among `es` append, in order. */
  function Appended(es: seq<Event>): seq<HistoryEntry> {
    if |es| == 0 then []
    else if es[0].Cycle? && es[0].collected.Some? then [Project(es[0].collected.value)] + Appended(es[1..])
    else Appended(es[1..])
  }

  /** One event: a successful cycle appends its projection, nothing else touches the
      history or the capacity. */
  lemma StepHistory(c: Controller, e: Event)
    ensures Step(c, e).capacity == c.capacity
    ensures Step(c, e).history
         == if e.Cycle? && e.collected.Some? then BoundedAppend(c.history, Project(e.collected.value), c.capacity)
            else c.history
  {
  }

  lemma {:induction false} RunAppends(c: Controller, es: seq<Event>)
    ensures Run(c, es).capacity == c.capacity
    ensures Run(c, es).history == AppendAll(c.history, Appended(es), c.capacity)
    decreases |es|
  {
    if |es| > 0 {
      var c' := Step(c, es[0]);
      StepHistory(c, es[0]);
      RunAppends(c', es[1..]);
    }
  }

  /** Over any sequence of events the capacity never changes, and the history is the last
      `capacity` entries of what was there plus what the successful cycles appended, in
      insertion order; failed cycles and lifecycle calls leave it alone. */
  lemma RunHistory(c: Controller, es: seq<Event>)
    requires Valid(c)
    ensures Run(c, es).capacity == c.capacity
    ensures Run(c, es).history == Last(c.history + Appended(es), c.capacity)
    ensures Valid(Run(c, es))
  {
    RunAppends(c, es);
    assert Last(c.history, c.capacity) == c.history;
    AppendAllLast(c.history, Appended(es), c.capacity);
  }

  /** From a fresh controller, the history handed out after any run is the last 1800
      entries the successful cycles produced, oldest first. */
  lemma HistoryFromStart(es: seq<Event>)
    ensures GetMetricsHistory(Run(Init(), es)) == Last(Appended(es), MaxHistoryEntries())
  {
    RunHistory(Init(), es);
    assert [] + Appended(es) == Appended(es);
  }
}

=== FILE: app_profiles.dfy ===
/** src/model/app_profiles.py: applying a named profile from the configuration. Which
    steps run is decided here; what each step returns (the governor, maximum-frequency
    and PWM calls) is a parameter. */
module AppProfiles {
  import opened Base
  import opened Control
  import opened Config

  /** Python truthiness of a decoded JSON value. */
  predicate Truthy(j: Json) {
    match j
    case Null => false
    case Bool(b) => b
    case Num(x) => x != 0.0
    case Str(s) => s != ""
    case Arr(a) => |a| > 0
    case Obj(m) => |m| > 0
  }

  /** `cfg.get(key)`: an absent key and a JSON null both read as None. */
  function Get(cfg: map<string, Json>, key: string): (r: Json)
    ensures key !in cfg ==> r == Null
    ensures key in cfg ==> r == cfg[key]
  {
    if key in cfg then cfg[key] else Null
  }

  /** The steps a profile can ask for, in the order they run. */
  datatype Step = GovernorStep | MaxFreqStep | PwmStep

  /** The steps a profile configuration selects: the governor and the maximum frequency
      when truthy (so 0 is skipped), the PWM when it is not None and a PWM path is truthy
      (so 0 is written). */
  function StepsOf(cfg: map<string, Json>): (r: seq<Step>)
    ensures GovernorStep in r <==> Truthy(Get(cfg, "governor"))
    ensures MaxFreqStep in r <==> Truthy(Get(cfg, "max_freq_khz"))
    ensures PwmStep in r <==> Get(cfg, "pwm") != Null && Truthy(Get(cfg, "pwm_path"))
    // at most once each, governor before maximum frequency before PWM
    ensures forall i, j :: 0 <= i < j < |r| ==> StepRank(r[i]) < StepRank(r[j])
  {
    (if Truthy(Get(cfg, "governor")) then [GovernorStep] else [])
    + (if Truthy(Get(cfg, "max_freq_khz")) then [MaxFreqStep] else [])
    + (if Get(cfg, "pwm") != Null && Truthy(Get(cfg, "pwm_path")) then [PwmStep] else [])
  }

  function StepRank(s: Step): nat {
    match s
    case GovernorStep => 0
    case MaxFreqStep => 1
    case PwmStep => 2
  }

  /** What `apply_profile` does with a profile: it runs, or looking up a field of a
      truthy non-object entry raises `AttributeError`. */
  datatype Applied = Applied(outcome: Outcome, ran: seq<Step>) | Raised

  function ResultOf(s: Step, governor: Outcome, maxFreq: Outcome, pwm: Outcome): Outcome {
    match s
    case GovernorStep => governor
    case MaxFreqStep => maxFreq
    case PwmStep => pwm
  }

  function Results(steps: seq<Step>, governor: Outcome, maxFreq: Outcome, pwm: Outcome): (r: seq<Outcome>)
    ensures |r| == |steps|
    ensures forall i :: 0 <= i < |steps| ==> r[i] == ResultOf(steps[i], governor, maxFreq, pwm)
  {
    seq(|steps|, i requires 0 <= i < |steps| => ResultOf(steps[i], governor, maxFreq, pwm))
  }

  /** `available_profiles()`: the configured profile names, each once, in an order the
      map does not fix. */
  method AvailableProfiles(profiles: map<string, Json>) returns (r: seq<string>)
    ensures |r| == |profiles|
    ensures forall name :: name in r <==> name in profiles
    ensures forall i, j :: 0 <= i < j < |r| ==> r[i] != r[j]
  {
    var left := profiles.Keys;
    r := [];
    while left != {}
      invariant left <= profiles.Keys
      invariant forall name :: name in r <==> name in profiles && name !in left
      invariant forall i, j :: 0 <= i < j < |r| ==> r[i] != r[j]
      invariant |r| + |left| == |profiles|
      decreases |left|
    {
      var name :| name in left;
      r := r + [name];
      left := left - {name};
    }
  }

  /** `apply_profile(name)`; `governor`, `maxFreq` and `pwm` are what the three calls
      would return if made. */
  function ApplyProfile(profiles: map<string, Json>, name: string,
                        governor: Outcome, maxFreq: Outcome, pwm: Outcome): (r: Applied)
    // an unknown or falsy profile is reported by name and nothing runs
    ensures !Truthy(Get(profiles, name)) ==>
              r == Applied(Fail("Perfil '" + name + "' no encontrado"), [])
    ensures Truthy(Get(profiles, name)) && !Get(profiles, name).Obj? ==> r.Raised?
    ensures Get(profiles, name).Obj? && |Get(profiles, name).fields| > 0 ==>
              var steps := StepsOf(Get(profiles, name).fields);
              var results := Results(steps, governor, maxFreq, pwm);
              && r.Applied? && r.ran == steps
              && (r.outcome.success <==> forall i :: 0 <= i < |results| ==> results[i].success)
              && r.outcome.message == Combine(results).message
  {
    var cfg := Get(profiles, name);
    if !Truthy(cfg) then Applied(Fail("Perfil '" + name + "' no encontrado"), [])
    else if !cfg.Obj? then Raised
    else
      var steps := StepsOf(cfg.fields);
      Applied(Combine(Results(steps, governor, maxFreq, pwm)), steps)
  }

  /** Only an available profile can do anything; one that asks for no step succeeds
      with an empty message. */
  lemma ApplyNeedsAvailable(profiles: map<string, Json>, name: string, governor: Outcome, maxFreq: Outcome, pwm: Outcome)
    ensures name !in profiles ==>
              ApplyProfile(profiles, name, governor, maxFreq, pwm) == Applied(Fail("Perfil '" + name + "' no encontrado"), [])
    ensures name in profiles && profiles[name].Obj? && |profiles[name].fields| > 0
            && StepsOf(profiles[name].fields) == [] ==>
              ApplyProfile(profiles, name, governor, maxFreq, pwm) == Applied(Succeed(""), [])
  {
  }

  /** A profile whose every step succeeds succeeds, whatever the messages say. */
  lemma ApplyAllSucceed(cfg: map<string, Json>, name: string, governor: Outcome, maxFreq: Outcome, pwm: Outcome)
    requires |cfg| > 0
    requires governor.success && maxFreq.success && pwm.success
    ensures ApplyProfile(map[name := Obj(cfg)], name, governor, maxFreq, pwm).outcome.success
  {
    var results := Results(StepsOf(cfg), governor, maxFreq, pwm);
    assert forall i :: 0 <= i < |results| ==> results[i].success;
  }
}

=== FILE: base.dfy ===
/** Shared result shapes used by every component of the monitor. */
module Base {

  /** Python's `None` next to a present value. */
  datatype Option<T> = None | Some(value: T)

  /** The `{"success": ..., "message": ...}` record every control surface returns. */
  datatype Outcome = Outcome(success: bool, message: string)

  function Fail(message: string): Outcome {
    Outcome(false, message)
  }

  function Succeed(message: string): Outcome {
    Outcome(true, message)
  }

  /** What a caller learns from running a privileged helper through `subprocess.run`. */
  datatype RunResult =
    | Exited(code: int, stdout: string, stderr: string)
    | RunError(reason: string)   // subprocess.SubprocessError, including the timeout

  /** `f` applied to every element: all the results in order, or None when any is None. */
  function AllMap<A, B>(f: A -> Option<B>, xs: seq<A>): (r: Option<seq<B>>)
    ensures r.Some? ==> |r.value| == |xs| && forall i :: 0 <= i < |xs| ==> f(xs[i]) == Some(r.value[i])
    ensures r.None? <==> exists i :: 0 <= i < |xs| && f(xs[i]).None?
  {
    if |xs| == 0 then Some([])
    else
      var rest := AllMap(f, xs[1..]);
      if f(xs[0]).None? then None
      else if rest.None? then
        assert exists i :: 0 <= i < |xs| && f(xs[i]).None? by {
          var i :| 0 <= i < |xs[1..]| && f(xs[1..][i]).None?;
          assert xs[i + 1] == xs[1..][i];
        }
        None
      else
        assert forall i :: 0 < i < |xs| ==> xs[i] == xs[1..][i - 1];
        Some([f(xs[0]).value] + rest.value)
  }
}

=== FILE: config.dfy ===
/** src/config.py: built-in defaults, optionally deep-merged with the user's config.json. */
module Config {
  import opened Base

  /** A decoded JSON value; objects are maps, so key order is not represented. */
  datatype Json =
    | Null
    | Bool(b: bool)
    | Num(n: real)
    | Str(s: string)
    | Arr(items: seq<Json>)
    | Obj(fields: map<string, Json>)

  /** Both sides hold an object at `k`, so `_deep_update` recurses there. */
  predicate BothObjects(target: map<string, Json>, source: map<string, Json>, k: string) {
    k in source && source[k].Obj? && k in target && target[k].Obj?
  }

  /** `_deep_update(target, source)` as a pure function: keys only in the target keep
      their value, keys where both sides hold an object are merged recursively, and every
      other source key overwrites. */
  function DeepUpdate(target: map<string, Json>, source: map<string, Json>): (r: map<string, Json>)
    ensures r.Keys == target.Keys + source.Keys
    ensures forall k :: k in target && k !in source ==> r[k] == target[k]
    ensures forall k :: BothObjects(target, source, k) ==>
              r[k] == Obj(DeepUpdate(target[k].fields, source[k].fields))
    ensures forall k :: k in source && !BothObjects(target, source, k) ==> r[k] == source[k]
    decreases Obj(source)
  {
    map k | k in target.Keys + source.Keys ::
      if k in source then
        if source[k].Obj? && k in target && target[k].Obj? then
          Obj(DeepUpdate(target[k].fields, source[k].fields))
        else source[k]
      else target[k]
  }

  /** Merging an empty source changes nothing. */
  lemma DeepUpdateEmpty(target: map<string, Json>)
    ensures DeepUpdate(target, map[]) == target
  {
  }

  /** Merging an object into itself gives it back. */
  lemma {:induction false} DeepUpdateSelf(m: map<string, Json>)
    ensures DeepUpdate(m, m) == m
    decreases Obj(m)
  {
    forall k | k in m
      ensures DeepUpdate(m, m)[k] == m[k]
    {
      if m[k].Obj? {
        DeepUpdateSelf(m[k].fields);
      }
    }
  }

  /** Merging the same source twice gives the result of merging it once. */
  lemma {:induction false} DeepUpdateIdempotent(target: map<string, Json>, source: map<string, Json>)
    ensures DeepUpdate(DeepUpdate(target, source), source) == DeepUpdate(target, source)
    decreases Obj(source)
  {
    var once := DeepUpdate(target, source);
    forall k | k in once
      ensures DeepUpdate(once, source)[k] == once[k]
    {
      if k in source && source[k].Obj? {
        if k in target && target[k].Obj? {
          DeepUpdateIdempotent(target[k].fields, source[k].fields);
        } else {
          DeepUpdateSelf(source[k].fields);
        }
      }
    }
  }

  function Profile(governor: string): Json {
    Obj(map["governor" := Str(governor)])
  }

  /** `DEFAULT_CONFIG`. */
  const Defaults: map<string, Json> := map[
    "update_interval" := Num(2.0),
    "history_duration" := Num(3600.0),
    "process_refresh_interval" := Num(5.0),
    "process_list_limit" := Num(50.0),
    "use_pkexec" := Bool(false),
    "alerts" := Obj(map[
      "cpu_warn" := Num(85.0), "cpu_crit" := Num(95.0),
      "ram_warn" := Num(85.0), "ram_crit" := Num(95.0)]),
    "theme" := Str("dark"),
    "rgb_enabled" := Bool(false),
    "power_profiles" := Obj(map[
      "Silencioso" := Profile("powersave"),
      "Equilibrado" := Profile("schedutil"),
      "Rendimiento" := Profile("performance")]),
    "profiles" := Obj(map[
      "juego" := Obj(map["governor" := Str("performance"), "max_freq_khz" := Null]),
      "bajo_consumo" := Profile("powersave")])
  ]

  /** `load_config()`. `userFile` is None when config.json is missing, cannot be read or
      is not valid JSON; a decoded value that is not an object makes `_deep_update` raise
      before it changes anything, and the defaults are kept. */
  function LoadConfig(userFile: Option<Json>): (r: map<string, Json>)
    ensures Defaults.Keys <= r.Keys
    ensures userFile.None? || !userFile.value.Obj? ==> r == Defaults
    ensures userFile.Some? && userFile.value.Obj? ==>
              && r.Keys == Defaults.Keys + userFile.value.fields.Keys
              && (forall k :: k in userFile.value.fields && !BothObjects(Defaults, userFile.value.fields, k)
                    ==> r[k] == userFile.value.fields[k])
              && (forall k :: k in Defaults && k !in userFile.value.fields ==> r[k] == Defaults[k])
              && forall k :: BothObjects(Defaults, userFile.value.fields, k) ==>
                   r[k] == Obj(DeepUpdate(Defaults[k].fields, userFile.value.fields[k].fields))
  {
    match userFile
    case Some(Obj(user)) =>
      DeepUpdate(Defaults, user)
    case _ => Defaults
  }

  /** An empty config.json object leaves exactly the defaults. */
  lemma LoadEmptyObject()
    ensures LoadConfig(Some(Obj(map[]))) == Defaults
  {
    DeepUpdateEmpty(Defaults);
  }
}

=== FILE: control.dfy ===
/** What the control surfaces share: the outcome of writing a sysfs node, running the
    privileged helper through pkexec (src/model/msi_ec_manager.py and
    src/model/power_manager.py), and folding several step results into one. */
module Control {
  import opened Base
  import opened Text

  /** What a helper call observes: whether the helper script exists, whether `pkexec` is
      on the PATH, `sys.executable`, the helper's path and how `subprocess.run` ended. */
  datatype HelperEnv = HelperEnv(
    helperExists: bool, pkexecFound: bool, executable: string, helperPath: string, run: RunResult)

  /** How `open(path, "w")` plus `write` ended. */
  datatype WriteOutcome = Written | PermissionDenied | WriteFailed(reason: string)

  /** A control-surface result, plus the value written to the node when a write was
      attempted at all. */
  datatype Effect = Effect(outcome: Outcome, attempted: Option<string>)

  /** The fixed texts one component uses for its helper calls. */
  datatype HelperTexts = HelperTexts(missing: string, noPkexec: string, okDefault: string, failDefault: string)

  /** The outcome of a helper call and the command line it ran, if it got that far. */
  datatype HelperCall = HelperCall(outcome: Outcome, command: Option<seq<string>>)

  /** `sys.executable or "/usr/bin/python3"`. */
  function PythonBin(executable: string): (r: string)
    ensures r != ""
    ensures executable != "" ==> r == executable
  {
    if executable != "" then executable else "/usr/bin/python3"
  }

  /** `text or default` for an already stripped text. */
  function OrElse(text: string, default: string): string {
    if text != "" then text else default
  }

  /** `_run_helper`: `args` are the flags appended after the helper path. */
  function RunHelper(env: HelperEnv, args: seq<string>, texts: HelperTexts): (r: HelperCall)
    ensures !env.helperExists ==> r == HelperCall(Fail(texts.missing), None)
    ensures env.helperExists && !env.pkexecFound ==> r == HelperCall(Fail(texts.noPkexec), None)
    ensures env.helperExists && env.pkexecFound ==>
              r.command == Some(["pkexec", PythonBin(env.executable), env.helperPath] + args)
    // success exactly when the helper ran and exited with status 0
    ensures r.outcome.success <==> env.helperExists && env.pkexecFound && env.run.Exited? && env.run.code == 0
    ensures env.helperExists && env.pkexecFound && env.run.Exited? ==>
              r.outcome.message
              == if env.run.code == 0 then OrElse(Strip(env.run.stdout), texts.okDefault)
                 else OrElse(Strip(env.run.stderr), texts.failDefault)
    ensures env.helperExists && env.pkexecFound && env.run.RunError? ==>
              r.outcome.message == "Error ejecutando pkexec: " + env.run.reason
  {
    if !env.helperExists then HelperCall(Fail(texts.missing), None)
    else if !env.pkexecFound then HelperCall(Fail(texts.noPkexec), None)
    else
      var cmd := ["pkexec", PythonBin(env.executable), env.helperPath] + args;
      match env.run
      case RunError(e) => HelperCall(Fail("Error ejecutando pkexec: " + e), Some(cmd))
      case Exited(code, out, err) =>
        if code == 0 then HelperCall(Succeed(OrElse(Strip(out), texts.okDefault)), Some(cmd))
        else HelperCall(Fail(OrElse(Strip(err), texts.failDefault)), Some(cmd))
  }

  /** When every fixed text is non-empty, a helper call always explains itself. */
  lemma HelperMessageNonEmpty(env: HelperEnv, args: seq<string>, texts: HelperTexts)
    requires texts.missing != "" && texts.noPkexec != "" && texts.okDefault != "" && texts.failDefault != ""
    ensures RunHelper(env, args, texts).outcome.message != ""
  {
  }

  // ---------------------------------------------------------------------------
  // Folding step results

  /** `success = success and res["success"]` over the executed steps. */
  function AllSucceeded(steps: seq<Outcome>): (r: bool)
    ensures r <==> forall i :: 0 <= i < |steps| ==> steps[i].success
  {
    if |steps| == 0 then true else steps[0].success && AllSucceeded(steps[1..])
  }

  function Messages(steps: seq<Outcome>): (r: seq<string>)
    ensures |r| == |steps|
    ensures forall i :: 0 <= i < |steps| ==> r[i] == steps[i].message
  {
    seq(|steps|, i requires 0 <= i < |steps| => steps[i].message)
  }

  /** The executed steps folded into one result: all must succeed, and the non-empty
      messages are joined with " | " in execution order. */
  function Combine(steps: seq<Outcome>): (r: Outcome)
    ensures r.success <==> forall i :: 0 <= i < |steps| ==> steps[i].success
    ensures r.message == JoinNonEmpty(Messages(steps), " | ")
  {
    Outcome(AllSucceeded(steps), JoinNonEmpty(Messages(steps), " | "))
  }

  /** The combined message is empty exactly when every step's message was. */
  lemma CombineMessageEmpty(steps: seq<Outcome>)
    ensures Combine(steps).message == "" <==> forall i :: 0 <= i < |steps| ==> steps[i].message == ""
  {
    var ms := Messages(steps);
    var ne := NonEmpty(ms);
    JoinEmptyIff(ne, " | ");
    if |ne| > 0 {
      assert ne[0] in ms;
    } else {
      forall i | 0 <= i < |steps| ensures steps[i].message == "" {
        assert ms[i] in ms;
      }
    }
  }
}

=== FILE: main_window.dfy ===
/** src/view/main_window.py: the pure decisions behind the window — alert levels and the
    alert line, the chart time window and the points drawn, the treemap's split of
    partitions into rows, and the process-name filter. Drawing is not modelled. */
module MainWindow {
  import opened Base
  import opened Text
  import opened AppController
  import opened ProcessManager

  // ---------------------------------------------------------------------------
  // Alerts

  datatype Level = Ok | Warn | Crit

  function Rank(l: Level): nat {
    match l
    case Ok => 0
    case Warn => 1
    case Crit => 2
  }

  /** `alerts.get(name, default)`. */
  function Threshold(alerts: map<string, real>, name: string, default: real): (r: real)
    ensures name !in alerts ==> r == default
    ensures name in alerts ==> r == alerts[name]
  {
    if name in alerts then alerts[name] else default
  }

  /** `_level_for_value(value, key)`: thresholds `<key>_warn` and `<key>_crit` from the
      alert settings, 85 and 95 by default; the critical test comes first. */
  function LevelFor(alerts: map<string, real>, key: string, value: real): (r: Level)
    ensures var warn := Threshold(alerts, key + "_warn", 85.0);
            var crit := Threshold(alerts, key + "_crit", 95.0);
            && (r == Crit <==> value >= crit)
            && (r == Warn <==> value < crit && value >= warn)
            && (r == Ok <==> value < crit && value < warn)
  {
    var warn := Threshold(alerts, key + "_warn", 85.0);
    var crit := Threshold(alerts, key + "_crit", 95.0);
    if value >= crit then Crit else if value >= warn then Warn else Ok
  }

  /** With the default thresholds: below 85 is ok, from 85 warns, from 95 is critical. */
  lemma DefaultLevels(key: string, value: real)
    ensures LevelFor(map[], key, value) == if value >= 95.0 then Crit else if value >= 85.0 then Warn else Ok
  {
  }

  /** A higher reading never gets a lower level, whatever the thresholds. */
  lemma LevelMonotone(alerts: map<string, real>, key: string, v1: real, v2: real)
    requires v1 <= v2
    ensures Rank(LevelFor(alerts, key, v1)) <= Rank(LevelFor(alerts, key, v2))
  {
  }

  /** The words a level contributes to the alert line. */
  function Part(l: Level, high: string, raised: string): seq<string> {
    match l
    case Crit => [high]
    case Warn => [raised]
    case Ok => []
  }

  /** `_apply_alerts`' message: the CPU part before the RAM part, joined with " | ". */
  function AlertText(cpu: Level, ram: Level): (r: string)
    ensures cpu == Ok && ram == Ok <==> r == "Sistema dentro de rangos normales"
    ensures cpu != Ok && ram == Ok ==> r == (if cpu == Crit then "CPU alta" else "CPU elevada")
    ensures cpu == Ok && ram != Ok ==> r == (if ram == Crit then "RAM alta" else "RAM elevada")
    ensures cpu != Ok && ram != Ok ==>
              r == (if cpu == Crit then "CPU alta" else "CPU elevada") + " | "
                   + (if ram == Crit then "RAM alta" else "RAM elevada")
  {
    var parts := Part(cpu, "CPU alta", "CPU elevada") + Part(ram, "RAM alta", "RAM elevada");
    if |parts| == 0 then "Sistema dentro de rangos normales"
    else
      var r := Join(parts, " | ");
      if |parts| == 1 then
        assert r == parts[0];
        assert |r| < |"Sistema dentro de rangos normales"|;
        r
      else
        assert parts[1..] == [parts[1]];
        assert Join(parts[1..], " | ") == parts[1];
        assert r == parts[0] + " | " + parts[1];
        assert |r| < |"Sistema dentro de rangos normales"|;
        r
  }

  /** The alert line for two readings starts with the CPU verdict whenever the CPU is
      above its warning threshold. */
  lemma AlertMentionsCpuFirst(alerts: map<string, real>, cpu: real, ram: real)
    requires LevelFor(alerts, "cpu", cpu) != Ok
    ensures StartsWith(AlertText(LevelFor(alerts, "cpu", cpu), LevelFor(alerts, "ram", ram)), "CPU ")
  {
    var c := LevelFor(alerts, "cpu", cpu);
    var r := LevelFor(alerts, "ram", ram);
    var head := if c == Crit then "CPU alta" else "CPU elevada";
    var t := AlertText(c, r);
    if r == Ok {
      assert t == head;
    } else {
      assert t == head + " | " + (if r == Crit then "RAM alta" else "RAM elevada");
    }
    assert t[..4] == head[..4] == "CPU ";
  }

  // ---------------------------------------------------------------------------
  // Charts

  /** `_selected_window_seconds`: the selector's index as a time window. */
  function WindowSeconds(index: int): (r: real)
    ensures index == 0 ==> r == 300.0
    ensures index == 1 ==> r == 900.0
    ensures index == 2 ==> r == 3600.0
    ensures index !in {0, 1, 2} ==> r == 300.0
  {
    if index == 1 then 900.0 else if index == 2 then 3600.0 else 300.0
  }

  /** Every window the selector yields is positive and at most the hour of history kept. */
  lemma WindowWithinHistory(index: int)
    ensures 0.0 < WindowSeconds(index) <= HistoryDuration as real
  {
  }

  /** The entries at or after `cutoff`, in history order. */
  function Recent(history: seq<HistoryEntry>, cutoff: real): (r: seq<HistoryEntry>)
    ensures |r| <= |history|
    ensures forall i :: 0 <= i < |r| ==> r[i].timestamp >= cutoff
    ensures forall e :: e in r <==> e in history && e.timestamp >= cutoff
  {
    if |history| == 0 then []
    else
      var rest := Recent(history[1..], cutoff);
      assert forall e :: e in history <==> e == history[0] || e in history[1..];
      if history[0].timestamp >= cutoff then [history[0]] + rest else rest
  }

  /** With timestamps in non-decreasing order, as the controller appends them, the recent
      entries are a suffix of the history. */
  lemma {:induction false} RecentIsSuffix(history: seq<HistoryEntry>, cutoff: real)
    requires forall i, j :: 0 <= i <= j < |history| ==> history[i].timestamp <= history[j].timestamp
    ensures exists k :: 0 <= k <= |history| && Recent(history, cutoff) == history[k..]
  {
    if |history| == 0 {
      assert Recent(history, cutoff) == history[0..];
    } else if history[0].timestamp >= cutoff {
      AllRecent(history, cutoff);
      assert Recent(history, cutoff) == history[0..];
    } else {
      RecentIsSuffix(history[1..], cutoff);
      var k :| 0 <= k <= |history[1..]| && Recent(history[1..], cutoff) == history[1..][k..];
      assert history[1..][k..] == history[k + 1..];
    }
  }

  /** Filtering a history split in two filters each part: the kept entries stay in
      history order. */
  lemma {:induction false} RecentConcat(a: seq<HistoryEntry>, b: seq<HistoryEntry>, cutoff: real)
    ensures Recent(a + b, cutoff) == Recent(a, cutoff) + Recent(b, cutoff)
  {
    if |a| > 0 {
      assert (a + b)[0] == a[0] && (a + b)[1..] == a[1..] + b;
      RecentConcat(a[1..], b, cutoff);
      if a[0].timestamp >= cutoff {
        assert [a[0]] + (Recent(a[1..], cutoff) + Recent(b, cutoff))
            == ([a[0]] + Recent(a[1..], cutoff)) + Recent(b, cutoff);
      }
    } else {
      assert a + b == b;
    }
  }

  /** A single entry is kept exactly when it is at or after the cutoff. */
  lemma RecentOne(e: HistoryEntry, cutoff: real)
    ensures Recent([e], cutoff) == if e.timestamp >= cutoff then [e] else []
  {
    assert [e][1..] == [];
  }

  lemma {:induction false} AllRecent(history: seq<HistoryEntry>, cutoff: real)
    requires forall i :: 0 <= i < |history| ==> history[i].timestamp >= cutoff
    ensures Recent(history, cutoff) == history
  {
    if |history| > 0 {
      AllRecent(history[1..], cutoff);
      assert history == [history[0]] + history[1..];
    }
  }

  /** One chart series: (seconds since the first kept entry, value). */
  type Series = seq<(real, real)>

  datatype Charts = Charts(cpu: Series, ram: Series, upload: Series, download: Series)

  /** The four plotted fields of a history entry. */
  datatype Plotted = CpuLine | RamLine | UploadLine | DownloadLine

  function ValueOf(e: HistoryEntry, line: Plotted): real {
    match line
    case CpuLine => e.cpuPercent
    case RamLine => e.ramPercent
    case UploadLine => e.networkUpload
    case DownloadLine => e.networkDownload
  }

  function Offsets(recent: seq<HistoryEntry>, base: real, line: Plotted): (r: Series)
    ensures |r| == |recent|
    ensures forall i :: 0 <= i < |recent| ==> r[i] == (recent[i].timestamp - base, ValueOf(recent[i], line))
  {
    seq(|recent|, i requires 0 <= i < |recent| => (recent[i].timestamp - base, ValueOf(recent[i], line)))
  }

  /** `_refresh_charts_from_history`: None when the charts are left untouched (no
      history, or nothing inside the window). */
  function ChartPoints(history: seq<HistoryEntry>, window: real): (r: Option<Charts>)
    ensures history == [] ==> r.None?
    ensures history != [] ==>
              var recent := Recent(history, history[|history| - 1].timestamp - window);
              && (r.Some? <==> recent != [])
              && (r.Some? ==>
                    && |r.value.cpu| == |r.value.ram| == |r.value.upload| == |r.value.download| == |recent|
                    && r.value.cpu[0].0 == 0.0
                    && forall i :: 0 <= i < |recent| ==>
                         && r.value.cpu[i] == (recent[i].timestamp - recent[0].timestamp, recent[i].cpuPercent)
                         && r.value.ram[i] == (recent[i].timestamp - recent[0].timestamp, recent[i].ramPercent)
                         && r.value.upload[i] == (recent[i].timestamp - recent[0].timestamp, recent[i].networkUpload)
                         && r.value.download[i] == (recent[i].timestamp - recent[0].timestamp, recent[i].networkDownload))
  {
    if history == [] then None
    else
      var recent := Recent(history, history[|history| - 1].timestamp - window);
      if recent == [] then None
      else
        var base := recent[0].timestamp;
        Some(Charts(Offsets(recent, base, CpuLine), Offsets(recent, base, RamLine),
                    Offsets(recent, base, UploadLine), Offsets(recent, base, DownloadLine)))
  }

  /** With a non-negative window the newest entry is always drawn, so a non-empty history
      always updates the charts. */
  lemma LatestAlwaysKept(history: seq<HistoryEntry>, window: real)
    requires history != [] && window >= 0.0
    ensures history[|history| - 1] in Recent(history, history[|history| - 1].timestamp - window)
    ensures ChartPoints(history, window).Some?
  {
    assert history[|history| - 1] in history;
  }

  // ---------------------------------------------------------------------------
  // Treemap rows

  /** One storage partition as the treemap receives it. */
  datatype Tile = Tile(name: string, value: real)

  function Total(items: seq<Tile>): real {
    if |items| == 0 then 0.0 else items[0].value + Total(items[1..])
  }

  /** `int(math.sqrt(n))`: the integer square root. */
  function Isqrt(n: nat): (r: nat)
    ensures r * r <= n < (r + 1) * (r + 1)
  {
    if n == 0 then 0
    else
      var s := Isqrt(n - 1);
      if (s + 1) * (s + 1) <= n then s + 1 else s
  }

  /** `math.ceil(a / b)` for positive integers. */
  function CeilDiv(a: nat, b: nat): (r: nat)
    requires b > 0
    ensures r * b >= a
    ensures r == 0 || (r - 1) * b < a
  {
    (a + b - 1) / b
  }

  /** `items[i:i + size]` for `i` in `range(0, len(items), size)`. */
  function Chunks(items: seq<Tile>, size: nat): (r: seq<seq<Tile>>)
    requires size > 0
    ensures forall i :: 0 <= i < |r| ==> 0 < |r[i]| <= size
    // every chunk but the last is full
    ensures forall i :: 0 <= i < |r| - 1 ==> |r[i]| == size
    decreases |items|
  {
    if |items| == 0 then []
    else if |items| <= size then [items]
    else [items[..size]] + Chunks(items[size..], size)
  }

  /** Every chunk but the last is full, so `k` chunks hold more than `(k - 1) * size` items. */
  lemma {:induction false} ChunkCount(items: seq<Tile>, size: nat)
    requires size > 0
    ensures var k := |Chunks(items, size)|; k == 0 || (k - 1) * size < |items|
    ensures |items| > 0 ==> |Chunks(items, size)| > 0
    decreases |items|
  {
    if |items| > size {
      var rest := Chunks(items[size..], size);
      ChunkCount(items[size..], size);
      assert |Chunks(items, size)| == |rest| + 1;
      assert |rest| * size == (|rest| - 1) * size + size;
    }
  }

  function Flatten(rows: seq<seq<Tile>>): seq<Tile> {
    if |rows| == 0 then [] else rows[0] + Flatten(rows[1..])
  }

  lemma {:induction false} FlattenChunks(items: seq<Tile>, size: nat)
    requires size > 0
    ensures Flatten(Chunks(items, size)) == items
    decreases |items|
  {
    if |items| > size {
      FlattenChunks(items[size..], size);
      var rest := Chunks(items[size..], size);
      assert ([items[..size]] + rest)[1..] == rest;
      assert items == items[..size] + items[size..];
    } else if |items| > 0 {
      assert Flatten([items]) == items + Flatten([]);
    }
  }

  /** The grid `_layout_rows` uses for `n` items: rows and items per row. */
  function Grid(n: nat): (r: (nat, nat))
    ensures r.0 >= 1 && r.1 >= 1
  {
    var rows := if Isqrt(n) >= 1 then Isqrt(n) else 1;
    var chunk := CeilDiv(n, rows);
    (rows, if chunk >= 1 then chunk else 1)
  }

  /** `_layout_rows(items, rect)`, without the geometry: the items grouped into rows. */
  function LayoutRows(items: seq<Tile>): (r: seq<seq<Tile>>)
    // nothing is drawn when the values sum to zero or less
    ensures Total(items) <= 0.0 ==> r == []
    // otherwise every item gets exactly one place, in input order ...
    ensures Total(items) > 0.0 ==> Flatten(r) == items
    // ... in no more rows than the grid has, each full but the last
    ensures |r| <= Grid(|items|).0
    ensures forall i :: 0 <= i < |r| ==> 0 < |r[i]| <= Grid(|items|).1
    ensures forall i :: 0 <= i < |r| - 1 ==> |r[i]| == Grid(|items|).1
  {
    if Total(items) <= 0.0 then []
    else
      ChunksFitGrid(items);
      Chunks(items, Grid(|items|).1)
  }

  /** The grid's rows hold all of the items, in order. */
  lemma ChunksFitGrid(items: seq<Tile>)
    ensures Flatten(Chunks(items, Grid(|items|).1)) == items
    ensures |Chunks(items, Grid(|items|).1)| <= Grid(|items|).0
  {
    var (rows, chunk) := Grid(|items|);
    FlattenChunks(items, chunk);
    ChunkCount(items, chunk);
    RowsFit(|items|, rows, CeilDiv(|items|, rows), chunk, |Chunks(items, chunk)|);
  }

  /** `k` chunks of `chunk >= c` items, where `c * rows >= n`, fit in `rows` rows when
      all but the last are full. */
  lemma RowsFit(n: nat, rows: nat, c: nat, chunk: nat, k: nat)
    requires rows >= 1 && chunk >= c && c * rows >= n
    requires k == 0 || (k - 1) * chunk < n
    ensures k <= rows
  {
    if k > rows {
      MulMono(rows, k - 1, chunk);
      MulMono(c, chunk, rows);
    }
  }

  lemma MulMono(a: nat, b: nat, c: nat)
    requires a <= b
    ensures a * c <= b * c
  {
  }

  // ---------------------------------------------------------------------------
  // Process filter

  /** The process-table filter: the search box text, trimmed and lower-cased, must occur
      in the lower-cased name; an empty search keeps everything. */
  function FilterByName(processes: seq<ProcRecord>, searchText: string): (r: seq<ProcRecord>)
    ensures Lower(Strip(searchText)) == "" ==> r == processes
    ensures Lower(Strip(searchText)) != "" ==>
              forall p :: p in r <==> p in processes && Contains(Lower(p.name), Lower(Strip(searchText)))
    ensures |r| <= |processes|
  {
    var term := Lower(Strip(searchText));
    if term == "" then processes else KeepMatching(processes, term)
  }

  function KeepMatching(processes: seq<ProcRecord>, term: string): (r: seq<ProcRecord>)
    ensures forall p :: p in r <==> p in processes && Contains(Lower(p.name), term)
    ensures |r| <= |processes|
  {
    if |processes| == 0 then []
    else
      var rest := KeepMatching(processes[1..], term);
      assert forall p :: p in processes <==> p == processes[0] || p in processes[1..];
      if Contains(Lower(processes[0].name), term) then [processes[0]] + rest else rest
  }

  /** Filtering a list split in two filters each part: matches keep their order. */
  lemma {:induction false} KeepMatchingConcat(a: seq<ProcRecord>, b: seq<ProcRecord>, term: string)
    ensures KeepMatching(a + b, term) == KeepMatching(a, term) + KeepMatching(b, term)
  {
    if |a| > 0 {
      assert (a + b)[0] == a[0] && (a + b)[1..] == a[1..] + b;
      KeepMatchingConcat(a[1..], b, term);
      if Contains(Lower(a[0].name), term) {
        assert [a[0]] + (KeepMatching(a[1..], term) + KeepMatching(b, term))
            == ([a[0]] + KeepMatching(a[1..], term)) + KeepMatching(b, term);
      }
    } else {
      assert a + b == b;
    }
  }

  /** A single process is kept exactly when its lower-cased name contains the term. */
  lemma KeepMatchingOne(p: ProcRecord, term: string)
    ensures KeepMatching([p], term) == if Contains(Lower(p.name), term) then [p] else []
  {
    assert [p][1..] == [];
  }

  /** The filter keeps the table's order: filtering a split table filters each part. */
  lemma FilterByNameConcat(a: seq<ProcRecord>, b: seq<ProcRecord>, searchText: string)
    ensures FilterByName(a + b, searchText) == FilterByName(a, searchText) + FilterByName(b, searchText)
  {
    var term := Lower(Strip(searchText));
    if term != "" {
      KeepMatchingConcat(a, b, term);
    }
  }

  /** A single row survives a non-empty search exactly when its name matches. */
  lemma FilterByNameOne(p: ProcRecord, searchText: string)
    ensures var term := Lower(Strip(searchText));
            FilterByName([p], searchText) == if term == "" || Contains(Lower(p.name), term) then [p] else []
  {
    KeepMatchingOne(p, Lower(Strip(searchText)));
  }

  /** Filtering twice with the same search text filters once. */
  lemma {:induction false} KeepMatchingIdempotent(processes: seq<ProcRecord>, term: string)
    ensures KeepMatching(KeepMatching(processes, term), term) == KeepMatching(processes, term)
  {
    if |processes| > 0 {
      KeepMatchingIdempotent(processes[1..], term);
      var rest := KeepMatching(processes[1..], term);
      if Contains(Lower(processes[0].name), term) {
        assert ([processes[0]] + rest)[1..] == rest;
      }
    }
  }
}

=== FILE: msi_ec.dfy ===
/** src/model/msi_ec_manager.py: validation and result shaping around the msi-ec sysfs
    nodes. Whether a node exists, what reading it returns and how a write ends are
    parameters; so is everything the pkexec helper observes. */
module MsiEc {
  import opened Base
  import opened Text
  import opened Control

  /** Everything one `_write_value` call observes. */
  datatype WriteEnv = WriteEnv(write: WriteOutcome, usePkexec: bool, helper: HelperEnv)

  const EcHelperTexts: HelperTexts :=
    HelperTexts("Helper msi-ec no encontrado", "pkexec no disponible", "", "")

  /** The helper's texts for one node: the success and failure defaults name the target. */
  function TextsFor(target: string): HelperTexts {
    EcHelperTexts.(okDefault := target + " aplicado", failDefault := "pkexec falló ajustando " + target)
  }

  /** `_run_helper(target, value)`: runs `pkexec <python> <helper> --<target> <value>`. */
  function EcRunHelper(target: string, value: string, env: HelperEnv): (r: HelperCall)
    ensures env.helperExists && env.pkexecFound ==>
              r.command == Some(["pkexec", PythonBin(env.executable), env.helperPath, "--" + target, value])
    ensures r.outcome.success <==> env.helperExists && env.pkexecFound && env.run.Exited? && env.run.code == 0
    ensures r.outcome.message != ""
    ensures !env.helperExists ==> r == HelperCall(Fail("Helper msi-ec no encontrado"), None)
    ensures env.helperExists && !env.pkexecFound ==> r == HelperCall(Fail("pkexec no disponible"), None)
    // an empty output falls back to texts naming the target
    ensures env.helperExists && env.pkexecFound && env.run.Exited? ==>
              r.outcome.message
              == if env.run.code == 0 then OrElse(Strip(env.run.stdout), target + " aplicado")
                 else OrElse(Strip(env.run.stderr), "pkexec falló ajustando " + target)
  {
    var texts := TextsFor(target);
    assert ["pkexec", PythonBin(env.executable), env.helperPath] + ["--" + target, value]
        == ["pkexec", PythonBin(env.executable), env.helperPath, "--" + target, value];
    HelperMessageNonEmpty(env, ["--" + target, value], texts);
    RunHelper(env, ["--" + target, value], texts)
  }

  /** `_write_value(path, value)`; `node` is the path's file name. */
  function WriteValue(node: string, value: string, e: WriteEnv): (r: Outcome)
    ensures e.write.Written? ==> r == Succeed(node + " ajustado a " + value)
    ensures e.write.PermissionDenied? && !e.usePkexec ==> r == Fail("Permiso denegado (requiere pkexec/root)")
    ensures e.write.PermissionDenied? && e.usePkexec ==> r == EcRunHelper(node, value, e.helper).outcome
    ensures e.write.WriteFailed? ==> r == Fail("Error escribiendo " + node + ": " + e.write.reason)
    // a success is either the direct write or the helper exiting cleanly
    ensures r.success <==>
              || e.write.Written?
              || (e.write.PermissionDenied? && e.usePkexec && e.helper.helperExists
                  && e.helper.pkexecFound && e.helper.run.Exited? && e.helper.run.code == 0)
    ensures r.message != ""
  {
    match e.write
    case Written => Succeed(node + " ajustado a " + value)
    case PermissionDenied =>
      if e.usePkexec then EcRunHelper(node, value, e.helper).outcome
      else Fail("Permiso denegado (requiere pkexec/root)")
    case WriteFailed(exc) => Fail("Error escribiendo " + node + ": " + exc)
  }

  /** A write of `value` to `node`, when the node exists. */
  function WriteIfPresent(nodeExists: bool, missing: string, node: string, value: string, e: WriteEnv): (r: Effect)
    ensures !nodeExists ==> r == Effect(Fail(missing), None)
    ensures nodeExists ==> r == Effect(WriteValue(node, value, e), Some(value))
  {
    if nodeExists then Effect(WriteValue(node, value, e), Some(value)) else Effect(Fail(missing), None)
  }

  // ---------------------------------------------------------------------------
  // Reads

  /** `_safe_read_str`: the stripped contents, or "" when reading raised. */
  function SafeReadStr(content: Option<string>): (r: string)
    ensures content.None? ==> r == ""
    ensures content.Some? ==> r == Strip(content.value)
  {
    if content.Some? then Strip(content.value) else ""
  }

  /** `_read_list`: the whitespace-separated words, or [] when reading raised. */
  function ReadList(content: Option<string>): (r: seq<string>)
    ensures content.None? ==> r == []
    ensures forall i :: 0 <= i < |r| ==> |r[i]| > 0 && NoSpace(r[i])
  {
    if content.Some? then Words(Strip(content.value)) else []
  }

  /** A node holding its modes separated by single spaces reads back as those modes. */
  lemma ReadListOfJoin(modes: seq<string>)
    requires forall i :: 0 <= i < |modes| ==> |modes[i]| > 0 && NoSpace(modes[i])
    ensures ReadList(Some(Join(modes, " "))) == modes
  {
    JoinWordsTrimmed(modes);
    StripTrimmed(Join(modes, " "));
    WordsOfJoin(modes);
  }

  /** What `get_info` reports. */
  datatype EcInfo =
    | Unavailable
    | Info(fanMode: string, shiftMode: string, availableFanModes: seq<string>,
           availableShiftModes: seq<string>, coolerBoost: string)

  /** `get_info`: each argument is what reading that node returned, None when it raised. */
  function GetInfo(baseExists: bool, fanMode: Option<string>, shiftMode: Option<string>,
                   availableFan: Option<string>, availableShift: Option<string>,
                   coolerBoost: Option<string>): (r: EcInfo)
    ensures !baseExists <==> r.Unavailable?
    ensures baseExists ==>
              && r.fanMode == SafeReadStr(fanMode) && r.shiftMode == SafeReadStr(shiftMode)
              && r.availableFanModes == ReadList(availableFan)
              && r.availableShiftModes == ReadList(availableShift)
              && r.coolerBoost == SafeReadStr(coolerBoost)
  {
    if !baseExists then Unavailable
    else Info(SafeReadStr(fanMode), SafeReadStr(shiftMode), ReadList(availableFan),
              ReadList(availableShift), SafeReadStr(coolerBoost))
  }

  // ---------------------------------------------------------------------------
  // Writes

  /** The value `set_cooler_boost` writes: the accepted spellings of on and off are
      normalised, anything else passes through. */
  function NormalizeBoost(value: string): (r: string)
    ensures value in ["1", "on", "true", "True"] ==> r == "on"
    ensures value in ["0", "off", "false", "False"] ==> r == "off"
    ensures value !in ["1", "on", "true", "True", "0", "off", "false", "False"] ==> r == value
  {
    if value in ["1", "on", "true", "True"] then "on"
    else if value in ["0", "off", "false", "False"] then "off"
    else value
  }

  lemma NormalizeBoostIdempotent(value: string)
    ensures NormalizeBoost(NormalizeBoost(value)) == NormalizeBoost(value)
  {
  }

  /** `set_cooler_boost(value)`. */
  function SetCoolerBoost(nodeExists: bool, value: string, e: WriteEnv): (r: Effect)
    ensures !nodeExists ==> r == Effect(Fail("cooler_boost no soportado"), None)
    ensures nodeExists ==> r.attempted == Some(NormalizeBoost(value))
    ensures nodeExists ==> r.outcome == WriteValue("cooler_boost", NormalizeBoost(value), e)
  {
    WriteIfPresent(nodeExists, "cooler_boost no soportado", "cooler_boost", NormalizeBoost(value), e)
  }

  function OnOff(enable: bool): (r: string)
    ensures r == "on" <==> enable
    ensures r == "off" <==> !enable
  {
    if enable then "on" else "off"
  }

  /** `set_webcam(enable)`. */
  function SetWebcam(nodeExists: bool, enable: bool, e: WriteEnv): (r: Effect)
    ensures !nodeExists ==> r == Effect(Fail("webcam no soportada"), None)
    ensures nodeExists ==> r.attempted == Some(if enable then "on" else "off")
    ensures nodeExists ==> r.outcome == WriteValue("webcam", OnOff(enable), e)
  {
    WriteIfPresent(nodeExists, "webcam no soportada", "webcam", OnOff(enable), e)
  }

  /** `set_webcam_block(enable)`. */
  function SetWebcamBlock(nodeExists: bool, enable: bool, e: WriteEnv): (r: Effect)
    ensures !nodeExists ==> r == Effect(Fail("webcam_block no soportada"), None)
    ensures nodeExists ==> r.attempted == Some(if enable then "on" else "off")
    ensures nodeExists ==> r.outcome == WriteValue("webcam_block", OnOff(enable), e)
  {
    WriteIfPresent(nodeExists, "webcam_block no soportada", "webcam_block", OnOff(enable), e)
  }

  /** `set_keyboard_backlight(level)`: the node is `brightness`. */
  function SetKeyboardBacklight(nodeExists: bool, level: int, e: WriteEnv): (r: Effect)
    ensures !nodeExists ==> r == Effect(Fail("Backlight no soportado"), None)
    ensures nodeExists ==> r.attempted == Some(IntToString(level))
    ensures nodeExists ==> ParseInt(r.attempted.value) == Some(level)
    ensures nodeExists ==> r.outcome == WriteValue("brightness", IntToString(level), e)
  {
    ParseIntOfIntToString(level);
    WriteIfPresent(nodeExists, "Backlight no soportado", "brightness", IntToString(level), e)
  }

  /** The message for a mode node the machine lacks. */
  function MissingNode(filename: string): string {
    filename + " no soportado en este equipo"
  }

  /** The message for a value the node does not list, with the values it does. */
  function Rejected(value: string, available: seq<string>): string {
    "Valor '" + value + "' no soportado. Disponibles: " + Join(available, ", ")
  }

  /** `_write_mode(filename, value, available_path)`: `available` is what reading the
      list of accepted values returned. */
  function WriteMode(filename: string, value: string, nodeExists: bool, available: Option<string>,
                     e: WriteEnv): (r: Effect)
    ensures !nodeExists ==> r == Effect(Fail(MissingNode(filename)), None)
    // the write is attempted exactly when the node exists and the value is allowed;
    // an empty (or unreadable) list allows everything
    ensures r.attempted.Some? <==> nodeExists && (ReadList(available) == [] || value in ReadList(available))
    ensures r.attempted.Some? ==> r.attempted == Some(value) && r.outcome == WriteValue(filename, value, e)
    ensures nodeExists && ReadList(available) != [] && value !in ReadList(available) ==>
              r.outcome == Fail(Rejected(value, ReadList(available)))
    ensures r.outcome.success ==> r.attempted.Some?
  {
    if !nodeExists then Effect(Fail(MissingNode(filename)), None)
    else
      var list := ReadList(available);
      if list != [] && value !in list then
        Effect(Fail(Rejected(value, list)), None)
      else Effect(WriteValue(filename, value, e), Some(value))
  }

  /** `set_fan_mode(mode)`. */
  function SetFanMode(nodeExists: bool, mode: string, available: Option<string>, e: WriteEnv): (r: Effect)
    ensures !nodeExists ==> r == Effect(Fail(MissingNode("fan_mode")), None)
    // attempted exactly when the node exists and `available_fan_modes` is empty or lists the mode
    ensures r.attempted.Some? <==> nodeExists && (ReadList(available) == [] || mode in ReadList(available))
    ensures r.attempted.Some? ==> r.attempted == Some(mode) && r.outcome == WriteValue("fan_mode", mode, e)
    ensures nodeExists && ReadList(available) != [] && mode !in ReadList(available) ==>
              r.outcome == Fail(Rejected(mode, ReadList(available)))
    ensures r.outcome.success ==> nodeExists
  {
    WriteMode("fan_mode", mode, nodeExists, available, e)
  }

  /** `set_shift_mode(mode)`. */
  function SetShiftMode(nodeExists: bool, mode: string, available: Option<string>, e: WriteEnv): (r: Effect)
    ensures !nodeExists ==> r == Effect(Fail(MissingNode("shift_mode")), None)
    // attempted exactly when the node exists and `available_shift_modes` is empty or lists the mode
    ensures r.attempted.Some? <==> nodeExists && (ReadList(available) == [] || mode in ReadList(available))
    ensures r.attempted.Some? ==> r.attempted == Some(mode) && r.outcome == WriteValue("shift_mode", mode, e)
    ensures nodeExists && ReadList(available) != [] && mode !in ReadList(available) ==>
              r.outcome == Fail(Rejected(mode, ReadList(available)))
    ensures r.outcome.success ==> nodeExists
  {
    WriteMode("shift_mode", mode, nodeExists, available, e)
  }

  /** A mode the node lists as available is always attempted. */
  lemma ListedModeIsWritten(filename: string, modes: seq<string>, k: nat, e: WriteEnv)
    requires forall i :: 0 <= i < |modes| ==> |modes[i]| > 0 && NoSpace(modes[i])
    requires k < |modes|
    ensures WriteMode(filename, modes[k], true, Some(Join(modes, " ")), e).attempted == Some(modes[k])
  {
    ReadListOfJoin(modes);
  }

  // ---------------------------------------------------------------------------
  // Battery charge thresholds

  /** The writes the given thresholds ask for, in order: start, then end. */
  function ThresholdSteps(start: Option<int>, end: Option<int>, startEnv: WriteEnv, endEnv: WriteEnv): (r: seq<Outcome>)
    ensures |r| == (if start.Some? then 1 else 0) + (if end.Some? then 1 else 0)
    // the start write comes first and the end write last
    ensures start.Some? ==> r[0] == WriteValue("charge_control_start_threshold", IntToString(start.value), startEnv)
    ensures end.Some? ==> r[|r| - 1] == WriteValue("charge_control_end_threshold", IntToString(end.value), endEnv)
    ensures (forall i :: 0 <= i < |r| ==> r[i].success)
        <==> && (start.Some? ==> WriteValue("charge_control_start_threshold", IntToString(start.value), startEnv).success)
             && (end.Some? ==> WriteValue("charge_control_end_threshold", IntToString(end.value), endEnv).success)
  {
    if start.Some? then
      var a := WriteValue("charge_control_start_threshold", IntToString(start.value), startEnv);
      if end.Some? then
        var b := WriteValue("charge_control_end_threshold", IntToString(end.value), endEnv);
        var r := [a, b];
        assert r[0] == a && r[1] == b;
        r
      else
        var r := [a];
        assert r[0] == a;
        r
    else if end.Some? then
      var r := [WriteValue("charge_control_end_threshold", IntToString(end.value), endEnv)];
      assert r[0].success == WriteValue("charge_control_end_threshold", IntToString(end.value), endEnv).success;
      r
    else []
  }

  /** `set_battery_thresholds(start, end)` on BAT1; each environment describes the write
      of that threshold. */
  function SetBatteryThresholds(batExists: bool, start: Option<int>, end: Option<int>,
                                startEnv: WriteEnv, endEnv: WriteEnv): (r: Outcome)
    ensures !batExists ==> r == Fail("BAT1 no encontrada")
    // success is the conjunction of the writes that were asked for
    ensures batExists ==>
              (r.success <==>
                 && (start.Some? ==> WriteValue("charge_control_start_threshold", IntToString(start.value), startEnv).success)
                 && (end.Some? ==> WriteValue("charge_control_end_threshold", IntToString(end.value), endEnv).success))
    ensures batExists ==>
              var m := Combine(ThresholdSteps(start, end, startEnv, endEnv)).message;
              r.message == if m == "" then "OK" else m
  {
    if !batExists then Fail("BAT1 no encontrada")
    else
      var steps := ThresholdSteps(start, end, startEnv, endEnv);
      var c := Combine(steps);
      Outcome(c.success, if c.message == "" then "OK" else c.message)
  }

  /** Every write explains itself, so the "OK" fallback is used exactly when no threshold
      was given; then the call succeeds without writing. */
  lemma BatteryOkOnlyWhenNothingAsked(start: Option<int>, end: Option<int>, startEnv: WriteEnv, endEnv: WriteEnv)
    ensures start.None? && end.None? ==> SetBatteryThresholds(true, start, end, startEnv, endEnv) == Succeed("OK")
    ensures start.Some? || end.Some? ==>
              SetBatteryThresholds(true, start, end, startEnv, endEnv).message
              == Combine(ThresholdSteps(start, end, startEnv, endEnv)).message != ""
  {
    var steps := ThresholdSteps(start, end, startEnv, endEnv);
    CombineMessageEmpty(steps);
    if |steps| > 0 {
      assert steps[0].message != "";
    }
  }
}

=== FILE: power.dfy ===
/** src/model/power_manager.py: CPU governor and maximum-frequency control over the
    cpufreq nodes, with the pkexec helper as fallback. The CPUs found by the glob, what
    their nodes hold and whether each write succeeds are parameters. */
module Power {
  import opened Base
  import opened Text
  import opened Control

  /** One `/sys/devices/system/cpu/cpuN/cpufreq` directory and whether `_safe_write_str`
      to it succeeds. */
  datatype Cpu = Cpu(path: string, writable: bool)

  /** `_safe_int`: `int(value)`, None when it raises (None itself included). */
  function SafeInt(value: Option<string>): (r: Option<int>)
    ensures value.None? ==> r.None?
    ensures value.Some? ==> r == ParseInt(value.value)
  {
    if value.None? then None else ParseInt(value.value)
  }

  lemma SafeIntOfDecimal(i: int)
    ensures SafeInt(Some(IntToString(i))) == Some(i)
  {
    ParseIntOfIntToString(i);
  }

  /** What `get_governors` reports. */
  datatype Governors =
    | NoCpufreq
    | CpufreqInfo(current: string, available: seq<string>, maxFreq: Option<int>, minFreq: Option<int>)

  /** The available governors as `get_governors` lists them. */
  function AvailableList(content: Option<string>): (r: seq<string>)
    ensures forall i :: 0 <= i < |r| ==> |r[i]| > 0 && NoSpace(r[i])
    // the `if available else []` guard loses nothing: an empty line has no words
    ensures r == Words(ReadFirstLine(content))
  {
    var a := ReadFirstLine(content);
    if a != "" then Words(a) else []
  }

  /** A `scaling_available_governors` node as cpufreq writes it, every name followed by a
      space and the line ended by a newline, lists exactly those names. */
  lemma AvailableListOfNode(ws: seq<string>)
    requires forall i :: 0 <= i < |ws| ==> |ws[i]| > 0 && NoSpace(ws[i])
    ensures AvailableList(Some(Join(ws, " ") + " \n")) == ws
  {
    var j := Join(ws, " ");
    var s := j + " \n";
    JoinNoNewline(ws);
    assert forall k :: 0 <= k < |j| ==> s[k] != '\n' by {
      forall k | 0 <= k < |j| ensures s[k] != '\n' {
        assert s[k] == j[k] && j[k] in j;
      }
    }
    assert s[|j|] == ' ' && s[|j| + 1] == '\n';
    assert IndexOf(s, '\n') == |j| + 1;
    assert s[..|j| + 2] == s;
    JoinWordsTrimmed(ws);
    StripTwoTrailing(j);
    WordsOfJoin(ws);
  }

  /** Space-joined words contain no newline. */
  lemma {:induction false} JoinNoNewline(ws: seq<string>)
    requires forall i :: 0 <= i < |ws| ==> |ws[i]| > 0 && NoSpace(ws[i])
    ensures '\n' !in Join(ws, " ")
  {
    if |ws| >= 1 {
      forall k | 0 <= k < |ws[0]| ensures ws[0][k] != '\n' {
        assert !IsSpace(ws[0][k]);
      }
      if |ws| >= 2 {
        JoinNoNewline(ws[1..]);
        assert Join(ws, " ") == ws[0] + " " + Join(ws[1..], " ");
      }
    }
  }

  /** A trimmed text followed by a space and a newline strips back to the text. */
  lemma StripTwoTrailing(t: string)
    requires t == [] || (!IsSpace(t[0]) && !IsSpace(t[|t| - 1]))
    ensures Strip(t + " \n") == t
  {
    var s := t + " \n";
    if t == [] {
      assert LeadingSpace(s) == |s|;
    } else {
      assert LeadingSpace(s) == 0;
      assert s[..|s| - 1] == t + " ";
      assert (t + " ")[..|t|] == t;
      assert TrailingSpace(t) == 0;
      assert TrailingSpace(s) == 2;
      assert s[0..|s| - 2] == t;
    }
  }

  /** `get_governors`: the first CPU's nodes are read; each content is None when the read raised. */
  function GetGovernors(cpus: seq<Cpu>, governor: Option<string>, available: Option<string>,
                        maxFreq: Option<string>, minFreq: Option<string>): (r: Governors)
    ensures |cpus| == 0 <==> r.NoCpufreq?
    ensures |cpus| > 0 ==>
              && r.current == ReadFirstLine(governor)
              && r.available == AvailableList(available)
              && r.maxFreq == SafeInt(Some(ReadFirstLine(maxFreq)))
              && r.minFreq == SafeInt(Some(ReadFirstLine(minFreq)))
    // an unreadable frequency node reads as "", which int() rejects
    ensures |cpus| > 0 && maxFreq.None? ==> r.maxFreq.None?
    ensures |cpus| > 0 && minFreq.None? ==> r.minFreq.None?
  {
    if |cpus| == 0 then NoCpufreq
    else
      CpufreqInfo(ReadFirstLine(governor), AvailableList(available),
                  SafeInt(Some(ReadFirstLine(maxFreq))), SafeInt(Some(ReadFirstLine(minFreq))))
  }

  /** How many CPUs refused the write. */
  function FailedWrites(cpus: seq<Cpu>): (n: nat)
    ensures n <= |cpus|
    ensures n == 0 <==> forall i :: 0 <= i < |cpus| ==> cpus[i].writable
  {
    if |cpus| == 0 then 0 else (if cpus[0].writable then 0 else 1) + FailedWrites(cpus[1..])
  }

  /** The failures of two groups of CPUs add up. */
  lemma {:induction false} FailedWritesConcat(a: seq<Cpu>, b: seq<Cpu>)
    ensures FailedWrites(a + b) == FailedWrites(a) + FailedWrites(b)
  {
    if |a| == 0 {
      assert a + b == b;
    } else {
      assert (a + b)[0] == a[0];
      assert (a + b)[1..] == a[1..] + b;
      FailedWritesConcat(a[1..], b);
    }
  }

  /** One CPU counts once exactly when it refused the write. */
  lemma FailedWritesOne(c: Cpu)
    ensures FailedWrites([c]) == if c.writable then 0 else 1
  {
    assert [c][1..] == [];
  }

  const PowerHelperTexts: HelperTexts :=
    HelperTexts("Helper de energía no encontrado", "pkexec no disponible para elevar privilegios",
                "Perfil aplicado con pkexec", "pkexec falló en aplicar el perfil")

  /** The flags after the helper path: `--governor g` when g is truthy, then
      `--max-freq-khz k` when k is truthy (not None and not 0). */
  function HelperArgs(governor: Option<string>, khz: Option<int>): (r: seq<string>)
    ensures governor.Some? && governor.value != "" && (khz.None? || khz.value == 0) ==>
              r == ["--governor", governor.value]
    ensures (governor.None? || governor.value == "") && khz.Some? && khz.value != 0 ==>
              r == ["--max-freq-khz", IntToString(khz.value)]
    ensures (governor.None? || governor.value == "") && (khz.None? || khz.value == 0) ==> r == []
  {
    (if governor.Some? && governor.value != "" then ["--governor", governor.value] else [])
    + (if khz.Some? && khz.value != 0 then ["--max-freq-khz", IntToString(khz.value)] else [])
  }

  /** The helper can recover both settings from its flags. */
  lemma HelperArgsRecover(governor: string, khz: int)
    requires governor != "" && khz != 0
    ensures var a := HelperArgs(Some(governor), Some(khz));
            && |a| == 4 && a[0] == "--governor" && a[1] == governor
            && a[2] == "--max-freq-khz" && ParseInt(a[3]) == Some(khz)
  {
    ParseIntOfIntToString(khz);
  }

  /** `_run_helper(governor, max_freq_khz)`. */
  function PowerRunHelper(governor: Option<string>, khz: Option<int>, env: HelperEnv): (r: HelperCall)
    ensures env.helperExists && env.pkexecFound ==>
              r.command == Some(["pkexec", PythonBin(env.executable), env.helperPath] + HelperArgs(governor, khz))
    ensures r.outcome.success <==> env.helperExists && env.pkexecFound && env.run.Exited? && env.run.code == 0
    ensures r.command.Some? ==>
              r.command.value == ["pkexec", PythonBin(env.executable), env.helperPath] + HelperArgs(governor, khz)
    ensures r.outcome.message != ""
    ensures !env.helperExists ==> r == HelperCall(Fail("Helper de energía no encontrado"), None)
    ensures env.helperExists && !env.pkexecFound ==>
              r == HelperCall(Fail("pkexec no disponible para elevar privilegios"), None)
    // an empty output falls back to the fixed texts
    ensures env.helperExists && env.pkexecFound && env.run.Exited? ==>
              r.outcome.message
              == if env.run.code == 0 then OrElse(Strip(env.run.stdout), "Perfil aplicado con pkexec")
                 else OrElse(Strip(env.run.stderr), "pkexec falló en aplicar el perfil")
  {
    HelperMessageNonEmpty(env, HelperArgs(governor, khz), PowerHelperTexts);
    RunHelper(env, HelperArgs(governor, khz), PowerHelperTexts)
  }

  /** The helper ran and exited with status 0. */
  predicate HelperSucceeds(env: HelperEnv) {
    env.helperExists && env.pkexecFound && env.run.Exited? && env.run.code == 0
  }

  /** A power operation's result: the outcome, whether the per-CPU writes were attempted,
      and the helper command line if the helper was run. */
  datatype PowerResult = PowerResult(outcome: Outcome, wrote: bool, command: Option<seq<string>>)

  /** Shared tail of `set_governor` and `set_max_freq` once the per-CPU writes ran. */
  function AfterWrites(cpus: seq<Cpu>, governor: Option<string>, khz: Option<int>, usePkexec: bool,
                       env: HelperEnv, okMessage: string): (r: PowerResult)
    ensures r.wrote
    ensures r.outcome.success <==> FailedWrites(cpus) == 0 || (usePkexec && HelperSucceeds(env))
    ensures r.outcome.success && r.command.None? ==> r.outcome.message == okMessage
    ensures r.command.Some? ==>
              r.command.value == ["pkexec", PythonBin(env.executable), env.helperPath] + HelperArgs(governor, khz)
    ensures FailedWrites(cpus) == 0 ==> r == PowerResult(Succeed(okMessage), true, None)
    ensures FailedWrites(cpus) > 0 && usePkexec ==>
              var h := PowerRunHelper(governor, khz, env);
              r == PowerResult(h.outcome, true, h.command)
    ensures FailedWrites(cpus) > 0 && !usePkexec ==>
              r == PowerResult(Fail("No se pudo escribir en " + IntToString(FailedWrites(cpus))
                                    + " CPU(s). Requiere permisos."), true, None)
  {
    var n := FailedWrites(cpus);
    if n == 0 then PowerResult(Succeed(okMessage), true, None)
    else if usePkexec then
      var h := PowerRunHelper(governor, khz, env);
      PowerResult(h.outcome, true, h.command)
    else PowerResult(Fail("No se pudo escribir en " + IntToString(n) + " CPU(s). Requiere permisos."), true, None)
  }

  /** `set_governor` once the governor list is read: `list` is what `get_governors`
      reports as available. */
  function GovernorWithList(governor: string, cpus: seq<Cpu>, list: seq<string>, usePkexec: bool,
                            env: HelperEnv): (r: PowerResult)
    ensures governor == "" ==> r == PowerResult(Fail("Gobernador no especificado"), false, None)
    ensures governor != "" && |cpus| == 0 ==> r == PowerResult(Fail("No se encontró ruta cpufreq"), false, None)
    ensures governor != "" && |cpus| > 0 && list != [] && governor !in list ==>
              r == PowerResult(Fail("Gobernador '" + governor + "' no soportado. Disponibles: "
                                    + Join(list, ", ")), false, None)
    ensures r.wrote <==> governor != "" && |cpus| > 0 && (list == [] || governor in list)
    ensures r.outcome.success <==>
              && r.wrote
              && ((forall i :: 0 <= i < |cpus| ==> cpus[i].writable) || (usePkexec && HelperSucceeds(env)))
    ensures r.outcome.success && r.command.None? ==> r.outcome.message == "Gobernador establecido en '" + governor + "'"
    ensures r.command.Some? ==> r.command.value == ["pkexec", PythonBin(env.executable), env.helperPath, "--governor", governor]
    // refused writes: the helper's own result with pkexec, otherwise the count of refusals
    ensures r.wrote && FailedWrites(cpus) > 0 && usePkexec ==>
              r.outcome == PowerRunHelper(Some(governor), None, env).outcome
    ensures r.wrote && FailedWrites(cpus) > 0 && !usePkexec ==>
              r.outcome == Fail("No se pudo escribir en " + IntToString(FailedWrites(cpus))
                                + " CPU(s). Requiere permisos.")
  {
    if governor == "" then PowerResult(Fail("Gobernador no especificado"), false, None)
    else if |cpus| == 0 then PowerResult(Fail("No se encontró ruta cpufreq"), false, None)
    else if list != [] && governor !in list then
      PowerResult(Fail("Gobernador '" + governor + "' no soportado. Disponibles: " + Join(list, ", ")), false, None)
    else
      assert HelperArgs(Some(governor), None) == ["--governor", governor];
      AfterWrites(cpus, Some(governor), None, usePkexec, env, "Gobernador establecido en '" + governor + "'")
  }

  /** `set_governor(governor)`: `available` is the first CPU's list of governors. */
  function SetGovernor(governor: string, cpus: seq<Cpu>, available: Option<string>, usePkexec: bool,
                       env: HelperEnv): (r: PowerResult)
    ensures governor == "" ==> r == PowerResult(Fail("Gobernador no especificado"), false, None)
    ensures governor != "" && |cpus| == 0 ==> r == PowerResult(Fail("No se encontró ruta cpufreq"), false, None)
    ensures governor != "" && |cpus| > 0 && AvailableList(available) != [] && governor !in AvailableList(available) ==>
              r == PowerResult(Fail("Gobernador '" + governor + "' no soportado. Disponibles: "
                                    + Join(AvailableList(available), ", ")), false, None)
    // the writes happen exactly when every check passes; an empty list checks nothing
    ensures r.wrote <==> governor != "" && |cpus| > 0
                         && (AvailableList(available) == [] || governor in AvailableList(available))
    ensures r.outcome.success <==>
              && r.wrote
              && ((forall i :: 0 <= i < |cpus| ==> cpus[i].writable) || (usePkexec && HelperSucceeds(env)))
    ensures r.outcome.success && r.command.None? ==> r.outcome.message == "Gobernador establecido en '" + governor + "'"
    ensures r.command.Some? ==> r.command.value == ["pkexec", PythonBin(env.executable), env.helperPath, "--governor", governor]
    // refused writes: the helper's own result with pkexec, otherwise the count of refusals
    ensures r.wrote && FailedWrites(cpus) > 0 && usePkexec ==>
              r.outcome == PowerRunHelper(Some(governor), None, env).outcome
    ensures r.wrote && FailedWrites(cpus) > 0 && !usePkexec ==>
              r.outcome == Fail("No se pudo escribir en " + IntToString(FailedWrites(cpus))
                                + " CPU(s). Requiere permisos.")
  {
    GovernorWithList(governor, cpus, AvailableList(available), usePkexec, env)
  }

  /** `set_max_freq(khz)`: `not khz or khz <= 0` rejects exactly the non-positive values. */
  function SetMaxFreq(khz: int, cpus: seq<Cpu>, usePkexec: bool, env: HelperEnv): (r: PowerResult)
    ensures khz <= 0 ==> r == PowerResult(Fail("Frecuencia inválida"), false, None)
    ensures khz > 0 && |cpus| == 0 ==> r == PowerResult(Fail("No se encontró ruta cpufreq"), false, None)
    ensures r.wrote <==> khz > 0 && |cpus| > 0
    ensures r.outcome.success <==>
              && r.wrote
              && ((forall i :: 0 <= i < |cpus| ==> cpus[i].writable) || (usePkexec && HelperSucceeds(env)))
    ensures r.outcome.success && r.command.None? ==>
              r.outcome.message == "Frecuencia máxima ajustada a " + IntToString(khz) + " kHz"
    ensures r.command.Some? ==>
              r.command.value == ["pkexec", PythonBin(env.executable), env.helperPath, "--max-freq-khz", IntToString(khz)]
    // refused writes: the helper's own result with pkexec, otherwise the count of refusals
    ensures r.wrote && FailedWrites(cpus) > 0 && usePkexec ==>
              r.outcome == PowerRunHelper(None, Some(khz), env).outcome
    ensures r.wrote && FailedWrites(cpus) > 0 && !usePkexec ==>
              r.outcome == Fail("No se pudo escribir en " + IntToString(FailedWrites(cpus))
                                + " CPU(s). Requiere permisos.")
  {
    if khz <= 0 then PowerResult(Fail("Frecuencia inválida"), false, None)
    else if |cpus| == 0 then PowerResult(Fail("No se encontró ruta cpufreq"), false, None)
    else
      assert HelperArgs(None, Some(khz)) == ["--max-freq-khz", IntToString(khz)];
      AfterWrites(cpus, None, Some(khz), usePkexec, env, "Frecuencia máxima ajustada a " + IntToString(khz) + " kHz")
  }
}

=== FILE: process_manager.dfy ===
/** src/model/process_manager.py: the process table built from psutil's enumeration,
    its ordering and truncation, name search, termination results and status counts.
    The enumeration itself is a parameter: one entry per process, None where reading
    that process raised and it was skipped. */
module ProcessManager {
  import opened Base
  import opened Text

  datatype MemInfo = MemInfo(rss: int, vms: int)
  datatype IoCounters = IoCounters(readBytes: int, writeBytes: int)

  /** `proc.info` for one process, with None where psutil reported None, plus the
      outcome of `proc.io_counters()` (None when it raised). */
  datatype RawProc = RawProc(
    pid: int, name: Option<string>, status: Option<string>,
    memoryPercent: Option<real>, cpuPercent: Option<real>, username: Option<string>,
    createTime: Option<real>, numThreads: Option<int>,
    memoryInfo: Option<MemInfo>, io: Option<IoCounters>)

  /** One row of `get_process_list`. */
  datatype ProcRecord = ProcRecord(
    pid: int, name: string, status: string,
    memoryPercent: real, cpuPercent: real, username: string,
    createTime: Option<real>, numThreads: int,
    rssBytes: int, vmsBytes: int, ioReadBytes: int, ioWriteBytes: int)

  /** `text or 'Unknown'`: None and the empty string are falsy. */
  function OrUnknown(text: Option<string>): (r: string)
    ensures r != ""
    ensures text.Some? && text.value != "" ==> r == text.value
    ensures text.None? || text.value == "" ==> r == "Unknown"
  {
    if text.Some? && text.value != "" then text.value else "Unknown"
  }

  /** The record built for one process: every missing field gets its default. */
  function Record(p: RawProc): (r: ProcRecord)
    ensures r.pid == p.pid && r.createTime == p.createTime
    ensures r.name == OrUnknown(p.name) && r.status == OrUnknown(p.status)
    ensures r.username == OrUnknown(p.username)
    ensures p.cpuPercent.None? ==> r.cpuPercent == 0.0
    ensures p.memoryPercent.None? ==> r.memoryPercent == 0.0
    ensures p.numThreads.None? ==> r.numThreads == 0
    ensures p.cpuPercent.Some? ==> r.cpuPercent == p.cpuPercent.value
    ensures p.memoryPercent.Some? ==> r.memoryPercent == p.memoryPercent.value
    ensures p.numThreads.Some? ==> r.numThreads == p.numThreads.value
    ensures p.memoryInfo.None? ==> r.rssBytes == 0 && r.vmsBytes == 0
    ensures p.io.None? ==> r.ioReadBytes == 0 && r.ioWriteBytes == 0
    ensures p.memoryInfo.Some? ==> r.rssBytes == p.memoryInfo.value.rss && r.vmsBytes == p.memoryInfo.value.vms
    ensures p.io.Some? ==> r.ioReadBytes == p.io.value.readBytes && r.ioWriteBytes == p.io.value.writeBytes
  {
    ProcRecord(
      p.pid, OrUnknown(p.name), OrUnknown(p.status),
      if p.memoryPercent.Some? then p.memoryPercent.value else 0.0,
      if p.cpuPercent.Some? then p.cpuPercent.value else 0.0,
      OrUnknown(p.username), p.createTime,
      if p.numThreads.Some? then p.numThreads.value else 0,
      if p.memoryInfo.Some? then p.memoryInfo.value.rss else 0,
      if p.memoryInfo.Some? then p.memoryInfo.value.vms else 0,
      if p.io.Some? then p.io.value.readBytes else 0,
      if p.io.Some? then p.io.value.writeBytes else 0)
  }

  /** The records of the processes that could be read, in enumeration order. */
  function Collect(procs: seq<Option<RawProc>>): (r: seq<ProcRecord>)
    ensures |r| <= |procs|
    ensures forall x :: x in r <==> exists p :: Some(p) in procs && x == Record(p)
  {
    if |procs| == 0 then []
    else
      var rest := Collect(procs[1..]);
      assert forall q :: q in procs[1..] ==> q in procs;
      assert forall q :: q in procs ==> q == procs[0] || q in procs[1..];
      match procs[0]
      case None => rest
      case Some(p) => [Record(p)] + rest
  }

  /** Collecting an enumeration split in two collects each part: records keep the
      enumeration order. */
  lemma {:induction false} CollectConcat(a: seq<Option<RawProc>>, b: seq<Option<RawProc>>)
    ensures Collect(a + b) == Collect(a) + Collect(b)
  {
    if |a| > 0 {
      assert (a + b)[0] == a[0] && (a + b)[1..] == a[1..] + b;
      CollectConcat(a[1..], b);
      if a[0].Some? {
        var x := Record(a[0].value);
        assert [x] + (Collect(a[1..]) + Collect(b)) == ([x] + Collect(a[1..])) + Collect(b);
      }
    } else {
      assert a + b == b;
    }
  }

  /** A readable process gives its record; one that vanished or was denied gives none. */
  lemma CollectOne(p: Option<RawProc>)
    ensures Collect([p]) == if p.Some? then [Record(p.value)] else []
  {
    assert [p][1..] == [];
  }

  // ---------------------------------------------------------------------------
  // Ordering

  /** Python's `<` on strings: lexicographic by code point. */
  predicate LexLt(a: string, b: string)
    decreases |a|
  {
    if |a| == 0 then |b| > 0
    else if |b| == 0 then false
    else if a[0] != b[0] then a[0] < b[0]
    else LexLt(a[1..], b[1..])
  }

  lemma {:induction false} LexLtIrreflexive(a: string)
    ensures !LexLt(a, a)
    decreases |a|
  {
    if |a| > 0 {
      LexLtIrreflexive(a[1..]);
    }
  }

  lemma {:induction false} LexLtTransitive(a: string, b: string, c: string)
    requires LexLt(a, b) && LexLt(b, c)
    ensures LexLt(a, c)
    decreases |a|
  {
    if |a| > 0 && |b| > 0 && |c| > 0 && a[0] == b[0] && b[0] == c[0] {
      LexLtTransitive(a[1..], b[1..], c[1..]);
    }
  }

  lemma {:induction false} LexLtTotal(a: string, b: string)
    ensures a == b || LexLt(a, b) || LexLt(b, a)
    decreases |a|
  {
    if |a| > 0 && |b| > 0 && a[0] == b[0] {
      LexLtTotal(a[1..], b[1..]);
      if a[1..] == b[1..] {
        assert a == [a[0]] + a[1..] && b == [b[0]] + b[1..];
      }
    }
  }

  /** The `sort_by` values the source recognises; anything else leaves the order alone. */
  datatype SortField = ByCpu | ByMemory | ByPid | ByThreads | ByName | Unsorted

  function FieldOf(sortBy: string): (r: SortField)
    ensures r == ByCpu <==> sortBy == "cpu_percent"
    ensures r == ByMemory <==> sortBy == "memory_percent"
    ensures r == ByPid <==> sortBy == "pid"
    ensures r == ByThreads <==> sortBy == "num_threads"
    ensures r == ByName <==> sortBy == "name"
  {
    if sortBy == "cpu_percent" then ByCpu
    else if sortBy == "memory_percent" then ByMemory
    else if sortBy == "pid" then ByPid
    else if sortBy == "num_threads" then ByThreads
    else if sortBy == "name" then ByName
    else Unsorted
  }

  datatype SortKey = NumKey(x: real) | TextKey(t: string)

  /** The sort key: the numeric field, or the lower-cased name. */
  function KeyOf(p: ProcRecord, f: SortField): SortKey {
    match f
    case ByCpu => NumKey(p.cpuPercent)
    case ByMemory => NumKey(p.memoryPercent)
    case ByPid => NumKey(p.pid as real)
    case ByThreads => NumKey(p.numThreads as real)
    case ByName => TextKey(Lower(p.name))
    case Unsorted => NumKey(0.0)
  }

  predicate KeyLt(a: SortKey, b: SortKey) {
    match (a, b)
    case (NumKey(x), NumKey(y)) => x < y
    case (TextKey(s), TextKey(t)) => LexLt(s, t)
    case _ => false
  }

  /** `a` must be placed strictly before `b` (`reverse=descending` flips the keys). */
  predicate Before(a: ProcRecord, b: ProcRecord, f: SortField, descending: bool) {
    if descending then KeyLt(KeyOf(b, f), KeyOf(a, f)) else KeyLt(KeyOf(a, f), KeyOf(b, f))
  }

  lemma BeforeIrreflexive(a: ProcRecord, f: SortField, descending: bool)
    ensures !Before(a, a, f, descending)
  {
    if f == ByName {
      LexLtIrreflexive(Lower(a.name));
    }
  }

  lemma BeforeTransitive(a: ProcRecord, b: ProcRecord, c: ProcRecord, f: SortField, descending: bool)
    requires Before(a, b, f, descending) && Before(b, c, f, descending)
    ensures Before(a, c, f, descending)
  {
    if f == ByName {
      if descending {
        LexLtTransitive(Lower(c.name), Lower(b.name), Lower(a.name));
      } else {
        LexLtTransitive(Lower(a.name), Lower(b.name), Lower(c.name));
      }
    }
  }

  /** No element is placed after one that should precede it. */
  predicate SortedBy(s: seq<ProcRecord>, f: SortField, descending: bool) {
    forall i, j :: 0 <= i < j < |s| ==> !Before(s[j], s[i], f, descending)
  }

  /** Inserts `x` before the first element it must precede, so after every element with an
      equal key. */
  function Insert(s: seq<ProcRecord>, x: ProcRecord, f: SortField, descending: bool): seq<ProcRecord>
  {
    if |s| == 0 then [x]
    else if Before(x, s[0], f, descending) then [x] + s
    else [s[0]] + Insert(s[1..], x, f, descending)
  }

  lemma {:induction false} InsertPermutes(s: seq<ProcRecord>, x: ProcRecord, f: SortField, descending: bool)
    ensures multiset(Insert(s, x, f, descending)) == multiset(s) + multiset{x}
  {
    if |s| > 0 && !Before(x, s[0], f, descending) {
      InsertPermutes(s[1..], x, f, descending);
      assert s == [s[0]] + s[1..];
    }
  }

  /** An element that no member of `s` must precede is not preceded by anything
      inserted behind it either. */
  lemma {:induction false} InsertSorted(s: seq<ProcRecord>, x: ProcRecord, f: SortField, descending: bool)
    requires SortedBy(s, f, descending)
    ensures SortedBy(Insert(s, x, f, descending), f, descending)
  {
    if |s| == 0 {
    } else if Before(x, s[0], f, descending) {
      forall j | 0 <= j < |s| ensures !Before(s[j], x, f, descending) {
        if Before(s[j], x, f, descending) {
          BeforeTransitive(s[j], x, s[0], f, descending);
          BeforeIrreflexive(s[0], f, descending);
        }
      }
      HeadSorted(x, s, f, descending);
    } else {
      var tail := Insert(s[1..], x, f, descending);
      InsertSorted(s[1..], x, f, descending);
      InsertPermutes(s[1..], x, f, descending);
      forall j | 0 <= j < |tail| ensures !Before(tail[j], s[0], f, descending) {
        assert tail[j] in multiset(tail);
        if tail[j] != x {
          assert tail[j] in multiset(s[1..]);
          var k :| 0 <= k < |s[1..]| && s[1..][k] == tail[j];
          assert s[k + 1] == tail[j];
        }
      }
      HeadSorted(s[0], tail, f, descending);
    }
  }

  /** Prefixing a sorted sequence with an element none of its members must precede. */
  lemma HeadSorted(h: ProcRecord, t: seq<ProcRecord>, f: SortField, descending: bool)
    requires SortedBy(t, f, descending)
    requires forall j :: 0 <= j < |t| ==> !Before(t[j], h, f, descending)
    ensures SortedBy([h] + t, f, descending)
  {
    var r := [h] + t;
    forall i, j | 0 <= i < j < |r| ensures !Before(r[j], r[i], f, descending) {
      assert r[j] == t[j - 1];
      if i > 0 {
        assert r[i] == t[i - 1];
      }
    }
  }

  /** A stable sort: insertion in enumeration order, so equal keys keep that order. */
  function SortRecords(s: seq<ProcRecord>, f: SortField, descending: bool): (r: seq<ProcRecord>)
    ensures multiset(r) == multiset(s)
    ensures |r| == |s|
    ensures SortedBy(r, f, descending)
  {
    if |s| == 0 then []
    else
      var init := s[..|s| - 1];
      var sorted := SortRecords(init, f, descending);
      assert s == init + [s[|s| - 1]];
      InsertPermutes(sorted, s[|s| - 1], f, descending);
      InsertSorted(sorted, s[|s| - 1], f, descending);
      Insert(sorted, s[|s| - 1], f, descending)
  }

  lemma {:induction false} InsertAtEnd(s: seq<ProcRecord>, x: ProcRecord, f: SortField, descending: bool)
    requires forall k :: 0 <= k < |s| ==> !Before(x, s[k], f, descending)
    ensures Insert(s, x, f, descending) == s + [x]
  {
    if |s| > 0 {
      InsertAtEnd(s[1..], x, f, descending);
      assert s == [s[0]] + s[1..];
    }
  }

  lemma SplitLast<T>(s: seq<T>)
    requires |s| > 0
    ensures s == s[..|s| - 1] + [s[|s| - 1]]
  {
  }

  /** No record of `s` must precede another. */
  predicate AllTied(s: seq<ProcRecord>, f: SortField, descending: bool) {
    forall i, j :: 0 <= i < |s| && 0 <= j < |s| ==> !Before(s[i], s[j], f, descending)
  }

  /** When no record must precede another (all keys tie), sorting keeps enumeration
      order, as Python's stable `list.sort` does even with `reverse=True`. */
  lemma {:induction false} SortKeepsTies(s: seq<ProcRecord>, f: SortField, descending: bool)
    requires AllTied(s, f, descending)
    ensures SortRecords(s, f, descending) == s
  {
    if |s| > 0 {
      var init := s[..|s| - 1];
      var last := s[|s| - 1];
      assert AllTied(init, f, descending) by {
        forall i, j | 0 <= i < |init| && 0 <= j < |init| ensures !Before(init[i], init[j], f, descending) {
          assert init[i] == s[i] && init[j] == s[j];
        }
      }
      SortKeepsTies(init, f, descending);
      forall k | 0 <= k < |init| ensures !Before(last, init[k], f, descending) {
        assert init[k] == s[k];
      }
      InsertAtEnd(init, last, f, descending);
      assert SortRecords(s, f, descending) == Insert(SortRecords(init, f, descending), last, f, descending);
      SplitLast(s);
    }
  }

  /** The records of `s` whose sort key is `k`, in order. */
  function WithKey(s: seq<ProcRecord>, f: SortField, k: SortKey): seq<ProcRecord> {
    if |s| == 0 then []
    else if KeyOf(s[0], f) == k then [s[0]] + WithKey(s[1..], f, k)
    else WithKey(s[1..], f, k)
  }

  lemma {:induction false} WithKeyConcat(a: seq<ProcRecord>, b: seq<ProcRecord>, f: SortField, k: SortKey)
    ensures WithKey(a + b, f, k) == WithKey(a, f, k) + WithKey(b, f, k)
  {
    if |a| > 0 {
      assert (a + b)[0] == a[0] && (a + b)[1..] == a[1..] + b;
      WithKeyConcat(a[1..], b, f, k);
      if KeyOf(a[0], f) == k {
        assert [a[0]] + (WithKey(a[1..], f, k) + WithKey(b, f, k)) == ([a[0]] + WithKey(a[1..], f, k)) + WithKey(b, f, k);
      }
    } else {
      assert a + b == b;
    }
  }

  lemma {:induction false} WithKeyNone(s: seq<ProcRecord>, f: SortField, k: SortKey)
    requires forall j :: 0 <= j < |s| ==> KeyOf(s[j], f) != k
    ensures WithKey(s, f, k) == []
  {
    if |s| > 0 {
      WithKeyNone(s[1..], f, k);
    }
  }

  lemma TailSorted(s: seq<ProcRecord>, f: SortField, descending: bool)
    requires |s| > 0 && SortedBy(s, f, descending)
    ensures SortedBy(s[1..], f, descending)
  {
    forall i, j | 0 <= i < j < |s[1..]| ensures !Before(s[1..][j], s[1..][i], f, descending) {
      assert s[1..][i] == s[i + 1] && s[1..][j] == s[j + 1];
    }
  }

  /** A record that must precede the head of a sorted sequence ties with none of it: a
      tied record would have to precede the head as well. */
  lemma NoTieBehind(s: seq<ProcRecord>, x: ProcRecord, f: SortField, descending: bool)
    requires SortedBy(s, f, descending) && |s| > 0 && Before(x, s[0], f, descending)
    ensures forall j :: 0 <= j < |s| ==> KeyOf(s[j], f) != KeyOf(x, f)
  {
    forall j | 0 <= j < |s| ensures KeyOf(s[j], f) != KeyOf(x, f) {
      if KeyOf(s[j], f) == KeyOf(x, f) {
        assert Before(s[j], s[0], f, descending);
        if j == 0 {
          BeforeIrreflexive(s[0], f, descending);
        }
      }
    }
  }

  /** `x` goes in front of a sorted sequence in which nothing ties with it. */
  lemma InsertWithKeyFront(s: seq<ProcRecord>, x: ProcRecord, f: SortField, descending: bool, k: SortKey)
    requires SortedBy(s, f, descending) && |s| > 0 && Before(x, s[0], f, descending)
    ensures WithKey(Insert(s, x, f, descending), f, k) ==
            WithKey(s, f, k) + (if KeyOf(x, f) == k then [x] else [])
  {
    var ins := [x] + s;
    assert Insert(s, x, f, descending) == ins;
    assert ins[0] == x && ins[1..] == s;
    if KeyOf(x, f) == k {
      NoTieBehind(s, x, f, descending);
      WithKeyNone(s, f, k);
      assert WithKey(ins, f, k) == [x] + WithKey(s, f, k);
    } else {
      assert WithKey(ins, f, k) == WithKey(s, f, k);
    }
  }

  /** Inserting into a sorted sequence places `x` after every record sharing its key. */
  lemma {:induction false} InsertWithKey(s: seq<ProcRecord>, x: ProcRecord, f: SortField, descending: bool, k: SortKey)
    requires SortedBy(s, f, descending)
    ensures WithKey(Insert(s, x, f, descending), f, k) ==
            WithKey(s, f, k) + (if KeyOf(x, f) == k then [x] else [])
  {
    if |s| == 0 {
    } else if Before(x, s[0], f, descending) {
      InsertWithKeyFront(s, x, f, descending, k);
    } else {
      TailSorted(s, f, descending);
      InsertWithKey(s[1..], x, f, descending, k);
      var rest := Insert(s[1..], x, f, descending);
      var ins := [s[0]] + rest;
      assert Insert(s, x, f, descending) == ins;
      assert ins[0] == s[0] && ins[1..] == rest;
      var xs := if KeyOf(x, f) == k then [x] else [];
      if KeyOf(s[0], f) == k {
        assert WithKey(ins, f, k) == [s[0]] + WithKey(rest, f, k);
        assert WithKey(s, f, k) == [s[0]] + WithKey(s[1..], f, k);
        assert [s[0]] + (WithKey(s[1..], f, k) + xs) == ([s[0]] + WithKey(s[1..], f, k)) + xs;
      } else {
        assert WithKey(ins, f, k) == WithKey(rest, f, k);
        assert WithKey(s, f, k) == WithKey(s[1..], f, k);
      }
    }
  }

  /** Stability: for every key, the records carrying it leave the sort in the order they
      entered it, as Python's `list.sort` guarantees, `reverse=True` included. */
  lemma {:induction false} SortStable(s: seq<ProcRecord>, f: SortField, descending: bool, k: SortKey)
    ensures WithKey(SortRecords(s, f, descending), f, k) == WithKey(s, f, k)
  {
    if |s| > 0 {
      var init := s[..|s| - 1];
      var last := s[|s| - 1];
      var sorted := SortRecords(init, f, descending);
      SortStable(init, f, descending, k);
      InsertWithKey(sorted, last, f, descending, k);
      assert SortRecords(s, f, descending) == Insert(sorted, last, f, descending);
      SplitLast(s);
      WithKeyConcat(init, [last], f, k);
      assert [last][1..] == [];
      assert WithKey([last], f, k) == if KeyOf(last, f) == k then [last] else [];
    }
  }

  /** `processes[:limit]`, with Python's meaning of a negative bound (counted from the end). */
  function Take<T>(s: seq<T>, limit: int): (r: seq<T>)
    ensures r <= s
    ensures 0 <= limit ==> |r| == if limit < |s| then limit else |s|
    ensures limit < 0 ==> |r| == if -limit < |s| then |s| + limit else 0
  {
    if 0 <= limit then (if limit < |s| then s[..limit] else s)
    else if -limit < |s| then s[..|s| + limit]
    else []
  }

  /** `get_process_list(sort_by, descending, limit)`. */
  function GetProcessList(procs: seq<Option<RawProc>>, sortBy: string, descending: bool,
                          limit: Option<int>): (r: seq<ProcRecord>)
    // the result is a prefix of an arrangement of the collected records: nothing added, nothing duplicated
    ensures multiset(r) <= multiset(Collect(procs))
    // sorted by a recognised key
    ensures FieldOf(sortBy) != Unsorted ==> SortedBy(r, FieldOf(sortBy), descending)
    // an unrecognised key keeps enumeration order
    ensures FieldOf(sortBy) == Unsorted ==> r <= Collect(procs)
    ensures limit.None? ==> |r| == |Collect(procs)|
    ensures limit.Some? && limit.value >= 0 ==>
              |r| == if limit.value < |Collect(procs)| then limit.value else |Collect(procs)|
    ensures limit.Some? && limit.value < 0 ==>
              |r| == if -limit.value < |Collect(procs)| then |Collect(procs)| + limit.value else 0
    // a limit keeps the top records: none cut off must be placed before one kept
    ensures FieldOf(sortBy) != Unsorted ==>
              NoneDroppedBefore(r, multiset(Collect(procs)) - multiset(r), FieldOf(sortBy), descending)
    // records sharing a key keep their enumeration order
    ensures FieldOf(sortBy) != Unsorted ==> TiesInOrder(r, Collect(procs), FieldOf(sortBy))
  {
    var all := Collect(procs);
    ListingFacts(all, FieldOf(sortBy), descending, limit);
    Limited(Arrange(all, FieldOf(sortBy), descending), limit)
  }

  /** The records in listing order: sorted by a recognised key, as enumerated otherwise. */
  function Arrange(all: seq<ProcRecord>, f: SortField, descending: bool): seq<ProcRecord> {
    if f == Unsorted then all else SortRecords(all, f, descending)
  }

  /** The records kept by an optional limit. */
  function Limited(ordered: seq<ProcRecord>, limit: Option<int>): seq<ProcRecord> {
    if limit.Some? then Take(ordered, limit.value) else ordered
  }

  /** For every key, the records carrying it in `r` are the first of those in `all`, in order. */
  ghost predicate TiesInOrder(r: seq<ProcRecord>, all: seq<ProcRecord>, f: SortField) {
    forall k :: WithKey(r, f, k) <= WithKey(all, f, k)
  }

  lemma ListingFacts(all: seq<ProcRecord>, f: SortField, descending: bool, limit: Option<int>)
    ensures var r := Limited(Arrange(all, f, descending), limit);
            && multiset(r) <= multiset(all)
            && (f == Unsorted ==> r <= all)
            && (limit.None? ==> |r| == |all|)
            && (limit.Some? && limit.value >= 0 ==> |r| == if limit.value < |all| then limit.value else |all|)
            && (limit.Some? && limit.value < 0 ==> |r| == if -limit.value < |all| then |all| + limit.value else 0)
            && (f != Unsorted ==>
                  && SortedBy(r, f, descending)
                  && NoneDroppedBefore(r, multiset(all) - multiset(r), f, descending)
                  && TiesInOrder(r, all, f))
  {
    var ordered := Arrange(all, f, descending);
    var r := Limited(ordered, limit);
    assert r <= ordered;
    assert multiset(ordered) == multiset(all);
    PrefixMultiset(r, ordered);
    if f != Unsorted {
      assert r == ordered[..|r|];
      PrefixSorted(ordered, |r|, f, descending);
      PrefixKeepsTop(ordered, |r|, f, descending);
      SortedPrefixTies(all, f, descending, |r|);
    }
  }

  lemma PrefixSorted(s: seq<ProcRecord>, n: int, f: SortField, descending: bool)
    requires SortedBy(s, f, descending) && 0 <= n <= |s|
    ensures SortedBy(s[..n], f, descending)
  {
    forall i, j | 0 <= i < j < n ensures !Before(s[..n][j], s[..n][i], f, descending) {
      assert s[..n][i] == s[i] && s[..n][j] == s[j];
    }
  }

  /** A prefix of the sorted records lists each key's records in enumeration order. */
  lemma SortedPrefixTies(all: seq<ProcRecord>, f: SortField, descending: bool, n: int)
    requires 0 <= n <= |all|
    ensures TiesInOrder(SortRecords(all, f, descending)[..n], all, f)
  {
    var ordered := SortRecords(all, f, descending);
    var r := ordered[..n];
    assert ordered == r + ordered[n..];
    forall k ensures WithKey(r, f, k) <= WithKey(all, f, k) {
      SortStable(all, f, descending, k);
      WithKeyConcat(r, ordered[n..], f, k);
    }
  }

  /** No record of `dropped` must be placed before a record of `kept`. */
  predicate NoneDroppedBefore(kept: seq<ProcRecord>, dropped: multiset<ProcRecord>, f: SortField, descending: bool) {
    forall x, y :: x in kept && y in dropped ==> !Before(y, x, f, descending)
  }

  /** A prefix of a sorted sequence outranks the rest of it. */
  lemma PrefixKeepsTop(s: seq<ProcRecord>, n: int, f: SortField, descending: bool)
    requires SortedBy(s, f, descending) && 0 <= n <= |s|
    ensures NoneDroppedBefore(s[..n], multiset(s) - multiset(s[..n]), f, descending)
  {
    var kept, cut := s[..n], s[n..];
    CutRest(s, n);
    forall x, y | x in kept && y in multiset(cut)
      ensures !Before(y, x, f, descending)
    {
      var i :| 0 <= i < |kept| && kept[i] == x;
      assert y in cut;
      var j :| 0 <= j < |cut| && cut[j] == y;
      SortedAt(s, i, n + j, f, descending);
    }
  }

  lemma SortedAt(s: seq<ProcRecord>, i: int, j: int, f: SortField, descending: bool)
    requires SortedBy(s, f, descending) && 0 <= i < j < |s|
    ensures !Before(s[j], s[i], f, descending)
  {
  }

  /** What remains of a sequence's multiset once a prefix is taken away is the suffix's. */
  lemma CutRest<T>(s: seq<T>, n: int)
    requires 0 <= n <= |s|
    ensures multiset(s) - multiset(s[..n]) == multiset(s[n..])
  {
    assert s == s[..n] + s[n..];
  }

  lemma PrefixMultiset<T>(p: seq<T>, s: seq<T>)
    requires p <= s
    ensures multiset(p) <= multiset(s)
  {
    assert s == p + s[|p|..];
  }

  /** With the source's defaults (`cpu_percent`, descending, no limit) every collected
      process appears exactly as often as it was collected, busiest first. */
  lemma DefaultListing(procs: seq<Option<RawProc>>)
    ensures var r := GetProcessList(procs, "cpu_percent", true, None);
            && multiset(r) == multiset(Collect(procs))
            && forall i, j :: 0 <= i < j < |r| ==> r[i].cpuPercent >= r[j].cpuPercent
  {
    var r := GetProcessList(procs, "cpu_percent", true, None);
    assert r == SortRecords(Collect(procs), ByCpu, true);
  }

  // ---------------------------------------------------------------------------
  // Search by name

  /** What `process_iter` reported for one process during a search. */
  datatype RawSearch = RawSearch(pid: int, name: Option<string>, status: Option<string>,
                                 memoryPercent: Option<real>, cpuPercent: Option<real>)

  datatype SearchHit = SearchHit(pid: int, name: string, status: Option<string>,
                                 memoryPercent: real, cpuPercent: real)

  /** A non-empty process name containing the term, both lower-cased. */
  predicate NameMatches(name: Option<string>, term: string) {
    name.Some? && name.value != "" && Contains(Lower(name.value), Lower(term))
  }

  function Hit(p: RawSearch): SearchHit
    requires p.name.Some?
  {
    SearchHit(p.pid, p.name.value, p.status,
              if p.memoryPercent.Some? then p.memoryPercent.value else 0.0,
              if p.cpuPercent.Some? then p.cpuPercent.value else 0.0)
  }

  /** `search_process_by_name(name)`. */
  function SearchProcessByName(procs: seq<Option<RawSearch>>, term: string): (r: seq<SearchHit>)
    ensures forall i :: 0 <= i < |r| ==> r[i].name != "" && Contains(Lower(r[i].name), Lower(term))
    ensures forall p :: Some(p) in procs && NameMatches(p.name, term) ==> Hit(p) in r
    ensures forall h :: h in r ==> exists p :: Some(p) in procs && NameMatches(p.name, term) && h == Hit(p)
    ensures |r| <= |procs|
  {
    if |procs| == 0 then []
    else
      var rest := SearchProcessByName(procs[1..], term);
      assert forall q :: q in procs[1..] ==> q in procs;
      assert forall q :: q in procs ==> q == procs[0] || q in procs[1..];
      match procs[0]
      case Some(p) =>
        if NameMatches(p.name, term) then [Hit(p)] + rest else rest
      case None => rest
  }

  /** Searching two batches of processes is searching each, results in enumeration order. */
  lemma {:induction false} SearchConcat(a: seq<Option<RawSearch>>, b: seq<Option<RawSearch>>, term: string)
    ensures SearchProcessByName(a + b, term) == SearchProcessByName(a, term) + SearchProcessByName(b, term)
  {
    if |a| > 0 {
      assert (a + b)[0] == a[0];
      assert (a + b)[1..] == a[1..] + b;
      SearchConcat(a[1..], b, term);
    } else {
      assert a + b == b;
    }
  }

  // ---------------------------------------------------------------------------
  // Termination

  /** What psutil did: `Process(pid)` or the signal raised NoSuchProcess, AccessDenied or
      another error, or the signal was sent and `wait(timeout=3)` did or did not time out. */
  datatype KillOutcome =
    | NoSuchProcess
    | AccessDenied
    | OtherError(reason: string)
    | Signalled(name: string, timedOut: bool)

  datatype KillResult = KillResult(success: bool, message: string, pid: int)

  /** `kill_process(pid, force)`. */
  function KillProcess(pid: int, force: bool, outcome: KillOutcome): (r: KillResult)
    ensures r.pid == pid
    // a timeout is a failure only for the graceful SIGTERM; SIGKILL reports success regardless
    ensures r.success <==> outcome.Signalled? && (force || !outcome.timedOut)
    ensures outcome.Signalled? && outcome.timedOut && !force ==>
              r.message == "Process '" + outcome.name + "' (PID: " + IntToString(pid)
                           + ") did not terminate gracefully. Try with force=True."
    ensures r.success ==>
              r.message == "Process '" + outcome.name + "' (PID: " + IntToString(pid) + ") was "
                           + (if force then "killed (SIGKILL)" else "terminated (SIGTERM)")
                           + " successfully."
    ensures outcome.NoSuchProcess? ==> r.message == "Process with PID " + IntToString(pid) + " does not exist."
    ensures outcome.AccessDenied? ==>
              r.message == "Access denied. Cannot terminate process with PID " + IntToString(pid)
                           + ". Try running with elevated privileges."
    ensures outcome.OtherError? ==>
              r.message == "Error terminating process with PID " + IntToString(pid) + ": " + outcome.reason
  {
    var p := IntToString(pid);
    match outcome
    case NoSuchProcess => KillResult(false, "Process with PID " + p + " does not exist.", pid)
    case AccessDenied =>
      KillResult(false, "Access denied. Cannot terminate process with PID " + p
                        + ". Try running with elevated privileges.", pid)
    case OtherError(e) => KillResult(false, "Error terminating process with PID " + p + ": " + e, pid)
    case Signalled(name, timedOut) =>
      var action := if force then "killed (SIGKILL)" else "terminated (SIGTERM)";
      if timedOut && !force then
        KillResult(false, "Process '" + name + "' (PID: " + p + ") did not terminate gracefully. Try with force=True.", pid)
      else
        KillResult(true, "Process '" + name + "' (PID: " + p + ") was " + action + " successfully.", pid)
  }

  // ---------------------------------------------------------------------------
  // Status counts

  /** How many readable processes report `status`. */
  function Occurrences(statuses: seq<Option<string>>, status: string): nat {
    if |statuses| == 0 then 0
    else (if statuses[0] == Some(status) then 1 else 0) + Occurrences(statuses[1..], status)
  }

  /** How many processes could be read. */
  function Readable(statuses: seq<Option<string>>): nat {
    if |statuses| == 0 then 0
    else (if statuses[0].Some? then 1 else 0) + Readable(statuses[1..])
  }

  /** The per-status tally before `'total'` is added. */
  function Tally(statuses: seq<Option<string>>): (m: map<string, int>)
    ensures forall s :: s in m <==> Occurrences(statuses, s) > 0
    ensures forall s :: s in m ==> m[s] == Occurrences(statuses, s)
  {
    if |statuses| == 0 then map[]
    else
      var m := Tally(statuses[1..]);
      match statuses[0]
      case None => m
      case Some(s) => m[s := (if s in m then m[s] else 0) + 1]
  }

  /** `get_process_count()`: `statuses` holds one entry per enumerated process, None where
      reading it raised. */
  function GetProcessCount(statuses: seq<Option<string>>): (r: map<string, int>)
    ensures "total" in r && r["total"] == Readable(statuses)
    ensures forall s :: s != "total" ==> (s in r <==> Occurrences(statuses, s) > 0)
    ensures forall s :: s != "total" && s in r ==> r[s] == Occurrences(statuses, s)
  {
    Tally(statuses)["total" := Readable(statuses)]
  }
}

=== FILE: sensors.dfy ===
/** src/model/sensors.py: temperature groups, the fan list assembled from psutil, the
    hwmon directories and msi-ec, and the PWM write. What psutil reports, the directory
    listings and file contents are parameters. */
module Sensors {
  import opened Base
  import opened Text
  import opened Control

  // ---------------------------------------------------------------------------
  // PWM

  /** `set_pwm(pwm_path, value)`: only 0..255 is written, as its decimal text. */
  function SetPwm(value: int, write: WriteOutcome): (r: Effect)
    ensures (value < 0 || value > 255) <==> r == Effect(Fail("PWM fuera de rango (0-255)"), None)
    ensures r.attempted.Some? <==> 0 <= value <= 255
    ensures r.attempted.Some? ==> ParseInt(r.attempted.value) == Some(value)
    ensures r.outcome.success <==> 0 <= value <= 255 && write.Written?
    ensures r.outcome.success ==> r.outcome.message == "PWM ajustado a " + IntToString(value)
    ensures 0 <= value <= 255 && write.PermissionDenied? ==> r.outcome == Fail("Permiso denegado al escribir PWM")
    ensures 0 <= value <= 255 && write.WriteFailed? ==>
              r.outcome == Fail("Error al escribir PWM: " + write.reason)
  {
    if value < 0 || value > 255 then Effect(Fail("PWM fuera de rango (0-255)"), None)
    else
      ParseIntOfIntToString(value);
      var text := IntToString(value);
      match write
      case Written => Effect(Succeed("PWM ajustado a " + text), Some(text))
      case PermissionDenied => Effect(Fail("Permiso denegado al escribir PWM"), Some(text))
      case WriteFailed(exc) => Effect(Fail("Error al escribir PWM: " + exc), Some(text))
  }

  // ---------------------------------------------------------------------------
  // Reads

  /** `_safe_read_int`: the first line, stripped, as an integer; None when reading or
      parsing raised. */
  function SafeReadInt(content: Option<string>): (r: Option<int>)
    ensures content.None? ==> r.None?
    ensures content.Some? ==> r == ParseInt(ReadFirstLine(content))
  {
    if content.None? then None else ParseInt(ReadFirstLine(content))
  }

  /** A node holding a decimal number and a newline reads back as that number. */
  lemma SafeReadIntOfLine(i: int)
    ensures SafeReadInt(Some(IntToString(i) + "\n")) == Some(i)
  {
    IntToStringNoSpace(i);
    FirstLineOfLine(IntToString(i));
    ParseIntOfIntToString(i);
  }

  /** The first line of a space-free text followed by a newline is the text. */
  lemma FirstLineOfLine(t: string)
    requires |t| > 0 && NoSpace(t)
    ensures ReadFirstLine(Some(t + "\n")) == t
  {
    var s := t + "\n";
    NewlineAtEnd(t);
    assert s[..|t| + 1] == s;
    assert ReadFirstLine(Some(s)) == Strip(s);
    StripOneTrailing(t);
  }

  lemma NewlineAtEnd(t: string)
    requires NoSpace(t)
    ensures IndexOf(t + "\n", '\n') == |t|
  {
    var s := t + "\n";
    assert forall k :: 0 <= k < |t| ==> s[k] != '\n' by {
      forall k | 0 <= k < |t| ensures s[k] != '\n' {
        assert s[k] == t[k] && !IsSpace(t[k]);
      }
    }
    IndexOfAt(s, '\n', |t|);
  }

  /** Stripping a space-free text followed by a newline gives the text. */
  lemma StripOneTrailing(t: string)
    requires |t| > 0 && NoSpace(t)
    ensures Strip(t + "\n") == t
  {
    var s := t + "\n";
    assert LeadingSpace(s) == 0;
    assert s[0..] == s;
    assert s[..|s| - 1] == t;
    assert TrailingSpace(t) == 0;
    assert TrailingSpace(s) == 1;
  }

  // ---------------------------------------------------------------------------
  // Temperatures

  /** One psutil temperature entry (`shwtemp`). */
  datatype TempEntry = TempEntry(labelText: string, current: real, high: Option<real>, critical: Option<real>)

  /** One reported temperature. */
  datatype TempReading = TempReading(labelText: string, current: real, high: Option<real>, critical: Option<real>)

  /** `entry.label or group`: an empty label falls back to the group name. */
  function LabelOr(labelText: string, group: string): (r: string)
    ensures labelText != "" ==> r == labelText
    ensures labelText == "" ==> r == group
  {
    if labelText != "" then labelText else group
  }

  function Reading(e: TempEntry, group: string): (r: TempReading)
    ensures r.labelText == LabelOr(e.labelText, group)
    ensures r.current == e.current && r.high == e.high && r.critical == e.critical
  {
    TempReading(LabelOr(e.labelText, group), e.current, e.high, e.critical)
  }

  function Readings(es: seq<TempEntry>, group: string): (r: seq<TempReading>)
    ensures |r| == |es|
    ensures forall i :: 0 <= i < |es| ==> r[i] == Reading(es[i], group)
  {
    seq(|es|, i requires 0 <= i < |es| => Reading(es[i], group))
  }

  /** The msi-ec readings from the two parsed values, cpu first. */
  function MsiEcReadings(c: Option<int>, g: Option<int>): (r: seq<TempReading>)
    ensures |r| == (if c.Some? then 1 else 0) + (if g.Some? then 1 else 0)
    ensures c.Some? ==> r[0] == TempReading("msi-ec cpu", c.value as real, None, None)
    ensures g.Some? ==> r[|r| - 1] == TempReading("msi-ec gpu", g.value as real, None, None)
  {
    var cs := if c.Some? then [TempReading("msi-ec cpu", c.value as real, None, None)] else [];
    var gs := if g.Some? then [TempReading("msi-ec gpu", g.value as real, None, None)] else [];
    cs + gs
  }

  /** `_read_msi_ec_temperatures`: cpu then gpu, each present when its node reads as an
      integer. */
  function MsiEcTemperatures(cpu: Option<string>, gpu: Option<string>): (r: seq<TempReading>)
    ensures |r| == (if SafeReadInt(cpu).Some? then 1 else 0) + (if SafeReadInt(gpu).Some? then 1 else 0)
    ensures SafeReadInt(cpu).Some? ==> r[0] == TempReading("msi-ec cpu", SafeReadInt(cpu).value as real, None, None)
    ensures SafeReadInt(gpu).Some? ==>
              r[|r| - 1] == TempReading("msi-ec gpu", SafeReadInt(gpu).value as real, None, None)
  {
    MsiEcReadings(SafeReadInt(cpu), SafeReadInt(gpu))
  }

  /** `get_temperatures()`: `raw` is None when `psutil.sensors_temperatures` raised. */
  function GetTemperatures(raw: Option<map<string, seq<TempEntry>>>, msiCpu: Option<string>,
                           msiGpu: Option<string>): (r: map<string, seq<TempReading>>)
    ensures raw.None? ==> r == map[]
    ensures raw.Some? ==>
              var msi := MsiEcTemperatures(msiCpu, msiGpu);
              // the msi-ec group appears only when it has readings (and then replaces any
              // psutil group of that name)
              && r.Keys == raw.value.Keys + (if msi != [] then {"msi-ec"} else {})
              && (msi != [] ==> r["msi-ec"] == msi)
              && forall g :: g in raw.value && (g != "msi-ec" || msi == []) ==> r[g] == Readings(raw.value[g], g)
  {
    if raw.None? then map[]
    else
      var groups := map g | g in raw.value :: Readings(raw.value[g], g);
      var msi := MsiEcTemperatures(msiCpu, msiGpu);
      if msi != [] then groups["msi-ec" := msi] else groups
  }

  /** Every psutil reading keeps its value and carries a non-empty label when its group
      has a non-empty name. */
  lemma TemperatureLabels(raw: map<string, seq<TempEntry>>, msiCpu: Option<string>, msiGpu: Option<string>,
                          g: string, i: nat)
    requires g in raw && g != "msi-ec" && g != "" && i < |raw[g]|
    ensures var r := GetTemperatures(Some(raw), msiCpu, msiGpu);
            && g in r && |r[g]| == |raw[g]|
            && r[g][i].labelText != "" && r[g][i].current == raw[g][i].current
  {
  }

  // ---------------------------------------------------------------------------
  // Fans

  /** One reported fan. `pwmPath` is None for psutil fans (the key is absent there). */
  datatype Fan = Fan(labelText: string, rpm: Option<int>, path: Option<string>, pwm: Option<int>,
                     pwmPath: Option<string>, source: Option<string>)

  /** One psutil fan entry (`sfan`). */
  datatype FanEntry = FanEntry(labelText: string, current: int)

  /** A file in a hwmon directory and its contents (None when reading raises). */
  datatype HwFile = HwFile(name: string, content: Option<string>)

  /** One `/sys/class/hwmon/<dirName>` directory, its files in listing order. */
  datatype Hwmon = Hwmon(dirName: string, files: seq<HwFile>)

  const HwmonBase: string := "/sys/class/hwmon"
  const MsiEcBase: string := "/sys/devices/platform/msi-ec"

  /** `os.path.join(dir, name)` for a directory without a trailing slash and a plain name. */
  function PathJoin(dir: string, name: string): string {
    dir + "/" + name
  }

  /** The file named `name`, if the directory has one. */
  function Lookup(files: seq<HwFile>, name: string): (r: Option<HwFile>)
    ensures r.Some? <==> exists i :: 0 <= i < |files| && files[i].name == name
    ensures r.Some? ==> r.value in files && r.value.name == name
  {
    if |files| == 0 then None
    else if files[0].name == name then Some(files[0])
    else
      var rest := Lookup(files[1..], name);
      assert forall i :: 0 < i < |files| ==> files[i] == files[1..][i - 1];
      assert rest.Some? ==> rest.value in files;
      rest
  }

  /** The hwmon device's name: the stripped first line of its `name` file, or the
      directory name when that cannot be read. */
  function HwName(h: Hwmon): (r: string)
    // a missing or unreadable `name` file falls back to the directory name
    ensures Lookup(h.files, "name").None? || Lookup(h.files, "name").value.content.None? ==> r == h.dirName
    ensures Lookup(h.files, "name").Some? && Lookup(h.files, "name").value.content.Some? ==>
              r == ReadFirstLine(Lookup(h.files, "name").value.content)
  {
    match Lookup(h.files, "name")
    case Some(f) => if f.content.Some? then ReadFirstLine(f.content) else h.dirName
    case None => h.dirName
  }

  /** A directory whose first file is `name`, holding a driver name and a newline, is
      known by that driver name. */
  lemma HwNameOfNode(dirName: string, driver: string, rest: seq<HwFile>)
    requires |driver| > 0 && NoSpace(driver)
    ensures HwName(Hwmon(dirName, [HwFile("name", Some(driver + "\n"))] + rest)) == driver
  {
    FirstLineOfLine(driver);
  }

  /** A `fanN_input` entry. */
  predicate IsFanInput(name: string) {
    StartsWith(name, "fan") && EndsWith(name, "_input")
  }

  /** `entry.split("_")[0]`. */
  function FanPrefix(entry: string): string {
    Split(entry, '_')[0]
  }

  /** `prefix.replace("fan", "pwm")`. */
  function PwmName(prefix: string): string {
    ReplaceAll(prefix, "fan", "pwm")
  }

  /** The fan a `fanN_input` entry of `h` describes. */
  function HwmonFan(h: Hwmon, f: HwFile): (r: Fan)
    ensures r.labelText == HwName(h) + "-" + FanPrefix(f.name)
    ensures r.path == Some(PathJoin(PathJoin(HwmonBase, h.dirName), f.name))
    ensures r.rpm == SafeReadInt(f.content)
    // the PWM path is reported exactly when that file exists
    ensures r.pwmPath.Some? <==> Lookup(h.files, PwmName(FanPrefix(f.name))).Some?
    ensures r.pwmPath.Some? ==>
              r.pwmPath.value == PathJoin(PathJoin(HwmonBase, h.dirName), PwmName(FanPrefix(f.name)))
    ensures r.pwmPath.None? ==> r.pwm.None?
    ensures r.pwmPath.Some? ==> r.pwm == SafeReadInt(Lookup(h.files, PwmName(FanPrefix(f.name))).value.content)
    ensures r.source.None?
  {
    var dir := PathJoin(HwmonBase, h.dirName);
    var prefix := FanPrefix(f.name);
    var pwmFile := Lookup(h.files, PwmName(prefix));
    Fan(HwName(h) + "-" + prefix, SafeReadInt(f.content), Some(PathJoin(dir, f.name)),
        if pwmFile.Some? then SafeReadInt(pwmFile.value.content) else None,
        if pwmFile.Some? then Some(PathJoin(dir, PwmName(prefix))) else None,
        None)
  }

  /** The fans of one hwmon directory, one per `fan*_input` entry, in listing order. */
  function HwmonFans(h: Hwmon, files: seq<HwFile>): (r: seq<Fan>)
    ensures |r| <= |files|
    ensures forall x :: x in r <==> exists f :: f in files && IsFanInput(f.name) && x == HwmonFan(h, f)
  {
    if |files| == 0 then []
    else
      var rest := HwmonFans(h, files[1..]);
      assert forall f :: f in files[1..] ==> f in files;
      assert forall f :: f in files ==> f == files[0] || f in files[1..];
      if IsFanInput(files[0].name) then [HwmonFan(h, files[0])] + rest else rest
  }

  /** Listing a directory split in two lists each part: fans keep the listing order. */
  lemma {:induction false} HwmonFansConcat(h: Hwmon, a: seq<HwFile>, b: seq<HwFile>)
    ensures HwmonFans(h, a + b) == HwmonFans(h, a) + HwmonFans(h, b)
  {
    if |a| > 0 {
      assert (a + b)[0] == a[0] && (a + b)[1..] == a[1..] + b;
      HwmonFansConcat(h, a[1..], b);
      if IsFanInput(a[0].name) {
        assert [HwmonFan(h, a[0])] + (HwmonFans(h, a[1..]) + HwmonFans(h, b))
            == ([HwmonFan(h, a[0])] + HwmonFans(h, a[1..])) + HwmonFans(h, b);
      }
    } else {
      assert a + b == b;
    }
  }

  /** A single entry gives a fan exactly when it is a `fan*_input` file. */
  lemma HwmonFansOne(h: Hwmon, f: HwFile)
    ensures HwmonFans(h, [f]) == if IsFanInput(f.name) then [HwmonFan(h, f)] else []
  {
    assert [f][1..] == [];
  }

  /** The fans of every hwmon directory, directory by directory; none has a source. */
  function AllHwmonFans(hs: seq<Hwmon>): (r: seq<Fan>)
    ensures forall x :: x in r ==> x.source.None?
  {
    if |hs| == 0 then [] else HwmonFans(hs[0], hs[0].files) + AllHwmonFans(hs[1..])
  }

  /** Directories are visited in order: the fans of a split list are those of each part. */
  lemma {:induction false} AllHwmonFansConcat(a: seq<Hwmon>, b: seq<Hwmon>)
    ensures AllHwmonFans(a + b) == AllHwmonFans(a) + AllHwmonFans(b)
  {
    if |a| > 0 {
      assert (a + b)[0] == a[0] && (a + b)[1..] == a[1..] + b;
      AllHwmonFansConcat(a[1..], b);
      var hd := HwmonFans(a[0], a[0].files);
      assert hd + (AllHwmonFans(a[1..]) + AllHwmonFans(b)) == (hd + AllHwmonFans(a[1..])) + AllHwmonFans(b);
    } else {
      assert a + b == b;
    }
  }

  /** A single directory contributes the fans of its own listing. */
  lemma AllHwmonFansOne(h: Hwmon)
    ensures AllHwmonFans([h]) == HwmonFans(h, h.files)
  {
    assert [h][1..] == [];
  }

  /** The fans psutil reports in one group: one per entry, in order, labelled like the
      temperatures, with the entry's speed and no paths. */
  function GroupFans(g: string, es: seq<FanEntry>): (r: seq<Fan>)
    ensures |r| == |es|
    ensures forall i :: 0 <= i < |es| ==>
              && r[i].labelText == LabelOr(es[i].labelText, g)
              && r[i].rpm == Some(es[i].current)
              && r[i].path.None? && r[i].pwm.None? && r[i].pwmPath.None? && r[i].source.None?
  {
    seq(|es|, i requires 0 <= i < |es| => Fan(LabelOr(es[i].labelText, g), Some(es[i].current), None, None, None, None))
  }

  /** The psutil fans, group by group. */
  function PsutilFans(groups: seq<(string, seq<FanEntry>)>): (r: seq<Fan>)
    ensures forall x :: x in r ==> x.path.None? && x.pwm.None? && x.pwmPath.None? && x.source.None?
  {
    if |groups| == 0 then []
    else GroupFans(groups[0].0, groups[0].1) + PsutilFans(groups[1..])
  }

  /** Groups are visited in order: the fans of a split list are those of each part. */
  lemma {:induction false} PsutilFansConcat(a: seq<(string, seq<FanEntry>)>, b: seq<(string, seq<FanEntry>)>)
    ensures PsutilFans(a + b) == PsutilFans(a) + PsutilFans(b)
  {
    if |a| > 0 {
      assert (a + b)[0] == a[0] && (a + b)[1..] == a[1..] + b;
      PsutilFansConcat(a[1..], b);
      var hd := GroupFans(a[0].0, a[0].1);
      assert hd + (PsutilFans(a[1..]) + PsutilFans(b)) == (hd + PsutilFans(a[1..])) + PsutilFans(b);
    } else {
      assert a + b == b;
    }
  }

  /** A single group contributes one fan per entry. */
  lemma PsutilFansOne(g: string, es: seq<FanEntry>)
    ensures PsutilFans([(g, es)]) == GroupFans(g, es)
  {
    assert [(g, es)][1..] == [];
  }

  /** A fan reported from the msi-ec nodes: a speed, the "msi-ec" source, no PWM. */
  predicate FromMsiEc(x: Fan) {
    x.source == Some("msi-ec") && x.pwm.None? && x.pwmPath.None? && x.rpm.Some?
  }

  /** The msi-ec node holding the current speed of fan `which`. */
  function SpeedNode(which: string): string {
    MsiEcBase + "/" + which + "/realtime_fan_speed"
  }

  /** The msi-ec fan `which` ("cpu" or "gpu"), present when its speed node read as an integer. */
  function MsiEcFan(which: string, rpm: Option<int>): (r: seq<Fan>)
    ensures |r| == if rpm.Some? then 1 else 0
    ensures forall x :: x in r ==> FromMsiEc(x) && x.rpm == rpm
    ensures rpm.Some? ==> r[0].labelText == "msi-ec-" + which
                          && r[0].path == Some(SpeedNode(which))
  {
    if rpm.Some? then [Fan("msi-ec-" + which, rpm, Some(SpeedNode(which)),
                           None, None, Some("msi-ec"))]
    else []
  }

  lemma MsiEcPair(a: seq<Fan>, b: seq<Fan>)
    requires forall x :: x in a ==> FromMsiEc(x)
    requires forall x :: x in b ==> FromMsiEc(x)
    ensures forall x :: x in a + b ==> FromMsiEc(x)
    ensures |a| > 0 ==> (a + b)[0] == a[0]
    ensures |b| > 0 ==> (a + b)[|a + b| - 1] == b[|b| - 1]
  {
  }

  /** `_read_msi_ec_fans`: cpu then gpu, each present when its node reads as an integer. */
  function MsiEcFans(cpu: Option<string>, gpu: Option<string>): (r: seq<Fan>)
    ensures |r| == (if SafeReadInt(cpu).Some? then 1 else 0) + (if SafeReadInt(gpu).Some? then 1 else 0)
    ensures forall x :: x in r ==> FromMsiEc(x)
    ensures SafeReadInt(cpu).Some? ==>
              && r[0].labelText == "msi-ec-" + "cpu" && r[0].rpm == SafeReadInt(cpu)
              && r[0].path == Some(SpeedNode("cpu"))
    ensures SafeReadInt(gpu).Some? ==>
              && r[|r| - 1].labelText == "msi-ec-" + "gpu" && r[|r| - 1].rpm == SafeReadInt(gpu)
              && r[|r| - 1].path == Some(SpeedNode("gpu"))
  {
    var a := MsiEcFan("cpu", SafeReadInt(cpu));
    var b := MsiEcFan("gpu", SafeReadInt(gpu));
    MsiEcPair(a, b);
    a + b
  }

  /** `get_fans()`: psutil's fans (none when it raised), then the hwmon fans when the
      hwmon directory exists, then the msi-ec fans. */
  function GetFans(psutilFans: Option<seq<(string, seq<FanEntry>)>>, hwmonIsDir: bool, hwmons: seq<Hwmon>,
                   msiCpu: Option<string>, msiGpu: Option<string>): (r: seq<Fan>)
    ensures var p := if psutilFans.Some? then PsutilFans(psutilFans.value) else [];
            var h := if hwmonIsDir then AllHwmonFans(hwmons) else [];
            r == p + h + MsiEcFans(msiCpu, msiGpu)
    ensures forall x :: x in r && x.source == Some("msi-ec") ==> x.pwmPath.None?
  {
    var p := if psutilFans.Some? then PsutilFans(psutilFans.value) else [];
    var h := if hwmonIsDir then AllHwmonFans(hwmons) else [];
    var m := MsiEcFans(msiCpu, msiGpu);
    p + h + m
  }

  /** `fanN_input` names the fan `fanN`, whose PWM file is `pwmN`. */
  lemma FanInputDerivation(n: nat)
    ensures var digits := NatToString(n);
            && IsFanInput("fan" + digits + "_input")
            && FanPrefix("fan" + digits + "_input") == "fan" + digits
            && PwmName(FanPrefix("fan" + digits + "_input")) == "pwm" + digits
  {
    var digits := NatToString(n);
    var prefix := "fan" + digits;
    var entry := prefix + "_input";
    assert entry == "fan" + digits + "_input";
    assert entry[..3] == "fan";
    assert entry[|entry| - 6..] == "_input";
    assert forall k :: 0 <= k < |prefix| ==> entry[k] != '_' by {
      forall k | 0 <= k < |prefix| ensures entry[k] != '_' {
        if k >= 3 {
          assert entry[k] == digits[k - 3];
          assert IsDigit(digits[k - 3]);
        }
      }
    }
    assert entry[|prefix|] == '_';
    IndexOfAt(entry, '_', |prefix|);
    SplitFirst(entry, '_');
    assert entry[..|prefix|] == prefix;
    ReplaceLeading("fan", digits, "pwm");
    assert forall k :: 0 <= k < |digits| ==> digits[k] != "fan"[0] by {
      forall k | 0 <= k < |digits| ensures digits[k] != 'f' {
        assert IsDigit(digits[k]);
      }
    }
    ReplaceAbsent(digits, "fan", "pwm");
  }

  lemma IndexOfAt(s: string, c: char, n: nat)
    requires n < |s| && s[n] == c
    requires forall k :: 0 <= k < n ==> s[k] != c
    ensures IndexOf(s, c) == n
  {
  }

  /** A hwmon directory with `fanN_input` and `pwmN` reports that fan with its PWM path,
      labelled `<device name>-fanN`. */
  lemma FanWithPwm(h: Hwmon, n: nat, input: HwFile)
    requires input.name == "fan" + NatToString(n) + "_input"
    requires Lookup(h.files, "pwm" + NatToString(n)).Some?
    ensures var fan := HwmonFan(h, input);
            && fan.labelText == HwName(h) + "-" + "fan" + NatToString(n)
            && fan.pwmPath == Some(PathJoin(PathJoin(HwmonBase, h.dirName), "pwm" + NatToString(n)))
  {
    var digits := NatToString(n);
    FanInputDerivation(n);
    assert FanPrefix(input.name) == "fan" + digits;
    assert PwmName(FanPrefix(input.name)) == "pwm" + digits;
    var fan := HwmonFan(h, input);
    assert fan.pwmPath.Some?;
  }
}

=== FILE: system_data.dfy ===
/** src/model/system_data.py: one metrics reading, RAM and disk fragmentation,
    storage aggregation and network speeds. Every psutil query, file read,
    subprocess run and clock reading is a parameter. */
module SystemData {
  import opened Base
  import opened Text

  /** Seconds a disk fragmentation result is reused (`FRAG_CACHE_TTL`). */
  const FragCacheTtl: real := 600.0

  // ---------------------------------------------------------------------------
  // The reading assembled by get_all_metrics

  datatype CpuMetrics = CpuMetrics(totalPercent: real, perCorePercent: seq<real>)

  datatype RamMetrics = RamMetrics(total: int, available: int, used: int, percent: real, fragmentation: Option<real>)

  datatype PartitionInfo = PartitionInfo(
    device: string, mountpoint: string, fstype: string,
    total: int, used: int, free: int, percent: real,
    fragmentation: Option<real>)

  datatype StorageTotals = StorageTotals(total: int, used: int, free: int, percent: real)

  datatype StorageMetrics = StorageMetrics(partitions: seq<PartitionInfo>, totalUsage: StorageTotals)

  datatype NetworkMetrics = NetworkMetrics(
    bytesSent: int, bytesRecv: int, totalBytesSent: int, totalBytesRecv: int,
    uploadSpeed: real, downloadSpeed: real)

  /** `get_all_metrics()`: the four groups and the wall-clock timestamp. */
  datatype AllMetrics = AllMetrics(
    cpu: CpuMetrics, ram: RamMetrics, storage: StorageMetrics, network: NetworkMetrics,
    timestamp: real)

  /** A computation that either returns or raises an exception nobody catches locally. */
  datatype Raising<T> = Returns(value: T) | Raises

  function Clamp01(x: real): (r: real)
    ensures 0.0 <= r <= 1.0
    ensures 0.0 <= x <= 1.0 ==> r == x
    ensures x < 0.0 ==> r == 0.0
    ensures x > 1.0 ==> r == 1.0
  {
    if x < 0.0 then 0.0 else if x > 1.0 then 1.0 else x
  }

  // ---------------------------------------------------------------------------
  // RAM fragmentation from /proc/buddyinfo

  function Pow2(k: nat): (r: nat)
    ensures r >= 1
  {
    if k == 0 then 1 else 2 * Pow2(k - 1)
  }

  /** Parses every token; None when one of them makes `int()` raise. */
  function ParseAll(tokens: seq<string>): (r: Option<seq<int>>)
    ensures r.Some? ==> |r.value| == |tokens|
    ensures r.Some? ==> forall i :: 0 <= i < |tokens| ==> ParseInt(tokens[i]) == Some(r.value[i])
    ensures r.None? <==> exists i :: 0 <= i < |tokens| && ParseInt(tokens[i]).None?
  {
    AllMap(ParseInt, tokens)
  }

  /** The per-order free block counts of one buddyinfo line: tokens from the fifth on
      (`Node 0, zone DMA` is the header). */
  function LineCounts(line: string): Option<seq<int>> {
    var parts := Words(Strip(line));
    ParseAll(if |parts| <= 4 then [] else parts[4..])
  }

  /** Every line parsed, and `rows[i]` holds the counts of line `i`. */
  predicate ParsedAll(lines: seq<string>, rows: seq<seq<int>>) {
    |rows| == |lines| && forall i :: 0 <= i < |lines| ==> LineCounts(lines[i]) == Some(rows[i])
  }

  /** Line `i` holds a count that `int()` rejects. */
  predicate BadLine(lines: seq<string>, i: int) {
    0 <= i < |lines| && LineCounts(lines[i]).None?
  }

  function ParseBuddyinfo(lines: seq<string>): (r: Option<seq<seq<int>>>)
    ensures r.Some? ==> ParsedAll(lines, r.value)
    // the whole parse fails exactly when some line holds a count that is not an integer
    ensures r.None? <==> exists i :: BadLine(lines, i)
  {
    var r := AllMap(LineCounts, lines);
    assert r.None? ==> exists i :: BadLine(lines, i) by {
      if r.None? {
        var i :| 0 <= i < |lines| && LineCounts(lines[i]).None?;
        assert BadLine(lines, i);
      }
    }
    r
  }

  /** Pages held by one line: Σ count·2^order. */
  function RowPages(row: seq<int>): int {
    if |row| == 0 then 0 else RowPages(row[..|row| - 1]) + row[|row| - 1] * Pow2(|row| - 1)
  }

  /** Largest block size 2^order over orders with a positive count, 0 when there is none. */
  function RowLargest(row: seq<int>): (r: nat)
    ensures forall i :: 0 <= i < |row| && row[i] > 0 ==> Pow2(i) <= r
    ensures r == 0 || exists i :: 0 <= i < |row| && row[i] > 0 && Pow2(i) == r
  {
    if |row| == 0 then 0
    else
      var k := |row| - 1;
      var prev := RowLargest(row[..k]);
      assert forall i :: 0 <= i < k ==> row[..k][i] == row[i];
      if row[k] > 0 && Pow2(k) > prev then Pow2(k) else prev
  }

  function TotalPages(rows: seq<seq<int>>): int {
    if |rows| == 0 then 0 else TotalPages(rows[..|rows| - 1]) + RowPages(rows[|rows| - 1])
  }

  function LargestBlock(rows: seq<seq<int>>): (r: nat)
    ensures forall j, i :: 0 <= j < |rows| && 0 <= i < |rows[j]| && rows[j][i] > 0 ==> Pow2(i) <= r
  {
    if |rows| == 0 then 0
    else
      var k := |rows| - 1;
      var prev := LargestBlock(rows[..k]);
      assert forall j :: 0 <= j < k ==> rows[..k][j] == rows[j];
      var last := RowLargest(rows[k]);
      if last > prev then last else prev
  }

  /** Order `i` of line `j` has a positive free block count. */
  predicate PositiveAt(rows: seq<seq<int>>, j: int, i: int) {
    0 <= j < |rows| && 0 <= i < |rows[j]| && rows[j][i] > 0
  }

  /** The largest block is 0 or the block size of some order with a positive count. */
  lemma {:induction false} LargestBlockAttained(rows: seq<seq<int>>)
    ensures LargestBlock(rows) == 0 || exists j, i :: PositiveAt(rows, j, i) && Pow2(i) == LargestBlock(rows)
  {
    if |rows| > 0 {
      var k := |rows| - 1;
      var prev := LargestBlock(rows[..k]);
      var last := RowLargest(rows[k]);
      if last > prev {
        var i :| 0 <= i < |rows[k]| && rows[k][i] > 0 && Pow2(i) == last;
        assert PositiveAt(rows, k, i);
      } else if prev != 0 {
        LargestBlockAttained(rows[..k]);
        var j, i :| PositiveAt(rows[..k], j, i) && Pow2(i) == prev;
        assert rows[..k][j] == rows[j];
        assert PositiveAt(rows, j, i);
      }
    }
  }

  /** `1 − largest/total`, clamped to [0, 1]; None when no page is free. */
  function FragmentationIndex(rows: seq<seq<int>>): (r: Option<real>)
    ensures r.None? <==> TotalPages(rows) == 0
    ensures r.Some? ==> 0.0 <= r.value <= 1.0
  {
    var total := TotalPages(rows);
    if total == 0 then None
    else Some(Clamp01(1.0 - (LargestBlock(rows) as real) / (total as real)))
  }

  /** `_get_ram_fragmentation_linux`: None when /proc/buddyinfo cannot be opened or holds
      no free page; a count that is not an integer raises out of the method. */
  function RamFragmentation(buddyinfo: Option<seq<string>>): (r: Raising<Option<real>>)
    ensures buddyinfo.None? ==> r == Returns(None)
    ensures r.Returns? && r.value.Some? ==> 0.0 <= r.value.value <= 1.0
    ensures r.Raises? <==> buddyinfo.Some? && ParseBuddyinfo(buddyinfo.value).None?
    ensures r.Returns? && buddyinfo.Some? ==> r.value == FragmentationIndex(ParseBuddyinfo(buddyinfo.value).value)
  {
    match buddyinfo
    case None => Returns(None)
    case Some(lines) =>
      match ParseBuddyinfo(lines)
      case None => Raises
      case Some(rows) => Returns(FragmentationIndex(rows))
  }

  predicate NonNegative(rows: seq<seq<int>>) {
    forall j, i :: 0 <= j < |rows| && 0 <= i < |rows[j]| ==> rows[j][i] >= 0
  }

  lemma {:induction false} RowPagesCovers(row: seq<int>, i: nat)
    requires forall k :: 0 <= k < |row| ==> row[k] >= 0
    requires i < |row|
    ensures RowPages(row) >= row[i] * Pow2(i) >= 0
    decreases |row|
  {
    var k := |row| - 1;
    var prefix := row[..k];
    assert forall j :: 0 <= j < |prefix| ==> prefix[j] == row[j];
    RowPagesNonNegative(prefix);
    ProductNonNegative(row[k], Pow2(k));
    assert RowPages(row) == RowPages(prefix) + row[k] * Pow2(k);
    if i < k {
      RowPagesCovers(prefix, i);
    }
  }

  lemma ProductNonNegative(a: int, b: int)
    requires a >= 0 && b >= 0
    ensures a * b >= 0
  {
  }

  lemma {:induction false} RowPagesNonNegative(row: seq<int>)
    requires forall k :: 0 <= k < |row| ==> row[k] >= 0
    ensures RowPages(row) >= 0
    decreases |row|
  {
    if |row| > 0 {
      RowPagesNonNegative(row[..|row| - 1]);
    }
  }

  lemma {:induction false} TotalPagesCovers(rows: seq<seq<int>>, j: nat)
    requires NonNegative(rows)
    requires j < |rows|
    ensures TotalPages(rows) >= RowPages(rows[j])
    decreases |rows|
  {
    var k := |rows| - 1;
    assert NonNegative(rows[..k]);
    TotalPagesNonNegative(rows[..k]);
    RowPagesNonNegative(rows[k]);
    if j < k {
      TotalPagesCovers(rows[..k], j);
    }
  }

  lemma {:induction false} TotalPagesNonNegative(rows: seq<seq<int>>)
    requires NonNegative(rows)
    ensures TotalPages(rows) >= 0
    decreases |rows|
  {
    if |rows| > 0 {
      assert NonNegative(rows[..|rows| - 1]);
      TotalPagesNonNegative(rows[..|rows| - 1]);
      RowPagesNonNegative(rows[|rows| - 1]);
    }
  }

  lemma RatioWithinUnit(a: real, b: real)
    requires 0.0 <= a <= b && b > 0.0
    ensures 0.0 <= a / b <= 1.0
  {
    assert a / b * b == a;
  }

  lemma LargestLeTotal(rows: seq<seq<int>>)
    requires NonNegative(rows)
    ensures 0 <= LargestBlock(rows) <= TotalPages(rows)
  {
    TotalPagesNonNegative(rows);
    LargestBlockAttained(rows);
    var largest := LargestBlock(rows);
    if largest != 0 {
      var j, i :| PositiveAt(rows, j, i) && Pow2(i) == largest;
      var row := rows[j];
      assert forall k :: 0 <= k < |row| ==> row[k] >= 0;
      RowPagesCovers(row, i);
      TotalPagesCovers(rows, j);
      MulAtLeast(row[i], Pow2(i));
      assert TotalPages(rows) >= row[i] * Pow2(i) >= largest;
    }
  }

  lemma MulAtLeast(a: int, b: nat)
    requires a >= 1
    ensures a * b >= b
  {
  }

  /** With non-negative counts the largest free block never exceeds the free pages, so
      `1 − largest/total` already lies in [0, 1] and the clamp never changes it. */
  lemma LargestWithinTotal(rows: seq<seq<int>>)
    requires NonNegative(rows)
    requires TotalPages(rows) != 0
    ensures 0 <= LargestBlock(rows) <= TotalPages(rows)
    ensures FragmentationIndex(rows)
         == Some(1.0 - (LargestBlock(rows) as real) / (TotalPages(rows) as real))
  {
    LargestLeTotal(rows);
    var q := (LargestBlock(rows) as real) / (TotalPages(rows) as real);
    RatioWithinUnit(LargestBlock(rows) as real, TotalPages(rows) as real);
    assert 0.0 <= 1.0 - q <= 1.0;
  }

  // ---------------------------------------------------------------------------
  // Disk fragmentation from e4defrag, with a per-mount cache

  datatype CacheEntry = CacheEntry(ts: real, value: Option<real>)

  type FragCache = map<string, CacheEntry>

  /** What `subprocess.run(["e4defrag", "-c", mountpoint], ...)` did: it raised
      FileNotFoundError or SubprocessError, which the measurement catches; it raised
      another OSError (a PermissionError executing the tool, say), which escapes the
      measurement; or it finished with these output lines. */
  datatype E4defragRun =
    | Unavailable
    | ExecFailed
    | Finished(stdoutLines: seq<string>, stderrLines: seq<string>)

  /** `(stdout or stderr).splitlines()`: an empty stdout has no lines. */
  function OutputLines(run: E4defragRun): seq<string>
    requires run.Finished?
  {
    if |run.stdoutLines| > 0 then run.stdoutLines else run.stderrLines
  }

  /** Score of one "Fragmentation score" line: the first word after the first ':', read by
      `float()` (the `parseNum` parameter); None where the source's `try` falls to `continue`. */
  function ScoreOfLine(line: string, parseNum: string -> Option<real>): Option<real> {
    var pieces := Split(line, ':');
    if |pieces| < 2 then None
    else
      var words := Words(Strip(pieces[1]));
      if |words| == 0 then None else parseNum(words[0])
  }

  predicate IsScoreLine(line: string) {
    Contains(line, "Fragmentation score")
  }

  /** No score line before line `i` yields a score. */
  predicate NoScoreBefore(lines: seq<string>, i: int, parseNum: string -> Option<real>) {
    forall k :: 0 <= k < i && k < |lines| && IsScoreLine(lines[k]) ==> ScoreOfLine(lines[k], parseNum).None?
  }

  /** Line `i` is the first score line that yields a score. */
  predicate FirstScoreAt(lines: seq<string>, i: int, parseNum: string -> Option<real>) {
    && 0 <= i < |lines| && IsScoreLine(lines[i]) && ScoreOfLine(lines[i], parseNum).Some?
    && NoScoreBefore(lines, i, parseNum)
  }

  /** The score of the first score line that parses (`break` after it). */
  function ScoreFromLines(lines: seq<string>, parseNum: string -> Option<real>): Option<real> {
    if |lines| == 0 then None
    else if IsScoreLine(lines[0]) && ScoreOfLine(lines[0], parseNum).Some? then ScoreOfLine(lines[0], parseNum)
    else ScoreFromLines(lines[1..], parseNum)
  }

  /** The loop's result is the score of the first score line that parses; None means no
      score line parses. */
  lemma {:induction false} ScoreFromLinesFirst(lines: seq<string>, parseNum: string -> Option<real>)
    ensures var r := ScoreFromLines(lines, parseNum);
            && (r.Some? ==> exists i :: FirstScoreAt(lines, i, parseNum) && r == ScoreOfLine(lines[i], parseNum))
            && (r.None? ==> NoScoreBefore(lines, |lines|, parseNum))
  {
    if |lines| > 0 {
      if IsScoreLine(lines[0]) && ScoreOfLine(lines[0], parseNum).Some? {
        assert FirstScoreAt(lines, 0, parseNum);
      } else {
        var tail := lines[1..];
        ScoreFromLinesFirst(tail, parseNum);
        var r := ScoreFromLines(tail, parseNum);
        assert ScoreFromLines(lines, parseNum) == r;
        if r.Some? {
          var i :| FirstScoreAt(tail, i, parseNum) && r == ScoreOfLine(tail[i], parseNum);
          ShiftNoScore(lines, i + 1, parseNum);
          assert FirstScoreAt(lines, i + 1, parseNum);
        } else {
          ShiftNoScore(lines, |lines|, parseNum);
        }
      }
    }
  }

  /** No score before `i` in the tail plus none on the first line is none before `i` overall. */
  lemma ShiftNoScore(lines: seq<string>, i: int, parseNum: string -> Option<real>)
    requires |lines| > 0 && 1 <= i
    requires !(IsScoreLine(lines[0]) && ScoreOfLine(lines[0], parseNum).Some?)
    requires NoScoreBefore(lines[1..], i - 1, parseNum)
    ensures NoScoreBefore(lines, i, parseNum)
  {
    forall k | 0 < k < i && k < |lines| && IsScoreLine(lines[k])
      ensures ScoreOfLine(lines[k], parseNum).None?
    {
      assert lines[k] == lines[1..][k - 1];
    }
  }

  /** Every cached fragmentation value lies in [0, 1]. */
  predicate CacheValid(cache: FragCache) {
    forall m :: m in cache && cache[m].value.Some? ==> 0.0 <= cache[m].value.value <= 1.0
  }

  predicate IsFresh(cache: FragCache, mountpoint: string, now: real) {
    mountpoint in cache && now - cache[mountpoint].ts < FragCacheTtl
  }

  /** The value a fresh e4defrag run yields: the score / 100 clamped to [0, 1], None when
      no score line parses or the tool is missing, and an escaping exception when
      executing it raised another OSError. */
  function MeasuredFragmentation(run: E4defragRun, parseNum: string -> Option<real>): (r: Raising<Option<real>>)
    ensures r.Raises? <==> run.ExecFailed?
    ensures run.Unavailable? ==> r == Returns(None)
    ensures run.Finished? ==>
              var score := ScoreFromLines(OutputLines(run), parseNum);
              && (r.Returns? && (r.value.Some? <==> score.Some?))
              && (score.Some? ==> r.value.value == Clamp01(score.value / 100.0))
              // a score within the typical 0-100 range is kept exactly, as a fraction
              && (score.Some? && 0.0 <= score.value <= 100.0 ==> r.value.value * 100.0 == score.value)
    ensures r.Returns? && r.value.Some? ==> 0.0 <= r.value.value <= 1.0
  {
    match run
    case Unavailable => Returns(None)
    case ExecFailed => Raises
    case Finished(_, _) =>
      match ScoreFromLines(OutputLines(run), parseNum)
      case None => Returns(None)
      case Some(score) => Returns(Some(Clamp01(score / 100.0)))
  }

  /** `_get_disk_fragmentation_linux(mountpoint, fstype)`: the value and the updated cache,
      or the exception that escapes it. */
  function DiskFragmentation(cache: FragCache, mountpoint: string, fstype: string, now: real,
                             run: E4defragRun, parseNum: string -> Option<real>): (r: Raising<(Option<real>, FragCache)>)
    // a fresh cache entry answers before the fstype is even looked at
    ensures IsFresh(cache, mountpoint, now) ==> r == Returns((cache[mountpoint].value, cache))
    // a non-ext filesystem yields None and leaves the cache alone
    ensures !IsFresh(cache, mountpoint, now) && !StartsWith(fstype, "ext") ==> r == Returns((None, cache))
    // otherwise e4defrag is consulted: an escaping OSError writes nothing, and any other
    // result, None included, is cached with `now`
    ensures !IsFresh(cache, mountpoint, now) && StartsWith(fstype, "ext") ==>
              && (r.Raises? <==> run.ExecFailed?)
              && (r.Returns? ==>
                    && Returns(r.value.0) == MeasuredFragmentation(run, parseNum)
                    && r.value.1 == cache[mountpoint := CacheEntry(now, r.value.0)])
    ensures CacheValid(cache) && r.Returns? ==>
              CacheValid(r.value.1) && (r.value.0.Some? ==> 0.0 <= r.value.0.value <= 1.0)
  {
    if IsFresh(cache, mountpoint, now) then Returns((cache[mountpoint].value, cache))
    else if !StartsWith(fstype, "ext") then Returns((None, cache))
    else
      match MeasuredFragmentation(run, parseNum)
      case Raises => Raises
      case Returns(v) => Returns((v, cache[mountpoint := CacheEntry(now, v)]))
  }

  // ---------------------------------------------------------------------------
  // Storage aggregation

  datatype Usage = Usage(total: int, used: int, free: int, percent: real)

  /** One entry of `psutil.disk_partitions()`, with what `disk_usage` did for it (None when
      it raised PermissionError or OSError) and what e4defrag would print for it. */
  datatype PartitionProbe = PartitionProbe(
    device: string, mountpoint: string, fstype: string,
    usage: Option<Usage>, defrag: E4defragRun)

  /** The accessible partitions, in order. */
  function Accessible(probes: seq<PartitionProbe>): (r: seq<PartitionProbe>)
    ensures forall p :: p in r <==> p in probes && p.usage.Some?
    ensures |r| <= |probes|
  {
    if |probes| == 0 then []
    else if probes[0].usage.Some? then [probes[0]] + Accessible(probes[1..])
    else Accessible(probes[1..])
  }

  /** Filtering distributes over concatenation, so the order of `probes` is kept. */
  lemma {:induction false} AccessibleConcat(a: seq<PartitionProbe>, b: seq<PartitionProbe>)
    ensures Accessible(a + b) == Accessible(a) + Accessible(b)
  {
    if |a| == 0 {
      assert a + b == b;
    } else {
      assert (a + b)[0] == a[0];
      assert (a + b)[1..] == a[1..] + b;
      AccessibleConcat(a[1..], b);
    }
  }

  /** A single partition is kept exactly when its usage was read. */
  lemma AccessibleOne(p: PartitionProbe)
    ensures Accessible([p]) == if p.usage.Some? then [p] else []
  {
    assert [p][1..] == [];
  }

  function SumTotal(probes: seq<PartitionProbe>): int {
    if |probes| == 0 then 0
    else (if probes[0].usage.Some? then probes[0].usage.value.total else 0) + SumTotal(probes[1..])
  }

  function SumUsed(probes: seq<PartitionProbe>): int {
    if |probes| == 0 then 0
    else (if probes[0].usage.Some? then probes[0].usage.value.used else 0) + SumUsed(probes[1..])
  }

  /** `(used / total * 100) if total > 0 else 0`. */
  function Percent(used: int, total: int): (r: real)
    ensures total <= 0 ==> r == 0.0
    ensures 0 <= used <= total && total > 0 ==> 0.0 <= r <= 100.0
  {
    if total > 0 then (used as real) / (total as real) * 100.0 else 0.0
  }

  /** `info` is the entry built for `probe`: its identity and its usage figures. */
  predicate Describes(info: PartitionInfo, probe: PartitionProbe) {
    && probe.usage.Some?
    && info.device == probe.device && info.mountpoint == probe.mountpoint && info.fstype == probe.fstype
    && info.total == probe.usage.value.total && info.used == probe.usage.value.used
    && info.free == probe.usage.value.free && info.percent == probe.usage.value.percent
  }

  /** Entry `i` of `infos` is the one built for partition `i` of `probes`. */
  predicate AllDescribe(infos: seq<PartitionInfo>, probes: seq<PartitionProbe>) {
    |infos| == |probes| && forall i :: 0 <= i < |infos| ==> Describes(infos[i], probes[i])
  }

  lemma AppendDescribe(a: seq<PartitionInfo>, b: seq<PartitionInfo>, pa: seq<PartitionProbe>, pb: seq<PartitionProbe>)
    requires AllDescribe(a, pa) && AllDescribe(b, pb)
    ensures AllDescribe(a + b, pa + pb)
  {
    forall i | 0 <= i < |a| + |b|
      ensures Describes((a + b)[i], (pa + pb)[i])
    {
      if i < |a| {
        assert (a + b)[i] == a[i] && (pa + pb)[i] == pa[i];
      } else {
        assert (a + b)[i] == b[i - |a|] && (pa + pb)[i] == pb[i - |a|];
      }
    }
  }

  /** No partition's e4defrag call raises an escaping OSError. */
  predicate NoExecFailure(probes: seq<PartitionProbe>) {
    forall i :: 0 <= i < |probes| ==> !probes[i].defrag.ExecFailed?
  }

  /** One turn of the loop of `get_storage_metrics`: the entry built for `p`, if any, the
      partition it was built for, and the cache afterwards. */
  function PartitionStep(p: PartitionProbe, cache: FragCache, now: real,
                         parseNum: string -> Option<real>): (r: (seq<PartitionInfo>, seq<PartitionProbe>, FragCache))
    ensures AllDescribe(r.0, r.1)
    ensures r.1 == [] || r.1 == [p]
    ensures !p.defrag.ExecFailed? ==> r.1 == if p.usage.Some? then [p] else []
    ensures CacheValid(cache) ==> CacheValid(r.2)
  {
    if p.usage.None? then ([], [], cache)
    else
      match DiskFragmentation(cache, p.mountpoint, p.fstype, now, p.defrag, parseNum)
      case Raises => ([], [], cache)
      case Returns((frag, cache')) =>
        var u := p.usage.value;
        ([PartitionInfo(p.device, p.mountpoint, p.fstype, u.total, u.used, u.free, u.percent, frag)], [p], cache')
  }

  /** The loop of `get_storage_metrics` itself: each partition's step, threading the cache. */
  function PartitionLoop(probes: seq<PartitionProbe>, cache: FragCache, now: real,
                         parseNum: string -> Option<real>): (seq<PartitionInfo>, seq<PartitionProbe>, FragCache)
  {
    if |probes| == 0 then ([], [], cache)
    else
      var one := PartitionStep(probes[0], cache, now, parseNum);
      var rest := PartitionLoop(probes[1..], one.2, now, parseNum);
      (one.0 + rest.0, one.1 + rest.1, rest.2)
  }

  /** The loop of `get_storage_metrics`: the entries, the partitions they were built for,
      and the cache afterwards. A partition is skipped, and the cache left as it was, when
      `disk_usage` or the fragmentation measurement raised an OSError. */
  function PartitionInfos(probes: seq<PartitionProbe>, cache: FragCache, now: real,
                          parseNum: string -> Option<real>): (r: (seq<PartitionInfo>, seq<PartitionProbe>, FragCache))
    ensures AllDescribe(r.0, r.1)
    ensures forall p :: p in r.1 ==> p in probes && p.usage.Some?
    ensures |r.1| <= |probes|
    // without an escaping e4defrag failure, exactly the partitions whose usage was read
    ensures NoExecFailure(probes) ==> r.1 == Accessible(probes)
    ensures CacheValid(cache) ==> CacheValid(r.2)
  {
    PartitionLoopFacts(probes, cache, now, parseNum);
    PartitionLoop(probes, cache, now, parseNum)
  }

  lemma {:induction false} PartitionLoopFacts(probes: seq<PartitionProbe>, cache: FragCache, now: real,
                                              parseNum: string -> Option<real>)
    ensures var r := PartitionLoop(probes, cache, now, parseNum);
            && AllDescribe(r.0, r.1)
            && (forall p :: p in r.1 ==> p in probes && p.usage.Some?)
            && |r.1| <= |probes|
            && (NoExecFailure(probes) ==> r.1 == Accessible(probes))
            && (CacheValid(cache) ==> CacheValid(r.2))
  {
    if |probes| > 0 {
      var one := PartitionStep(probes[0], cache, now, parseNum);
      PartitionLoopFacts(probes[1..], one.2, now, parseNum);
      var rest := PartitionLoop(probes[1..], one.2, now, parseNum);
      PartitionInfosFacts(probes, one, rest);
    }
  }

  /** What the contract of `PartitionInfos` needs from one step and the rest of the loop. */
  lemma PartitionInfosFacts(probes: seq<PartitionProbe>, one: (seq<PartitionInfo>, seq<PartitionProbe>, FragCache),
                            rest: (seq<PartitionInfo>, seq<PartitionProbe>, FragCache))
    requires |probes| > 0
    requires AllDescribe(one.0, one.1) && AllDescribe(rest.0, rest.1)
    requires one.1 == [] || one.1 == [probes[0]]
    requires !probes[0].defrag.ExecFailed? ==> one.1 == if probes[0].usage.Some? then [probes[0]] else []
    requires forall p :: p in one.1 ==> p.usage.Some?
    requires forall p :: p in rest.1 ==> p in probes[1..] && p.usage.Some?
    requires |rest.1| <= |probes| - 1
    requires NoExecFailure(probes[1..]) ==> rest.1 == Accessible(probes[1..])
    ensures AllDescribe(one.0 + rest.0, one.1 + rest.1)
    ensures forall p :: p in one.1 + rest.1 ==> p in probes && p.usage.Some?
    ensures |one.1 + rest.1| <= |probes|
    ensures NoExecFailure(probes) ==> one.1 + rest.1 == Accessible(probes)
  {
    AppendDescribe(one.0, rest.0, one.1, rest.1);
    assert forall q :: q in probes[1..] ==> q in probes;
    if NoExecFailure(probes) {
      assert !probes[0].defrag.ExecFailed?;
      assert NoExecFailure(probes[1..]) by {
        forall i | 0 <= i < |probes[1..]| ensures !probes[1..][i].defrag.ExecFailed? {
          assert probes[1..][i] == probes[i + 1];
        }
      }
    }
  }

  /** One partition on its own: nothing when its usage could not be read or measuring its
      fragmentation raised, and then the cache is untouched; otherwise its entry, whose
      fragmentation is what `DiskFragmentation` answered, and the cache that call left. */
  lemma PartitionInfosOne(p: PartitionProbe, cache: FragCache, now: real, parseNum: string -> Option<real>)
    ensures var r := PartitionInfos([p], cache, now, parseNum);
            var d := DiskFragmentation(cache, p.mountpoint, p.fstype, now, p.defrag, parseNum);
            && (p.usage.None? ==> r == ([], [], cache))
            && (p.usage.Some? && d.Raises? ==> r == ([], [], cache))
            && (p.usage.Some? && d.Returns? ==>
                  && r.1 == [p] && |r.0| == 1 && Describes(r.0[0], p)
                  && r.0[0].fragmentation == d.value.0
                  && r.2 == d.value.1)
  {
    assert [p][0] == p;
    assert [p][1..] == [];
    var one := PartitionStep(p, cache, now, parseNum);
    assert PartitionLoop([], one.2, now, parseNum) == ([], [], one.2);
    assert one.0 + [] == one.0 && one.1 + [] == one.1;
  }

  /** The loop over two batches of partitions is the loop over the first batch followed
      by the loop over the second, started from the cache the first one left. */
  lemma PartitionInfosConcat(a: seq<PartitionProbe>, b: seq<PartitionProbe>, cache: FragCache,
                             now: real, parseNum: string -> Option<real>)
    ensures var ra := PartitionInfos(a, cache, now, parseNum);
            var rb := PartitionInfos(b, ra.2, now, parseNum);
            PartitionInfos(a + b, cache, now, parseNum) == (ra.0 + rb.0, ra.1 + rb.1, rb.2)
  {
    PartitionLoopConcat(a, b, cache, now, parseNum);
  }

  lemma {:induction false} PartitionLoopConcat(a: seq<PartitionProbe>, b: seq<PartitionProbe>, cache: FragCache,
                                               now: real, parseNum: string -> Option<real>)
    ensures var ra := PartitionLoop(a, cache, now, parseNum);
            var rb := PartitionLoop(b, ra.2, now, parseNum);
            PartitionLoop(a + b, cache, now, parseNum) == (ra.0 + rb.0, ra.1 + rb.1, rb.2)
  {
    if |a| == 0 {
      assert a + b == b;
      var rb := PartitionLoop(b, cache, now, parseNum);
      assert [] + rb.0 == rb.0 && [] + rb.1 == rb.1;
    } else {
      var one := PartitionStep(a[0], cache, now, parseNum);
      PartitionLoopConcat(a[1..], b, one.2, now, parseNum);
      PartitionLoopCons(a, b, cache, now, parseNum);
    }
  }

  /** The inductive step of `PartitionLoopConcat`: the first partition of `a` comes first. */
  lemma PartitionLoopCons(a: seq<PartitionProbe>, b: seq<PartitionProbe>, cache: FragCache,
                          now: real, parseNum: string -> Option<real>)
    requires |a| > 0
    requires var one := PartitionStep(a[0], cache, now, parseNum);
             var ra' := PartitionLoop(a[1..], one.2, now, parseNum);
             var rb := PartitionLoop(b, ra'.2, now, parseNum);
             PartitionLoop(a[1..] + b, one.2, now, parseNum) == (ra'.0 + rb.0, ra'.1 + rb.1, rb.2)
    ensures var ra := PartitionLoop(a, cache, now, parseNum);
            var rb := PartitionLoop(b, ra.2, now, parseNum);
            PartitionLoop(a + b, cache, now, parseNum) == (ra.0 + rb.0, ra.1 + rb.1, rb.2)
  {
    var one := PartitionStep(a[0], cache, now, parseNum);
    var ra' := PartitionLoop(a[1..], one.2, now, parseNum);
    var rb := PartitionLoop(b, ra'.2, now, parseNum);
    var rest := PartitionLoop(a[1..] + b, one.2, now, parseNum);
    assert PartitionLoop(a + b, cache, now, parseNum) == (one.0 + rest.0, one.1 + rest.1, rest.2) by {
      assert (a + b)[0] == a[0];
      assert (a + b)[1..] == a[1..] + b;
    }
    assert PartitionLoop(a, cache, now, parseNum) == (one.0 + ra'.0, one.1 + ra'.1, ra'.2) by {
      assert |a| > 0;
    }
    assert one.0 + (ra'.0 + rb.0) == (one.0 + ra'.0) + rb.0 by {
      SeqAssoc(one.0, ra'.0, rb.0);
    }
    assert one.1 + (ra'.1 + rb.1) == (one.1 + ra'.1) + rb.1 by {
      SeqAssoc(one.1, ra'.1, rb.1);
    }
  }

  lemma SeqAssoc<T>(x: seq<T>, y: seq<T>, z: seq<T>)
    ensures x + (y + z) == (x + y) + z
  {
  }

  /** The size reported over a list of entries. */
  function InfoTotal(infos: seq<PartitionInfo>): int {
    if |infos| == 0 then 0 else infos[0].total + InfoTotal(infos[1..])
  }

  /** The used bytes reported over a list of entries. */
  function InfoUsed(infos: seq<PartitionInfo>): int {
    if |infos| == 0 then 0 else infos[0].used + InfoUsed(infos[1..])
  }

  /** Entries built for partitions report the same sums as the partitions. */
  lemma {:induction false} DescribedSums(infos: seq<PartitionInfo>, probes: seq<PartitionProbe>)
    requires AllDescribe(infos, probes)
    ensures InfoTotal(infos) == SumTotal(probes) && InfoUsed(infos) == SumUsed(probes)
  {
    if |infos| > 0 {
      assert Describes(infos[0], probes[0]);
      assert AllDescribe(infos[1..], probes[1..]) by {
        forall i | 0 <= i < |infos[1..]| ensures Describes(infos[1..][i], probes[1..][i]) {
          assert infos[1..][i] == infos[i + 1] && probes[1..][i] == probes[i + 1];
        }
      }
      DescribedSums(infos[1..], probes[1..]);
    }
  }

  /** `get_storage_metrics()`: the totals cover exactly the partitions listed. */
  function GetStorageMetrics(probes: seq<PartitionProbe>, cache: FragCache, now: real,
                             parseNum: string -> Option<real>): (r: (StorageMetrics, FragCache))
    ensures r.0.totalUsage.total == InfoTotal(r.0.partitions)
    ensures r.0.totalUsage.used == InfoUsed(r.0.partitions)
    ensures r.0.totalUsage.free == r.0.totalUsage.total - r.0.totalUsage.used
    ensures r.0.totalUsage.total <= 0 ==> r.0.totalUsage.percent == 0.0
    ensures 0 <= r.0.totalUsage.used <= r.0.totalUsage.total && r.0.totalUsage.total > 0 ==>
              0.0 <= r.0.totalUsage.percent <= 100.0
    // without an escaping e4defrag failure: one entry per partition whose usage was read
    ensures NoExecFailure(probes) ==>
              && AllDescribe(r.0.partitions, Accessible(probes))
              && r.0.totalUsage.total == SumTotal(probes)
              && r.0.totalUsage.used == SumUsed(probes)
    ensures CacheValid(cache) ==> CacheValid(r.1)
    // the entries, fragmentation included, and the cache are those the partition loop
    // produces, which PartitionInfosOne and PartitionInfosConcat pin down partition by partition
    ensures var loop := PartitionInfos(probes, cache, now, parseNum);
            r.0.partitions == loop.0 && r.1 == loop.2 && AllDescribe(r.0.partitions, loop.1)
  {
    var (infos, kept, cache') := PartitionInfos(probes, cache, now, parseNum);
    var total := SumTotal(kept);
    var used := SumUsed(kept);
    DescribedSums(infos, kept);
    SumsOverAccessible(probes);
    (StorageMetrics(infos, StorageTotals(total, used, total - used, Percent(used, total))), cache')
  }

  /** The aggregate over two batches of partitions is the sum of their aggregates. */
  lemma {:induction false} SumsAdditive(a: seq<PartitionProbe>, b: seq<PartitionProbe>)
    ensures SumTotal(a + b) == SumTotal(a) + SumTotal(b)
    ensures SumUsed(a + b) == SumUsed(a) + SumUsed(b)
  {
    if |a| > 0 {
      assert (a + b)[1..] == a[1..] + b;
      SumsAdditive(a[1..], b);
    } else {
      assert a + b == b;
    }
  }

  /** Only accessible partitions contribute: the sums equal those over `Accessible`. */
  lemma {:induction false} SumsOverAccessible(probes: seq<PartitionProbe>)
    ensures SumTotal(probes) == SumTotal(Accessible(probes))
    ensures SumUsed(probes) == SumUsed(Accessible(probes))
  {
    if |probes| > 0 {
      SumsOverAccessible(probes[1..]);
      if probes[0].usage.Some? {
        assert ([probes[0]] + Accessible(probes[1..]))[1..] == Accessible(probes[1..]);
      }
    }
  }

  predicate UsageSane(probes: seq<PartitionProbe>) {
    forall i :: 0 <= i < |probes| && probes[i].usage.Some? ==>
      0 <= probes[i].usage.value.used <= probes[i].usage.value.total
  }

  lemma {:induction false} SumsOrdered(probes: seq<PartitionProbe>)
    requires UsageSane(probes)
    ensures 0 <= SumUsed(probes) <= SumTotal(probes)
  {
    if |probes| > 0 {
      assert UsageSane(probes[1..]) by {
        forall i | 0 <= i < |probes[1..]| && probes[1..][i].usage.Some?
          ensures 0 <= probes[1..][i].usage.value.used <= probes[1..][i].usage.value.total
        {
          assert probes[1..][i] == probes[i + 1];
        }
      }
      SumsOrdered(probes[1..]);
    }
  }

  /** When every partition's used bytes lie within its size, the aggregate percentage is
      in [0, 100] and free space is non-negative, whichever partitions were skipped. */
  lemma StoragePercentBounded(probes: seq<PartitionProbe>, cache: FragCache, now: real,
                              parseNum: string -> Option<real>)
    requires UsageSane(probes)
    ensures var t := GetStorageMetrics(probes, cache, now, parseNum).0.totalUsage;
            0.0 <= t.percent <= 100.0 && t.free >= 0
  {
    var (infos, kept, _) := PartitionInfos(probes, cache, now, parseNum);
    assert UsageSane(kept) by {
      forall i | 0 <= i < |kept| && kept[i].usage.Some?
        ensures 0 <= kept[i].usage.value.used <= kept[i].usage.value.total
      {
        assert kept[i] in probes;
        var j :| 0 <= j < |probes| && probes[j] == kept[i];
      }
    }
    SumsOrdered(kept);
    DescribedSums(infos, kept);
  }

  // ---------------------------------------------------------------------------
  // Network speeds

  /** Bytes per second over the elapsed time, 0 when no time has passed. */
  function Speed(delta: int, elapsed: real): (r: real)
    ensures elapsed <= 0.0 ==> r == 0.0
    ensures elapsed > 0.0 ==> r * elapsed == delta as real
  {
    if elapsed > 0.0 then (delta as real) / elapsed else 0.0
  }

  datatype NetCounters = NetCounters(bytesSent: int, bytesRecv: int)

  /** The previous counter sample and its time, kept between calls. */
  datatype NetState = NetState(last: NetCounters, lastTime: real)

  /** `get_network_metrics()`: deltas since the previous sample, speeds, and the new sample. */
  function GetNetworkMetrics(state: NetState, current: NetCounters, now: real): (r: (NetworkMetrics, NetState))
    ensures r.1 == NetState(current, now)
    ensures r.0.totalBytesSent == current.bytesSent && r.0.totalBytesRecv == current.bytesRecv
    ensures r.0.bytesSent + state.last.bytesSent == current.bytesSent
    ensures r.0.bytesRecv + state.last.bytesRecv == current.bytesRecv
    ensures now <= state.lastTime ==> r.0.uploadSpeed == 0.0 && r.0.downloadSpeed == 0.0
    ensures now > state.lastTime ==>
              && r.0.uploadSpeed * (now - state.lastTime) == r.0.bytesSent as real
              && r.0.downloadSpeed * (now - state.lastTime) == r.0.bytesRecv as real
  {
    var elapsed := now - state.lastTime;
    var sent := current.bytesSent - state.last.bytesSent;
    var recv := current.bytesRecv - state.last.bytesRecv;
    (NetworkMetrics(sent, recv, current.bytesSent, current.bytesRecv, Speed(sent, elapsed), Speed(recv, elapsed)),
     NetState(current, now))
  }
}

=== FILE: text.dfy ===
/** The handful of Python string operations the monitor relies on, over `seq<char>`. */
module Text {
  import opened Base

  /** `str.isspace()` for one character: the ASCII controls 9-13 and 28-31, the space,
      and the Unicode separators Python treats as whitespace. */
  predicate IsSpace(c: char) {
    || c == ' '
    || ('\t' <= c <= '\r')
    || ('\U{1c}' <= c <= '\U{1f}')
    || c == '\U{85}' || c == '\U{a0}' || c == '\U{1680}'
    || ('\U{2000}' <= c <= '\U{200a}')
    || c == '\U{2028}' || c == '\U{2029}' || c == '\U{202f}' || c == '\U{205f}' || c == '\U{3000}'
  }

  predicate NoSpace(s: string) {
    forall i :: 0 <= i < |s| ==> !IsSpace(s[i])
  }

  // ---------------------------------------------------------------------------
  // str.split() with no argument

  /** Length of the leading run of non-whitespace characters. */
  function TokenLen(s: string): (n: nat)
    ensures n <= |s|
    ensures forall i :: 0 <= i < n ==> !IsSpace(s[i])
    ensures n < |s| ==> IsSpace(s[n])
  {
    if |s| == 0 || IsSpace(s[0]) then 0 else 1 + TokenLen(s[1..])
  }

  /** `s.split()`: the maximal runs of non-whitespace characters, in order. */
  function Words(s: string): (r: seq<string>)
    ensures forall i :: 0 <= i < |r| ==> |r[i]| > 0 && NoSpace(r[i])
    decreases |s|
  {
    if |s| == 0 then []
    else if IsSpace(s[0]) then Words(s[1..])
    else
      var n := TokenLen(s);
      [s[..n]] + Words(s[n..])
  }

  /** `sep.join(parts)`. */
  function Join(parts: seq<string>, sep: string): string {
    if |parts| == 0 then ""
    else if |parts| == 1 then parts[0]
    else parts[0] + sep + Join(parts[1..], sep)
  }

  /** The parts that are not the empty string, in order (`[m for m in msgs if m]`). */
  function NonEmpty(parts: seq<string>): (r: seq<string>)
    ensures forall i :: 0 <= i < |r| ==> r[i] != ""
    ensures forall m :: m in r <==> m in parts && m != ""
    ensures |r| <= |parts|
  {
    if |parts| == 0 then []
    else if parts[0] == "" then NonEmpty(parts[1..])
    else [parts[0]] + NonEmpty(parts[1..])
  }

  /** `sep.join(m for m in parts if m)`. */
  function JoinNonEmpty(parts: seq<string>, sep: string): string {
    Join(NonEmpty(parts), sep)
  }

  lemma {:induction false} TokenLenOfWord(w: string, rest: string)
    requires NoSpace(w)
    requires rest == [] || IsSpace(rest[0])
    ensures TokenLen(w + rest) == |w|
    decreases |w|
  {
    if |w| > 0 {
      assert (w + rest)[1..] == w[1..] + rest;
      TokenLenOfWord(w[1..], rest);
    } else {
      assert w + rest == rest;
    }
  }

  /** A word followed by whitespace (or nothing) splits off as the first token. */
  lemma WordsCons(w: string, rest: string)
    requires |w| > 0 && NoSpace(w)
    requires rest == [] || IsSpace(rest[0])
    ensures Words(w + rest) == [w] + Words(rest)
  {
    TokenLenOfWord(w, rest);
    var s := w + rest;
    assert s[..|w|] == w;
    assert s[|w|..] == rest;
  }

  lemma WordsSkipSpace(s: string)
    ensures Words(" " + s) == Words(s)
  {
    assert (" " + s)[1..] == s;
  }

  /** Splitting the space-joined words gives the words back: `" ".join(ws).split() == ws`. */
  lemma {:induction false} WordsOfJoin(ws: seq<string>)
    requires forall i :: 0 <= i < |ws| ==> |ws[i]| > 0 && NoSpace(ws[i])
    ensures Words(Join(ws, " ")) == ws
  {
    if |ws| == 0 {
    } else if |ws| == 1 {
      WordsCons(ws[0], []);
      assert ws[0] + [] == ws[0];
    } else {
      var tail := Join(ws[1..], " ");
      assert Join(ws, " ") == ws[0] + (" " + tail);
      WordsCons(ws[0], " " + tail);
      WordsSkipSpace(tail);
      WordsOfJoin(ws[1..]);
      assert ws == [ws[0]] + ws[1..];
    }
  }

  /** The space-join of non-empty, space-free words neither starts nor ends with whitespace. */
  lemma {:induction false} JoinWordsTrimmed(ws: seq<string>)
    requires forall i :: 0 <= i < |ws| ==> |ws[i]| > 0 && NoSpace(ws[i])
    ensures var j := Join(ws, " "); j == [] || (!IsSpace(j[0]) && !IsSpace(j[|j| - 1]))
    ensures |ws| > 0 ==> Join(ws, " ") != []
  {
    if |ws| >= 2 {
      var tail := Join(ws[1..], " ");
      JoinWordsTrimmed(ws[1..]);
      var j := ws[0] + " " + tail;
      assert j[0] == ws[0][0];
      assert j[|j| - 1] == tail[|tail| - 1];
    }
  }

  /** The join of non-empty strings is empty exactly when there are none. */
  lemma {:induction false} JoinEmptyIff(parts: seq<string>, sep: string)
    requires forall i :: 0 <= i < |parts| ==> parts[i] != ""
    ensures Join(parts, sep) == "" <==> |parts| == 0
  {
    if |parts| >= 2 {
      assert |Join(parts, sep)| >= |parts[0]| > 0;
    } else if |parts| == 1 {
      assert parts[0] != "";
    }
  }

  // ---------------------------------------------------------------------------
  // str.strip()

  /** Number of leading whitespace characters. */
  function LeadingSpace(s: string): (n: nat)
    ensures n <= |s|
    ensures forall i :: 0 <= i < n ==> IsSpace(s[i])
    ensures n < |s| ==> !IsSpace(s[n])
  {
    if |s| == 0 || !IsSpace(s[0]) then 0 else 1 + LeadingSpace(s[1..])
  }

  /** Number of trailing whitespace characters. */
  function TrailingSpace(s: string): (n: nat)
    ensures n <= |s|
    ensures forall i :: |s| - n <= i < |s| ==> IsSpace(s[i])
    ensures n < |s| ==> !IsSpace(s[|s| - n - 1])
  {
    if |s| == 0 || !IsSpace(s[|s| - 1]) then 0 else 1 + TrailingSpace(s[..|s| - 1])
  }

  /** `r` is `s[i..j]`, and everything of `s` outside that slice is whitespace. */
  predicate StrippedSlice(s: string, r: string, i: int, j: int) {
    && 0 <= i <= j <= |s| && r == s[i..j]
    && (forall k :: 0 <= k < i ==> IsSpace(s[k]))
    && (forall k :: j <= k < |s| ==> IsSpace(s[k]))
  }

  /** `s.strip()`: the slice of `s` left once whitespace is removed from both ends. When
      everything is whitespace the two runs overlap and the result is empty. */
  function Strip(s: string): (r: string)
    ensures r == [] || (!IsSpace(r[0]) && !IsSpace(r[|r| - 1]))
    ensures exists i, j :: StrippedSlice(s, r, i, j)
  {
    var a := LeadingSpace(s);
    if a == |s| then
      assert StrippedSlice(s, [], a, a);
      []
    else
      var j := |s| - TrailingSpace(s);
      assert a < j;
      assert StrippedSlice(s, s[a..j], a, j);
      s[a..j]
  }

  /** Stripping a string that has no whitespace leaves it alone. */
  lemma StripNoSpace(s: string)
    requires NoSpace(s)
    ensures Strip(s) == s
  {
    assert LeadingSpace(s) == 0;
    assert TrailingSpace(s) == 0;
  }

  /** A string that neither starts nor ends with whitespace is its own strip. */
  lemma StripTrimmed(s: string)
    requires s == [] || (!IsSpace(s[0]) && !IsSpace(s[|s| - 1]))
    ensures Strip(s) == s
  {
    assert LeadingSpace(s) == 0;
    assert s[0..] == s;
    assert TrailingSpace(s) == 0;
  }

  /** `s.strip()` is idempotent. */
  lemma StripIdempotent(s: string)
    ensures Strip(Strip(s)) == Strip(s)
  {
    var r := Strip(s);
    assert LeadingSpace(r) == 0;
    assert r[0..] == r;
    assert TrailingSpace(r) == 0;
  }

  /** `f.readline().strip()` on a file's contents; "" when opening or reading raised. */
  function ReadFirstLine(content: Option<string>): (r: string)
    ensures content.None? ==> r == ""
    ensures content.Some? && '\n' !in content.value ==> r == Strip(content.value)
  {
    if content.None? then ""
    else
      var s := content.value;
      var n := IndexOf(s, '\n');
      Strip(if n < |s| then s[..n + 1] else s)
  }

  // ---------------------------------------------------------------------------
  // Prefixes, substrings, splitting on one character, replacement

  predicate StartsWith(s: string, prefix: string) {
    |prefix| <= |s| && s[..|prefix|] == prefix
  }

  predicate EndsWith(s: string, suffix: string) {
    |suffix| <= |s| && s[|s| - |suffix|..] == suffix
  }

  /** Python's `sub in s`. */
  predicate Contains(s: string, sub: string)
    decreases |s|
  {
    StartsWith(s, sub) || (|s| > 0 && Contains(s[1..], sub))
  }

  /** `sub` occurs in `s` starting at offset `i`. */
  predicate OccursAt(s: string, sub: string, i: int) {
    0 <= i && i + |sub| <= |s| && s[i..i + |sub|] == sub
  }

  /** `sub in s` holds exactly when `sub` occurs at some offset of `s`. */
  lemma {:induction false} ContainsIffOccurs(s: string, sub: string)
    ensures Contains(s, sub) <==> exists i :: OccursAt(s, sub, i)
    decreases |s|
  {
    if StartsWith(s, sub) {
      assert OccursAt(s, sub, 0);
    } else if |s| > 0 {
      ContainsIffOccurs(s[1..], sub);
      if Contains(s[1..], sub) {
        var i :| OccursAt(s[1..], sub, i);
        assert s[i + 1..i + 1 + |sub|] == s[1..][i..i + |sub|];
        assert OccursAt(s, sub, i + 1);
      }
      if exists i :: OccursAt(s, sub, i) {
        var i :| OccursAt(s, sub, i);
        assert i > 0;
        assert s[1..][i - 1..i - 1 + |sub|] == s[i..i + |sub|];
        assert OccursAt(s[1..], sub, i - 1);
      }
    }
  }

  /** Index of the first `c` in `s`, or `|s|` when there is none. */
  function IndexOf(s: string, c: char): (n: nat)
    ensures n <= |s|
    ensures forall i :: 0 <= i < n ==> s[i] != c
    ensures n < |s| ==> s[n] == c
  {
    if |s| == 0 || s[0] == c then 0 else 1 + IndexOf(s[1..], c)
  }

  /** `s.split(c)` for a one-character separator: the pieces between occurrences of `c`. */
  function Split(s: string, c: char): (r: seq<string>)
    ensures |r| >= 1
    ensures forall i :: 0 <= i < |r| ==> c !in r[i]
    decreases |s|
  {
    var n := IndexOf(s, c);
    if n == |s| then
      assert forall k :: 0 <= k < |s| ==> s[k] != c;
      [s]
    else [s[..n]] + Split(s[n + 1..], c)
  }

  /** Joining the pieces of `s.split(c)` with `c` gives `s` back. */
  lemma {:induction false} JoinSplit(s: string, c: char)
    ensures Join(Split(s, c), [c]) == s
    decreases |s|
  {
    var n := IndexOf(s, c);
    if n < |s| {
      var rest := s[n + 1..];
      var tail := Split(rest, c);
      JoinSplit(rest, c);
      var l := [s[..n]] + tail;
      assert Split(s, c) == l;
      assert l[1..] == tail;
      assert Join(l, [c]) == s[..n] + [c] + Join(tail, [c]);
      assert s == s[..n] + [c] + rest;
    }
  }

  /** `s.replace(pattern, replacement)`: every non-overlapping occurrence, scanning left to right. */
  function ReplaceAll(s: string, pattern: string, replacement: string): string
    requires |pattern| > 0
    decreases |s|
  {
    if |s| < |pattern| then s
    else if s[..|pattern|] == pattern then replacement + ReplaceAll(s[|pattern|..], pattern, replacement)
    else [s[0]] + ReplaceAll(s[1..], pattern, replacement)
  }

  // ---------------------------------------------------------------------------
  // str.lower() restricted to ASCII letters

  function LowerChar(c: char): char {
    if 'A' <= c <= 'Z' then (c as int + 32) as char else c
  }

  /** `s.lower()` for ASCII letters; every other character is kept. */
  function Lower(s: string): (r: string)
    ensures |r| == |s|
    ensures forall i :: 0 <= i < |s| ==> r[i] == LowerChar(s[i])
  {
    seq(|s|, i requires 0 <= i < |s| => LowerChar(s[i]))
  }

  lemma LowerIdempotent(s: string)
    ensures Lower(Lower(s)) == Lower(s)
  {
  }

  // ---------------------------------------------------------------------------
  // Decimal integers: str(int) and int(str)

  predicate IsDigit(c: char) {
    '0' <= c <= '9'
  }

  function DigitChar(d: nat): (c: char)
    requires d < 10
    ensures IsDigit(c) && c as int - '0' as int == d
  {
    (d + '0' as int) as char
  }

  /** `str(n)` for a natural number. */
  function NatToString(n: nat): (r: string)
    ensures |r| > 0
    ensures forall i :: 0 <= i < |r| ==> IsDigit(r[i])
    decreases n
  {
    if n < 10 then [DigitChar(n)] else NatToString(n / 10) + [DigitChar(n % 10)]
  }

  /** `str(i)` for any integer. */
  function IntToString(i: int): string {
    if i < 0 then "-" + NatToString(-i) else NatToString(i)
  }

  /** The value of a non-empty run of decimal digits, or None. */
  function DigitsValue(s: string): (r: Option<nat>)
    ensures r.Some? <==> |s| > 0 && forall i :: 0 <= i < |s| ==> IsDigit(s[i])
    decreases |s|
  {
    if |s| == 0 || !IsDigit(s[|s| - 1]) then None
    else
      var d := s[|s| - 1] as int - '0' as int;
      if |s| == 1 then Some(d)
      else
        match DigitsValue(s[..|s| - 1])
        case None => None
        case Some(v) => Some(10 * v + d)
  }

  /** `int()` on an already stripped text: an optional sign, then decimal digits. */
  function ParseSigned(t: string): Option<int> {
    if |t| > 0 && (t[0] == '-' || t[0] == '+') then
      match DigitsValue(t[1..])
      case None => None
      case Some(v) => var x: int := if t[0] == '-' then -(v as int) else v; Some(x)
    else
      match DigitsValue(t)
      case None => None
      case Some(v) => Some(v)
  }

  /** `int(s)`: optional surrounding whitespace, an optional sign, then decimal digits;
      None where Python raises ValueError. */
  function ParseInt(s: string): Option<int> {
    ParseSigned(Strip(s))
  }

  lemma {:induction false} DigitsValueOfNat(n: nat)
    ensures DigitsValue(NatToString(n)) == Some(n)
    decreases n
  {
    var s := NatToString(n);
    if n >= 10 {
      DigitsValueOfNat(n / 10);
      assert s[..|s| - 1] == NatToString(n / 10);
    }
  }

  /** `str(i)` is a non-empty text without whitespace. */
  lemma IntToStringNoSpace(i: int)
    ensures |IntToString(i)| > 0 && NoSpace(IntToString(i))
  {
    var d := NatToString(if i < 0 then -i else i);
    assert forall k :: 0 <= k < |d| ==> IsDigit(d[k]);
    if i < 0 {
      assert IntToString(i) == "-" + d;
      forall k | 0 <= k < |IntToString(i)| ensures !IsSpace(IntToString(i)[k]) {
        if k > 0 {
          assert IntToString(i)[k] == d[k - 1];
        }
      }
    }
  }

  lemma ParseSignedOfIntToString(i: int)
    ensures ParseSigned(IntToString(i)) == Some(i)
  {
    var m: nat := if i < 0 then -i else i;
    var d := NatToString(m);
    DigitsValueOfNat(m);
    if i < 0 {
      var s := IntToString(i);
      assert s == "-" + d;
      assert s[1..] == d;
    } else {
      assert IsDigit(d[0]);
    }
  }

  /** `int(str(i)) == i`. */
  lemma ParseIntOfIntToString(i: int)
    ensures ParseInt(IntToString(i)) == Some(i)
  {
    IntToStringNoSpace(i);
    StripNoSpace(IntToString(i));
    ParseSignedOfIntToString(i);
  }

  // ---------------------------------------------------------------------------
  // Facts about splitting and replacing

  /** The first piece of `s.split(c)` is everything before the first `c`. */
  lemma SplitFirst(s: string, c: char)
    ensures Split(s, c)[0] == s[..IndexOf(s, c)]
  {
  }

  /** A string that does not contain the pattern's first character is left alone. */
  lemma {:induction false} ReplaceAbsent(s: string, pattern: string, replacement: string)
    requires |pattern| > 0
    requires forall i :: 0 <= i < |s| ==> s[i] != pattern[0]
    ensures ReplaceAll(s, pattern, replacement) == s
    decreases |s|
  {
    if |s| >= |pattern| {
      assert s[..|pattern|][0] == s[0];
      ReplaceAbsent(s[1..], pattern, replacement);
      assert s == [s[0]] + s[1..];
    }
  }

  /** A leading occurrence is replaced and the scan continues after it. */
  lemma ReplaceLeading(pattern: string, rest: string, replacement: string)
    requires |pattern| > 0
    ensures ReplaceAll(pattern + rest, pattern, replacement) == replacement + ReplaceAll(rest, pattern, replacement)
  {
    var s := pattern + rest;
    assert s[..|pattern|] == pattern;
    assert s[|pattern|..] == rest;
  }
}
